=== FILE: README.md ===
# Choir Ruvumera — a Dafny model of the choir application's core

The choir application is a single-page React client over a hosted Postgres
store (Supabase). Choir administrators, editors and members use it to keep a
song library, a member roster and a group chat. The repository holds two
diverging copies of the client:

- the **root variant**: `App.tsx`, `context/`, `components/`, `pages/`, `services/`;
- the **choir-ii-ruvumera variant**: the `choir-ii-ruvumera/` copy.

Both copies share the same data model. They differ in how they guard routes,
check emails, restore sessions and import backups.

This project models the behavioural core of both variants as pure functions
over immutable data, and proves properties about that model.

- **The store.** The four tables (`users`, `songs`, `members`, `messages`) are
  a `Db` of four maps from primary key to row.
  - Ids and timestamps that the database generates are parameters (`newId`, `now`).
  - Failures that follow from the data are `Result` failures everywhere: an unknown id, a taken email, wrong credentials, an update with no field.
  - A store that fails for any other reason is an input to these members only:
    - the administrator-seeding lookups (`ChoirDb.SeedAdmin`, `ChoirAuth.InitAuth`, `RootDb.SeedAdmin`);
    - the connection probe (`RootDb.CheckConnection`);
    - the table reads of the exports (`RootDb.ReadAll`, `RootDb.ExportDatabase`, `ChoirDb.ExportDatabase`, `RootSettings.HandleDownload`);
    - the message sends (`ChoirChat.HandleSendText`, `ChoirChat.HandleFileUpload`, `RootChat.HandleSend`);
    - the song saves (`SongEditor.Submit`, `ChoirSongEditor.HandleSubmit`);
    - the root session restore (`RootAuth.Restore`, which completes or throws).
  - Every other call is modelled as reaching the store (see "## Left out").
- **The client.** It is a `Client`: the published `AuthState` plus the session
  slot in local storage. That slot holds the account without its credential.
- **Page handlers.** Each handler is a transition from (store, client,
  inputs) to (store, client, outcome).
  - Navigation is a returned path.
  - `window.confirm` and `prompt` are inputs.
  - Flag lifecycles (`isLoading`, `isSaving`, `downloading`) are the
    sequence of values the handler writes.

Modules follow the source files:

| module | models |
|---|---|
| `Domain`, `Wrappers`, `Collections`, `Text` | records, `Option`/`Result`, listing and sorting, the string built-ins the pages use |
| `Tables` | the store primitives both `mockDb.ts` files implement alike |
| `ChoirDb`, `RootDb` | the two persistence services |
| `ChoirAuth`, `RootAuth` | the two authentication providers |
| `Routes`, `ChoirApp`, `RootApp` | the route table and the two route guards |
| `ChoirLayout`, `RootLayout` | the two sidebars |
| `ChoirChat`, `RootChat` | the two chat pages |
| `ChoirProfile`, `RootProfile` | the two profile pages |
| `UserAdmin`, `ChoirUsers`, `RootUsers` | the two user-management pages and their shared controls |
| `RootSongs`, `RootSettings` | the song library and backup pages of the root variant |
| `SongEditor`, `ChoirSongEditor`, `ChoirSongDetail` | the song editor of both variants, and the song page |

## Model

| member | source | states |
|---|---|---|
| Tables.FindByEmail | choir-ii-ruvumera/services/mockDb.ts:53-62 | the email lookup gives no row exactly when no account holds the email. It fails with "several rows" exactly when two or more do. Otherwise it gives the one account holding it |
| Tables.FindByEmailUnique | choir-ii-ruvumera/services/mockDb.ts:53-62 | with one account per email, the lookup never fails and finds each account under its own email |
| Tables.InsertUser | choir-ii-ruvumera/services/mockDb.ts:80-86 | a user insert fails exactly on a primary key already present; otherwise it adds just that row |
| Tables.PatchUser | services/mockDb.ts:82-87 | an account update never changes id, role, creation time or suspension flag; it writes exactly the name, email and avatar it is given |
| Tables.UpdateUserRow | choir-ii-ruvumera/services/mockDb.ts:91-101 | updating an unknown id, or updating with no field given, fails with "no rows". Otherwise only that row's given fields change, and its credential stays |
| Tables.ResetUserPassword | choir-ii-ruvumera/services/mockDb.ts:118-125 | only the credential of the targeted row changes; every other row, field and table stays |
| Tables.DeleteUser | choir-ii-ruvumera/services/mockDb.ts:136-139 | the row is gone afterwards; every other row and table stays |
| Tables.CreateSong | choir-ii-ruvumera/services/mockDb.ts:152-161 | a new song stores the draft's fields, including both author stamps, under the fresh id. Its creation and update times are both `now` |
| Tables.UpdateSong | choir-ii-ruvumera/services/mockDb.ts:163-173 | a song update always sets `updatedAt` to now. It can never change id, creation time or `createdBy`, and it fails on an unknown id |
| Tables.DeleteSong | choir-ii-ruvumera/services/mockDb.ts:175-178 | the song is gone afterwards; every other song and table stays |
| Tables.ListSongs | choir-ii-ruvumera/services/mockDb.ts:143-150 | the song listing holds every stored song exactly once, newest first |
| Tables.ListMembers | choir-ii-ruvumera/services/mockDb.ts:182-189 | the member listing holds every member exactly once, ascending by name |
| Tables.ListMessages | choir-ii-ruvumera/services/mockDb.ts:221-230 | messages come oldest first. With a limit, the listing is the earliest messages and never longer than the limit. It holds all of them when there are no more than the limit |
| Tables.SendMessage | choir-ii-ruvumera/services/mockDb.ts:232-241 | a sent message stores the draft under the fresh id, stamped with the current time; nothing else changes |
| Tables.DeleteMessage | choir-ii-ruvumera/services/mockDb.ts:243-246 | the message is gone afterwards; every other message and table stays |
| Tables.UserWritesKeepKeys | choir-ii-ruvumera/services/mockDb.ts:91-139 | password reset, delete and update of an account keep every user row under its own key |
| Tables.SongWritesKeepKeys | choir-ii-ruvumera/services/mockDb.ts:152-178 | creating, updating and deleting songs keep every song under its own key |
| Tables.MessageWritesKeepKeys | choir-ii-ruvumera/services/mockDb.ts:232-246 | sending and deleting messages keep every message under its own key |
| ChoirDb.SeedAdmin | choir-ii-ruvumera/services/mockDb.ts:8-43 | the reserved administrator (not suspended) is inserted exactly when the lookup works, no account holds the reserved email, and the key is free. A lookup error writes nothing |
| ChoirDb.SeedAdminIdempotent | choir-ii-ruvumera/services/mockDb.ts:8-43 | after a successful seed exactly one account holds the reserved email and emails stay unique; seeding again changes nothing |
| ChoirDb.CreateUser | choir-ii-ruvumera/services/mockDb.ts:74-89 | a registered email is refused with 'User already exists' and nothing is written. On success the row is added and the returned account carries no credential |
| ChoirDb.AdminUpdateUserEmail | choir-ii-ruvumera/services/mockDb.ts:103-116 | an email held by a different account is refused with 'Email is already in use'. Re-setting one's own email succeeds. Only that row's email changes |
| ChoirDb.ToggleChatSuspension | choir-ii-ruvumera/services/mockDb.ts:127-134 | only the suspension flag of the targeted row changes |
| ChoirDb.SeedAdminKeepsInvariants | choir-ii-ruvumera/services/mockDb.ts:8-43 | seeding keeps emails unique and rows under their keys |
| ChoirDb.CreateUserKeepsInvariants | choir-ii-ruvumera/services/mockDb.ts:74-89 | registration keeps emails unique and rows under their keys |
| ChoirDb.AdminUpdateUserEmailKeepsInvariants | choir-ii-ruvumera/services/mockDb.ts:103-116 | an email change keeps emails unique and rows under their keys |
| ChoirDb.ToggleChatSuspensionKeepsInvariants | choir-ii-ruvumera/services/mockDb.ts:127-134 | the suspension toggle keeps emails unique and rows under their keys |
| ChoirDb.GetUsers | choir-ii-ruvumera/services/mockDb.ts:47-51 | every account row appears exactly once, oldest account first |
| ChoirDb.GetMessages | choir-ii-ruvumera/services/mockDb.ts:221-230 | at most 200 messages, oldest first. They are the 200 earliest, or every message when there are no more than 200 |
| ChoirDb.ExportDatabase | choir-ii-ruvumera/services/mockDb.ts:251-268 | the export rejects exactly when one of the four reads fails. Otherwise the backup is version 3 and lists every user, song and member, and holds no more than the 200 earliest messages |
| ChoirDb.Refilled | choir-ii-ruvumera/services/mockDb.ts:282-291 | after the delete-all and the insert, a table holds exactly the document's rows by key. It is empty when the field is missing, not a list, or names a key twice |
| ChoirDb.ImportDatabase | choir-ii-ruvumera/services/mockDb.ts:270-298 | an unparseable document, or one whose `songs` is not a list, fails before anything is deleted. Otherwise every table is replaced by the document's rows |
| ChoirDb.ImportReplaces | choir-ii-ruvumera/services/mockDb.ts:280-291 | replace semantics: the result of an import does not depend on what the store held before |
| ChoirDb.RefilledListing | choir-ii-ruvumera/services/mockDb.ts:287-291 | inserting a complete listing of a well-keyed table rebuilds exactly that table |
| ChoirDb.SnapshotRestores | choir-ii-ruvumera/services/mockDb.ts:251-298 | importing a complete snapshot of a store gives back that store, whatever the target held |
| ChoirDb.BackupAndRestore | choir-ii-ruvumera/services/mockDb.ts:251-298 | with every read succeeding, export then import gives back the store when it holds at most 200 messages. Otherwise every other table comes back, and only some of the original messages, at most 200 |
| ChoirDb.PartialListingRefills | choir-ii-ruvumera/services/mockDb.ts:288-291 | re-inserting some rows of a table gives a table no larger than the list, holding only original rows under their own keys |
| RootDb.CheckConnection | services/mockDb.ts:12-18 | only the missing-relation code 42P01 reads as "not connected"; every other probe answer reads as connected |
| RootDb.SeedAdmin | services/mockDb.ts:21-42 | the administrator (with no suspension flag) is inserted exactly when the query works, returns no row for the reserved email, and the key is free. A query error writes nothing |
| RootDb.LookupEmail | services/mockDb.ts:57-60 | the lookup, with its error ignored, finds a row exactly when one account holds the email. Several matches read as none |
| RootDb.GetUserByEmail | services/mockDb.ts:57-73 | any other email is a pure lookup. A miss on the reserved email inserts a fresh administrator and returns it |
| RootDb.DuplicatedAdminGrows | services/mockDb.ts:57-73 | with two or more administrator rows, the lookup reads as a miss and adds yet another row under the reserved email |
| RootDb.GetExistingUserIsRead | services/mockDb.ts:57-73 | with unique emails, looking up an existing account writes nothing and returns that account |
| RootDb.CreateUser | services/mockDb.ts:75-80 | registration fails only on a clashing key. It stores the given fields and returns the account without its credential |
| RootDb.CreateUserAllowsDuplicateEmail | services/mockDb.ts:75-80 | nothing checks emails: registering a taken email succeeds, and emails are no longer unique |
| RootDb.UpdateUser | services/mockDb.ts:82-87 | an account update can never change role, id or creation time. It rewrites the given fields and returns the account without its credential. An unknown id, or no defined field, throws "no rows" |
| RootDb.GetUsers | services/mockDb.ts:46-50 | every account row appears exactly once |
| RootDb.GetMessages | services/mockDb.ts:158-165 | every message appears exactly once, oldest first by the `timestamp` column (the model's `createdAt`), with no cap |
| RootDb.ReadAll | services/mockDb.ts:184-199 | a failed table read becomes the empty list; a successful one lists every row once |
| RootDb.ExportDatabase | services/mockDb.ts:184-199 | the backup is version 1. Each unreadable table is exported as `[]` and each readable one in full |
| RootDb.Upserted | services/mockDb.ts:205-216 | an upserted table takes the document's rows by key and keeps every row the document does not name. A field that is missing, not a list, or names a key twice changes nothing |
| RootDb.ImportDatabase | services/mockDb.ts:201-221 | only an unparseable document fails. Otherwise each table is merged by key on its own |
| RootDb.ImportKeepsUnnamedRows | services/mockDb.ts:205-216 | merge semantics: a song the document does not name survives the import unchanged |
| RootDb.UpsertTwice | services/mockDb.ts:205-216 | upserting the same rows twice is the same as once |
| RootDb.ImportIdempotent | services/mockDb.ts:201-221 | importing the same document twice is the same as importing it once |
| RootDb.UpsertListing | services/mockDb.ts:205-216 | merging a complete listing of a table into any target restores that table's rows and keeps the target's other rows |
| RootDb.SnapshotMerges | services/mockDb.ts:184-221 | importing a full backup into another store brings back every backed-up user and song, and keeps the target's other rows |
| RootDb.SnapshotMergesIntoItself | services/mockDb.ts:184-221 | importing a full backup into the store it came from changes nothing |
| RootDb.UpsertOwnListing | services/mockDb.ts:205-216 | merging a table's own complete listing into it changes nothing |
| RootDb.FullBackup | services/mockDb.ts:184-199 | with every read succeeding, the export is a complete snapshot of the store |
| ChoirAuth.SignedIn | choir-ii-ruvumera/context/AuthContext.tsx:90-97 | a signed-in client publishes the account as authenticated and not loading, and keeps the same account in the session slot |
| ChoirAuth.Login | choir-ii-ruvumera/context/AuthContext.tsx:77-98 | an unknown email fails with 'User not found' and a wrong credential with 'Invalid credentials'; neither touches the client. Success signs in as the account without its credential |
| ChoirAuth.LoginDecision | choir-ii-ruvumera/context/AuthContext.tsx:79-97 | with unique emails, an account signs in exactly with its own credential |
| Domain.Logout | choir-ii-ruvumera/context/AuthContext.tsx:100-107 | from any state: signed out, not loading, session removed. The root provider's `logout` (context/AuthContext.tsx:99-106) is the same |
| ChoirAuth.LogoutIdempotent | choir-ii-ruvumera/context/AuthContext.tsx:100-107 | logging out twice is the same as once |
| ChoirAuth.RefreshSession | choir-ii-ruvumera/context/AuthContext.tsx:24-39 | a refresh signs the client in as the stored account; when the account no longer exists, nothing changes |
| ChoirAuth.InitAuth | choir-ii-ruvumera/context/AuthContext.tsx:41-75 | startup seeds the administrator first. It ends not loading, and authenticated exactly when a saved account exists in the seeded store. Otherwise it is signed out with the slot cleared |
| ChoirAuth.RestoreSeesSeed | choir-ii-ruvumera/context/AuthContext.tsx:43-59 | because seeding runs first, a saved session naming the freshly seeded administrator is accepted |
| ChoirAuth.PasswordStep | choir-ii-ruvumera/context/AuthContext.tsx:123-125 | the first step resets the credential only when a non-empty password is given, and touches no other row |
| ChoirAuth.ImageStep | choir-ii-ruvumera/context/AuthContext.tsx:127-129 | the second step sets the picture whenever one is given, even an empty one. It fails only for a missing account |
| ChoirAuth.EmailStep | choir-ii-ruvumera/context/AuthContext.tsx:131-133 | the third step changes the email only when a non-empty one is given. It fails, writing nothing, when the account is missing or another account holds the email |
| ChoirAuth.ProfileWrites | choir-ii-ruvumera/context/AuthContext.tsx:122-134 | password, then picture, then email. An email conflict fails after the earlier writes, which stay. Only that account's row changes |
| ChoirAuth.UpdateProfile | choir-ii-ruvumera/context/AuthContext.tsx:122-136 | after the writes, when none failed, the client is signed in as the edited account as now stored. A failure leaves the client as it was |
| ChoirAuth.EditingAnotherAccountSwapsSession | choir-ii-ruvumera/context/AuthContext.tsx:122-136 | an administrator who changes another account's email ends up signed in as that other account, in state and session |
| ChoirAuth.UpdateProfileOwnSession | choir-ii-ruvumera/context/AuthContext.tsx:122-136 | the corrected update makes the same writes, but refreshes only when the signed-in account is the one edited |
| ChoirAuth.OwnSessionKeepsIdentity | choir-ii-ruvumera/context/AuthContext.tsx:122-136 | with the corrected update, the client stays signed in as the same account, or stays signed out |
| ChoirAuth.OwnSessionAgreesOnOwnProfile | choir-ii-ruvumera/context/AuthContext.tsx:122-136 | on one's own profile the corrected update and the update as written agree exactly |
| RootAuth.Login | context/AuthContext.tsx:78-97 | a miss fails with 'User not found…' and a wrong credential with 'Invalid credentials'; neither touches the client. Any write by the lookup stays. Success signs in without the credential |
| RootAuth.LoginDecision | context/AuthContext.tsx:78-97 | with unique emails, login writes nothing and succeeds exactly with the account's own credential |
| RootAuth.FailedAdminLoginStillSeeds | context/AuthContext.tsx:79-87 | a login with the reserved email and a wrong password still creates the missing administrator |
| RootAuth.Restore | context/AuthContext.tsx:39-65 | nothing is written once unmounted. A saved account that exists is adopted as stored; a missing one is removed from the slot. No session, or an exception, only stops loading |
| RootAuth.SafetyTimer | context/AuthContext.tsx:32-37 | the timer can only clear `isLoading`; it never changes the user, authentication or session |
| RootAuth.TimerDoesNotChangeOutcome | context/AuthContext.tsx:30-69 | from the mount state, the restore ends the same whether or not the timer fired first, and a late timer changes nothing |
| RootAuth.RestoreOutcome | context/AuthContext.tsx:40-65 | a mounted restore ends authenticated exactly when it completed and the saved account still exists. Otherwise it ends signed out and not loading |
| RootAuth.UpdateProfile | context/AuthContext.tsx:121-138 | the credential is reset only for a non-empty password. When any other key is present, its defined values are written with no email check, and the returned account goes into session and state. If all those keys are `undefined`, the update fails after the reset. With no other key the client is untouched |
| RootAuth.UpdateProfileAllowsTakenEmail | context/AuthContext.tsx:121-138 | a profile update can give an account another account's email |
| Routes.Match | App.tsx:42-115 | `/`, every unknown path, a path with a repeated slash and a path without its leading slash redirect to `/dashboard`. Static segments match in any case, and a song id is passed on as typed |
| Routes.HrefShows | App.tsx:42-115 | following a page's link renders that page; `/songs/new` is the editor, not a song |
| Routes.RouteIsLink | App.tsx:42-115 | every page the route table renders comes from that page's own link, up to the case of the static segments, with the song id as typed |
| Routes.ShowIsHref | App.tsx:42-115 | any pathname that renders a page is that page's link, up to trailing slashes and the case of the static segments; the song id is the segment as typed |
| Routes.TrailingSlashesShow | App.tsx:42-115 | a page's link followed by any number of slashes renders that page |
| Routes.RepeatedSlashRedirects | App.tsx:62-79 | `/songs//x` is not a song page: the empty segment leaves it to the catch-all |
| Routes.DoubledLeadingSlashRedirects | App.tsx:56-60 | `//songs` is not the song list: the empty segment leaves it to the catch-all |
| Routes.CaseVariantShows | App.tsx:42-115 | no route asks for case-sensitive matching: any spelling of a link that differs only in the case of its static segments renders the same page |
| Routes.CapitalisedUsers | App.tsx:89-93 | `/Users` renders the users page |
| Routes.CapitalisedNew | App.tsx:62-73 | `/songs/NEW` is the new-song editor, not the song whose id is "NEW" |
| Routes.CapitalisedEdit | App.tsx:75-79 | `/songs/x/EDIT` is the editor of song "x" |
| Routes.DashboardRenders | App.tsx:46 | the redirect target is itself a page, so redirects do not loop |
| Routes.HrefInjective | components/Layout.tsx:34 | different pages have different links, so exact pathname equality tells the links apart |
| Routes.OneActive | components/Layout.tsx:34 | in a sidebar of distinct pages, at most one link is active for any pathname; the root sidebar's links are distinct (`RootLayout.NavPages`) |
| RootApp.Guard | App.tsx:17-38 | the guard shows the loading screen exactly while loading, never redirecting then. Unauthenticated callers go to `/login`. A known role outside the allowed set goes to `/dashboard`, never to an error page |
| RootApp.Resolve | App.tsx:40-117 | `/login` is never guarded; `/` and unknown paths redirect to `/dashboard` |
| RootApp.PermitsTable | App.tsx:69-99 | ADMIN may open everything; EDITOR everything but users and settings. USER may open neither song creation, song editing, members, users nor settings |
| RootApp.ResolveProtected | App.tsx:48-112 | for every protected page's link: loading shows the loading screen, unauthenticated goes to `/login`, and a signed-in role renders the page exactly when permitted, else goes to `/dashboard` |
| RootApp.DenialLandsOnDashboard | App.tsx:32-35 | a denied caller lands on a page every signed-in role may open |
| ChoirApp.Guard | choir-ii-ruvumera/App.tsx:16-26 | loading shows the loading view and unauthenticated goes to `/login`; otherwise the page renders, with no role check |
| ChoirApp.Resolve | choir-ii-ruvumera/App.tsx:28-98 | `/` and unknown paths redirect to `/dashboard` |
| ChoirApp.EveryRoleEverywhere | choir-ii-ruvumera/App.tsx:84-94 | every signed-in role reaches every page, user management and backup included. For ADMIN this agrees with the root guard; every role the root guard denies is admitted here |
| ChoirApp.SameBeforeRoles | choir-ii-ruvumera/App.tsx:16-23 | loading and unauthenticated callers are treated the same by both variants |
| RootLayout.NavPages | components/Layout.tsx:105-128 | the sidebar's links are pages with valid links, each shown once |
| RootLayout.Visibility | components/Layout.tsx:105-128 | dashboard, songs and chat for everyone; add song and members exactly for ADMIN and EDITOR; users and settings exactly for ADMIN |
| RootLayout.SidebarMatchesGuard | components/Layout.tsx:105-128 | a role sees a sidebar link exactly when the route guard would let it through |
| RootLayout.HandleLogout | components/Layout.tsx:29-32 | logout signs out, then goes to `/login`, which renders for the signed-out client |
| ChoirLayout.NavPages | choir-ii-ruvumera/components/Layout.tsx:79-104 | the sidebar's links are pages with valid links, each shown once |
| ChoirLayout.Visibility | choir-ii-ruvumera/components/Layout.tsx:80-103 | dashboard exactly for ADMIN; add song exactly for ADMIN and EDITOR; songs, members, chat and profile for everyone; users and settings exactly for ADMIN |
| ChoirLayout.HiddenButReachable | choir-ii-ruvumera/components/Layout.tsx:97-103 | a USER sees no link to users or settings, yet the guard renders both when their paths are typed in |
| ChoirLayout.OneHighlighted | choir-ii-ruvumera/components/Layout.tsx:33 | at most one sidebar link is highlighted |
| ChoirLayout.HandleLogout | choir-ii-ruvumera/components/Layout.tsx:28-31 | logout signs out, then goes to `/login`, which renders for the signed-out client |
| Text.Lower | pages/Songs.tsx:33-35 | lower-casing keeps the length and maps each ASCII capital to its small letter |
| Text.LowerIdempotent | pages/Songs.tsx:33-35 | lower-casing twice is the same as once, and leaves no capital |
| Text.ContainsMeansOccurs | pages/Songs.tsx:33-35 | `includes` holds exactly when the needle occurs at some position |
| Text.Trim | choir-ii-ruvumera/pages/Chat.tsx:53 | the trimmed text neither starts nor ends with white space |
| Text.TrimEmptyIffBlank | choir-ii-ruvumera/pages/Chat.tsx:53 | the trimmed text is empty exactly when every character is white space |
| RootSongs.OrderIsPreorder | pages/Songs.tsx:40-48 | each sort choice is a total preorder |
| RootSongs.FilteredSongs | pages/Songs.tsx:31-49 | the list is exactly the songs matching search and category, each as often as fetched. It is ordered by the chosen sort |
| RootSongs.FilteredSongsOrder | pages/Songs.tsx:40-48 | the title sort is ascending by title, the category sort ascending by category, the date sort newest first |
| RootSongs.SearchFindsOccurrences | pages/Songs.tsx:33-35 | a song matches exactly when the lower-cased term occurs in the lower-cased title or lyrics |
| RootSongs.SearchIgnoresCase | pages/Songs.tsx:33-35 | the search ignores the case of the term |
| RootSongs.UnfilteredShowsAll | pages/Songs.tsx:31-38 | an empty search with category 'All' lists every fetched song |
| RootSongs.EditControlsMatchGuard | pages/Songs.tsx:51 | the add and edit controls are offered exactly to the roles the router admits to the editor |
| RootSongs.HandleDelete | pages/Songs.tsx:24-29 | a song is deleted only after confirmation, and the refetched list no longer holds it. Declining writes and fetches nothing |
| ChoirChat.OnInsert | choir-ii-ruvumera/pages/Chat.tsx:30-32 | an INSERT event appends the row after every listed message, in order |
| ChoirChat.RepeatedDeliveryListsTwice | choir-ii-ruvumera/pages/Chat.tsx:30-32 | the INSERT handler does not de-duplicate: a row delivered twice is listed twice |
| ChoirChat.OnDelete | choir-ii-ruvumera/pages/Chat.tsx:33-35 | a DELETE event removes every message with the id and keeps every other message, as often as before |
| ChoirChat.OnDeleteIdempotent | choir-ii-ruvumera/pages/Chat.tsx:33-35 | a repeated DELETE event changes nothing more |
| ChoirChat.OnDeleteUnknownKeepsList | choir-ii-ruvumera/pages/Chat.tsx:33-35 | a DELETE for an id nobody lists leaves the list as it is |
| ChoirChat.OnDeleteAfterInsert | choir-ii-ruvumera/pages/Chat.tsx:30-35 | DELETE after INSERT removes the new row when the ids agree. Otherwise the new row stays last, and the survivors keep their order |
| ChoirChat.HandleSendText | choir-ii-ruvumera/pages/Chat.tsx:51-78 | blank input and a suspended user write nothing. A sent message carries the sender's id, name and picture and the untrimmed input, as text. The draft is cleared before sending: any send by a signed-in, unsuspended user that does not succeed is reported as a failure with the draft already lost |
| ChoirChat.HandleFileUpload | choir-ii-ruvumera/pages/Chat.tsx:80-110 | a suspended user or a file over 5,000,000 bytes is refused with nothing written. Otherwise the file goes out as an image or file message under its name; without a user the handler throws, and any other unsent upload is reported as a failure |
| ChoirChat.SuspendedUserWritesNothing | choir-ii-ruvumera/pages/Chat.tsx:51-110 | a suspended user writes nothing through either sender |
| ChoirChat.AddEmoji | choir-ii-ruvumera/pages/Chat.tsx:118-121 | the emoji goes at the end of the draft and the picker closes |
| ChoirChat.EmojisAccumulate | choir-ii-ruvumera/pages/Chat.tsx:118-121 | picked emojis pile up in order after the typed text, which is kept |
| ChoirChat.HandleDeleteMessage | choir-ii-ruvumera/pages/Chat.tsx:112-116 | a message is deleted only by an administrator who confirms; every other message and table stays. The root page's `handleDelete` (pages/Chat.tsx:85-90, control at line 183) is the same |
| RootChat.HandleSend | pages/Chat.tsx:61-83 | no user, or blank text with no preview, does nothing. The message is an image carrying the preview exactly when there is one, else text. Success clears text and preview and closes the picker; failure keeps the draft |
| RootChat.HandleFileSelect | pages/Chat.tsx:97-112 | an image file becomes the preview; any other file makes the text `[FILE] ` plus its name. Either way the attach menu closes |
| RootChat.FileMarkerIsSendable | pages/Chat.tsx:97-112 | a selected non-image file always leaves something sendable |
| RootChat.AddEmoji | pages/Chat.tsx:92-95 | the emoji goes at the end of the text and the picker closes |
| RootChat.Senders | pages/Chat.tsx:126 | the sender names are read off the messages in order |
| RootChat.Distinct | pages/Chat.tsx:126 | the set conversion keeps each name once and loses none |
| RootChat.DistinctKeepsFirstAppearance | pages/Chat.tsx:126 | later messages never reorder the names already listed |
| RootChat.HeaderNames | pages/Chat.tsx:125-127 | the header shows at most three distinct senders, the first to have written. It shows three whenever three people have written |
| RootChat.FirstSenderLeads | pages/Chat.tsx:126 | whoever wrote first is the first of the header's names |
| RootChat.Header | pages/Chat.tsx:125-127 | an empty chat shows "Group Chat". Otherwise the line ends with "..." and starts with the name of whoever wrote first |
| RootChat.ColourIndex | pages/Chat.tsx:158 | the sender's colour index is always one of the five colours, fixed by the id's length |
| RootProfile.Payload | pages/Profile.tsx:40-45 | name and email are sent only for ADMIN, undefined otherwise. The password is sent only when typed, and the avatar preview always |
| RootProfile.HandleSubmit | pages/Profile.tsx:29-54 | no user, or a mismatched confirmation, sends nothing. Otherwise saving is raised then lowered and the typed password is stored. An administrator's name and email, and any avatar preview, are written and put into the session; only the password fields are emptied. A payload with no defined field fails after the password was stored, leaving the form and session alone |
| RootProfile.PasswordOnlySubmitFailsAfterReset | pages/Profile.tsx:29-54 | a member's password-only submit stores the password, then fails on the empty update. The failure is alerted, and the form and session stay as they were |
| ChoirProfile.Updates | choir-ii-ruvumera/pages/Profile.tsx:44-51 | the update has a password exactly when one was typed, an email exactly when an ADMIN changed it, and never a picture |
| ChoirProfile.HandleSave | choir-ii-ruvumera/pages/Profile.tsx:33-66 | a mismatch and an empty update send nothing and say why. Loading is raised and lowered on every path. A success empties the password fields, stores an administrator's changed non-empty email, and signs the client in as the stored row; anything else leaves the client as it was. Only the signed-in account changes |
| ChoirProfile.TakenEmailKeepsPasswordChange | choir-ii-ruvumera/pages/Profile.tsx:33-66 | an admin's change to a taken email is refused, yet the typed password is stored all the same |
| ChoirProfile.HandleImageUpload | choir-ii-ruvumera/pages/Profile.tsx:15-31 | a photo over 2,000,000 bytes is refused with nothing written. Otherwise it becomes the signed-in account's picture |
| UserAdmin.HandleDelete | pages/Users.tsx:26-32 | one's own account is refused without asking. Any other is deleted only after confirmation, so the signed-in account survives |
| UserAdmin.NoSelfDeletion | choir-ii-ruvumera/pages/Users.tsx:29-35 | the delete control is missing exactly on one's own row, and no path deletes the signed-in account |
| UserAdmin.HandleResetPassword | pages/Users.tsx:34-44 | only a non-empty prompt answer becomes the new credential, of that account alone |
| ChoirUsers.HandleCreate | choir-ii-ruvumera/pages/Users.tsx:49-59 | creation succeeds exactly for an unregistered email, then closes the modal and resets the form to empty fields and role USER. A failure keeps both and writes nothing |
| ChoirUsers.NewStatus | choir-ii-ruvumera/pages/Users.tsx:61-63 | the toggle asks for suspension exactly when the row is not suspended now |
| ChoirUsers.ToggleChatSuspension | choir-ii-ruvumera/pages/Users.tsx:61-68 | after confirmation only the row's suspension flag flips; declining writes nothing |
| ChoirUsers.ToggleTwiceRestores | choir-ii-ruvumera/pages/Users.tsx:61-68 | toggling twice restores whether the account is suspended |
| ChoirUsers.SaveEmailAsWritten | choir-ii-ruvumera/pages/Users.tsx:75-83 | the email save goes through the profile update, and leaves edit mode only on success |
| ChoirUsers.SaveEmailAsWrittenSwapsSession | choir-ii-ruvumera/pages/Users.tsx:75-83 | saving another account's email leaves the administrator signed in as that account |
| ChoirUsers.SaveEmail | choir-ii-ruvumera/pages/Users.tsx:75-83 | the email changes unless another account holds it. The administrator stays signed in as themself, and edit mode is left only on success |
| RootUsers.HandleCreate | pages/Users.tsx:46-56 | creation needs only a free key, whatever the email. It then closes the modal and resets the form to empty fields and role USER |
| RootUsers.OpenEditModal | pages/Users.tsx:58-61 | the modal opens on the account, prefilled with exactly its name and email |
| RootUsers.HandleUpdateUser | pages/Users.tsx:63-76 | nothing without an account in the modal. Otherwise exactly the name and email of that account are written, with no uniqueness check |
| RootUsers.EditAllowsTakenEmail | pages/Users.tsx:63-76 | editing one account to another's email succeeds, and two accounts then share it |
| RootSettings.View | pages/Settings.tsx:52-54 | the backup panel renders exactly for an ADMIN |
| RootSettings.GateMatchesGuard | pages/Settings.tsx:52-54 | the page's own gate admits exactly the accounts the router admits |
| RootSettings.BackupFileName | pages/Settings.tsx:17 | the file name is the prefix, then the first ten characters of the timestamp, then `.json` |
| RootSettings.Digits | pages/Settings.tsx:17 | a field of the timestamp is written with exactly its width of decimal digits |
| RootSettings.DigitsRoundTrip | pages/Settings.tsx:17 | reading the digits back gives the number |
| RootSettings.IsoString | pages/Settings.tsx:17 | the timestamp is 24 characters long |
| RootSettings.FileNameCarriesDate | pages/Settings.tsx:17 | the file name carries exactly the calendar date of the download |
| RootSettings.HandleDownload | pages/Settings.tsx:11-28 | `downloading` is raised and lowered whatever happens. A file is made exactly when the export does not throw, and it is a version-1 backup named after the current date |
| RootSettings.HandleUpload | pages/Settings.tsx:30-50 | the import runs only after the overwrite warning is confirmed. A failed import alerts without reloading and writes nothing |
| SongEditor.Find | pages/SongEditor.tsx:26 | the search finds a song exactly when one has the id |
| SongEditor.LoadSong | pages/SongEditor.tsx:22-35 | only edit mode loads. A known id fills the form with that song; an unknown id leads back to `/songs` |
| SongEditor.SubmitTarget | pages/SongEditor.tsx:65 | only a save navigates, and it lands on the song list, which renders |
| SongEditor.Submit | pages/SongEditor.tsx:37-70 | a missing title, lyrics or category writes nothing. Editing writes the five fields and `updatedBy`, keeping `createdBy` and creation time. Creating stamps the user as both `createdBy` and `updatedBy` |
| SongEditor.LoadThenSaveKeepsSong | pages/SongEditor.tsx:22-64 | loading a song and saving it untouched writes it back as it was, apart from the update stamps |
| SongEditor.LoadedFormIsStored | pages/SongEditor.tsx:22-35 | the loaded form is the stored song's form |
| ChoirSongEditor.InitialLoading | choir-ii-ruvumera/pages/SongEditor.tsx:12-13 | the spinner starts up exactly in edit mode |
| ChoirSongEditor.Load | choir-ii-ruvumera/pages/SongEditor.tsx:24-43 | the load decides as in the root variant. Loading is lowered exactly once in edit mode, and never written for a new song |
| ChoirSongEditor.SpinnerSettles | choir-ii-ruvumera/pages/SongEditor.tsx:24-43 | once the load settles, the spinner is down on every path |
| ChoirSongEditor.HandleSubmit | choir-ii-ruvumera/pages/SongEditor.tsx:45-81 | the submit decides as in the root variant. An incomplete form never touches `saving`; every other submit raises it and then lowers it |
| ChoirSongEditor.SavingSettles | choir-ii-ruvumera/pages/SongEditor.tsx:45-81 | the save button is never left disabled |
| ChoirSongDetail.FetchSong | choir-ii-ruvumera/pages/SongDetail.tsx:17-36 | a song found under the route's id is the song shown, and any song shown has that id. An unknown id leads back to `/songs`, and the spinner is lowered after the fetch, whether it succeeded or threw |
| ChoirSongDetail.EditLinkOpensEditor | choir-ii-ruvumera/pages/SongDetail.tsx:105-113 | the edit link leads to that song's editor |
| ChoirSongDetail.EditorHiddenNotGuarded | choir-ii-ruvumera/pages/SongDetail.tsx:41 | a USER sees no edit link, yet this variant's guard renders the editor, where the root guard redirects |
| ChoirSongDetail.Toggle | choir-ii-ruvumera/pages/SongDetail.tsx:47-49 | the toggle flips read mode and nothing else |
| ChoirSongDetail.ToggleTwice | choir-ii-ruvumera/pages/SongDetail.tsx:47-49 | toggling read mode twice restores the page |
| ChoirSongDetail.Smaller | choir-ii-ruvumera/pages/SongDetail.tsx:60 | `A-` goes one size down, never below the first |
| ChoirSongDetail.Larger | choir-ii-ruvumera/pages/SongDetail.tsx:61 | `A+` goes one size up, never above the fourth |
| ChoirSongDetail.ClicksStayInRange | choir-ii-ruvumera/pages/SongDetail.tsx:53-61 | from any valid size, every sequence of presses keeps the size index within the four sizes |
| ChoirSongDetail.ThreeClicksReachEnds | choir-ii-ruvumera/pages/SongDetail.tsx:60-61 | three presses reach the largest or the smallest size from any size |

## Left out

- The Members, Dashboard, Login and AI-agent pages and `index.tsx`. They are forms, counts and placeholders over the modelled operations, with no logic of their own. The member-roster writes (`createMember`, `updateMember`, `deleteMember`) are used only by the Members pages.
- The realtime channel setup and teardown, and the root chat's refetch-on-change. These are I/O triggers; only the choir variant's reducers are modelled.
- Asynchrony. Each handler is one atomic transition. The root restore's 3-second timer and `mounted` races are modelled at the level of outcomes (`RootAuth.Restore`, `RootAuth.SafetyTimer`).
- The JSON codec and `FileReader`. A backup file is its parsed `BackupDocument` (`None` when it does not parse), and an image is its data URL, both passed in as parameters.
- `localeCompare` and database collation. These are an abstract total preorder parameter.
- Timestamps are integers. The ISO form is modelled only for years below 10000.
- Password hashing. The source stores and compares the credential as plain text, and the model does the same.
- Reading an account by id treats an error as "no row", as the source's `.single()` read with its error ignored does. A session that fails to parse is not modelled.
- `ChoirDb.ImportDatabase`: the delete-all filter `neq('id', all-zero UUID)` would spare a row whose id is the all-zero UUID. The model empties every table, since the store generates random UUIDs.
- `SongEditor.Submit`: a new song without a signed-in account is modelled as refused by the store, because the `createdBy` column's constraints are not visible here.
- `Text.Lower`: lower-cases only the ASCII capitals; JavaScript's `toLowerCase` maps every cased Unicode letter.
- `Text.Trim`: works on characters rather than UTF-16 code units.
- `RootSettings.IsoString`: only the date part is proved to read back; the time fields are only shown to have the right width.
- `ChoirDb.ExportDatabase`: for more than 200 messages it states which messages may appear, not that they are exactly the earliest 200 in order (`ChoirDb.GetMessages` states that).
- `ChoirAuth.Login`, `RootAuth.Login`, `ChoirDb.CreateUser`, `ChoirDb.AdminUpdateUserEmail`, `RootDb.CreateUser`, `Tables.UpdateUserRow`, `RootDb.UpdateUser`, `RootDb.LookupEmail` and `ChoirUsers.HandleCreate`: an unreachable or refusing store is not modelled. These members fail only for reasons in the data; in the source such a failure throws and the page alerts. `RootDb.LookupEmail` reads a failed lookup as "no row", so a failed read of the reserved administrator email would insert a second administrator. `ChoirUsers.HandleCreate` closes the modal once the insert succeeds. In the source a failing `refreshUsers` alerts and leaves the modal open although the row was written.
- `Routes.Match`: segments are compared as typed, so a percent-encoded character is not decoded the way the router decodes a pathname and its `:id` value.
- `Tables.ResetUserPassword`, `Tables.DeleteUser`, `Tables.DeleteSong`, `Tables.DeleteMessage` and `ChoirDb.ToggleChatSuspension`: these always reach the store. An update or delete by id that matches no row is no store error, so these fail only when the store is unreachable or refuses the request. The source then throws, and its pages show the error with nothing written. That case is not modelled.

## Findings

| source | as written | input that shows it | evidently intended | confidence | as-written member | corrected member |
|---|---|---|---|---|---|---|
| choir-ii-ruvumera/pages/Users.tsx:75-83 | `saveEmail(userId)` calls `updateProfile(userId, { email })`. That call ends with `refreshSession(userId)`, which signs the client in as account `userId` | an administrator edits the email of another account `B` to an address nobody else holds. Afterwards the client's state and saved session are `B`'s account | the administrator stays signed in as themself; only row `B`'s email changes | not executed | ChoirUsers.SaveEmailAsWrittenSwapsSession | ChoirUsers.SaveEmail |

=== FILE: choir_app.dfy ===
/** The route guard of the choir-ii-ruvumera variant: loading, then
    authentication, and no role check at all. */
module ChoirApp {
  import opened Domain
  import opened Routes
  import RootApp

  /** `ProtectedRoute`: the loading view while loading, `/login` when not
      authenticated, the page otherwise. */
  function Guard(s: AuthState, p: Page): (v: RootApp.View)
    ensures s.isLoading <==> v == RootApp.LoadingView
    ensures !s.isLoading && !s.isAuthenticated <==> v == RootApp.Redirect(LoginPath)
    ensures !s.isLoading && s.isAuthenticated <==> v == RootApp.Render(p)
  {
    if s.isLoading then RootApp.LoadingView
    else if !s.isAuthenticated then RootApp.Redirect(LoginPath)
    else RootApp.Render(p)
  }

  function Resolve(s: AuthState, path: Path): (v: RootApp.View)
    ensures Match(path).GoTo? ==> v == RootApp.Redirect(DashboardPath)
  {
    match Match(path)
    case GoTo(target) => RootApp.Redirect(target)
    case Show(LoginPage) => RootApp.Render(LoginPage)
    case Show(p) => Guard(s, p)
  }

  /** Every signed-in role reaches every page, user management and backup
      included: the only difference from the root variant's guard is that
      its role denials never happen here. */
  lemma EveryRoleEverywhere(s: AuthState, p: Page)
    requires Linkable(p) && p != LoginPage
    requires !s.isLoading && s.isAuthenticated
    ensures Resolve(s, Href(p)) == RootApp.Render(p)
    ensures s.user.Some? && s.user.value.role == ADMIN ==> Resolve(s, Href(p)) == RootApp.Resolve(s, Href(p))
    ensures s.user.Some? && !RootApp.Permits(s.user.value.role, p) ==>
      RootApp.Resolve(s, Href(p)) == RootApp.Redirect(DashboardPath)
  {
    HrefShows(p);
  }

  /** Loading and unauthenticated callers are treated alike in both variants. */
  lemma SameBeforeRoles(s: AuthState, path: Path)
    requires s.isLoading || !s.isAuthenticated
    ensures Resolve(s, path) == RootApp.Resolve(s, path)
  {
  }
}

=== FILE: choir_auth.dfy ===
/** The authentication provider of the choir-ii-ruvumera variant: startup
    (seed the administrator, then restore the saved session against the
    store), login, logout, session refresh and the profile update sequence. */
module ChoirAuth {
  import opened Wrappers
  import opened Domain
  import opened Tables
  import ChoirDb

  /** The state published by a signed-in client holding `u`, and the session
      slot holding the same credential-free account. */
  function SignedIn(u: User): (c: Client)
    ensures c.state.user == Some(u) && c.state.isAuthenticated && !c.state.isLoading
    ensures c.session == c.state.user
  {
    Client(AuthState(Some(u), true, false), Some(u))
  }

  /** `login`: the email lookup (which throws on several matches), then plain
      equality of the stored credential with the supplied password. A failure
      carries no client: state and session stay as they were. */
  function Login(db: Db, email: string, password: string): (r: Result<Client, Error>)
    ensures WithEmail(db.users, email) == {} <==> r == Failure(UserNotFound)
    ensures |WithEmail(db.users, email)| > 1 <==> r == Failure(MultipleRows)
    ensures r.Success? <==>
      exists k :: WithEmail(db.users, email) == {k} && db.users[k].passwordHash == password
    ensures r.Success? ==>
      exists k :: WithEmail(db.users, email) == {k} && r.value == SignedIn(db.users[k].user)
    ensures r.Failure? ==> r.error in {UserNotFound, InvalidCredentials, MultipleRows}
  {
    match FindByEmail(db.users, email)
    case Failure(e) => Failure(e)
    case Success(None) => Failure(UserNotFound)
    case Success(Some(row)) =>
      if row.passwordHash != password then Failure(InvalidCredentials)
      else Success(SignedIn(row.user))
  }

  /** With one account per email, the account holding the email signs in with
      exactly its own credential. */
  lemma LoginDecision(db: Db, k: Id, password: string)
    requires UniqueEmails(db.users) && k in db.users
    ensures var r := Login(db, db.users[k].user.email, password);
      && (r.Success? <==> db.users[k].passwordHash == password)
      && (r.Success? ==> r.value == SignedIn(db.users[k].user))
      && (r.Failure? ==> r.error == InvalidCredentials)
  {
    FindByEmailUnique(db.users, db.users[k].user.email);
  }

  lemma LogoutIdempotent(c: Client)
    ensures Logout(Logout(c)) == Logout(c)
  {
  }

  /** `refreshSession(id)`: re-reads account `id`; when it exists the client
      is signed in as that fresh account (state and session), and when it
      does not, nothing changes. */
  function RefreshSession(db: Db, c: Client, id: Id): (r: Client)
    ensures id !in db.users ==> r == c
    ensures id in db.users ==> r == SignedIn(db.users[id].user)
  {
    match FindById(db.users, id)
    case Some(row) => SignedIn(row.user)
    case None => c
  }

  /** `initAuth`: seeds the administrator, then reads the saved session. A
      saved account that still exists is adopted as stored now (the session
      slot itself is left as saved); one that no longer exists is removed from
      the slot. Without a saved session the client just stops loading. */
  function InitAuth(db: Db, session: Option<User>, seedLookupFails: bool, newId: Id, now: int): (r: (Db, Client))
    ensures r.0 == ChoirDb.SeedAdmin(db, seedLookupFails, newId, now)
    ensures !r.1.state.isLoading
    ensures r.1.state.isAuthenticated <==> session.Some? && session.value.id in r.0.users
    ensures r.1.state.isAuthenticated ==>
      r.1.state.user == Some(r.0.users[session.value.id].user) && r.1.session == session
    ensures !r.1.state.isAuthenticated ==> r.1.state == SignedOut && r.1.session.None?
  {
    var seeded := ChoirDb.SeedAdmin(db, seedLookupFails, newId, now);
    match session
    case None => (seeded, Client(SignedOut, None))
    case Some(saved) =>
      match FindById(seeded.users, saved.id)
      case Some(row) => (seeded, Client(AuthState(Some(row.user), true, false), session))
      case None => (seeded, Client(Initial.(isLoading := false), None))
  }

  /** The restore runs against the seeded store: on a store without the
      reserved account, a saved session naming the freshly seeded
      administrator is accepted. */
  lemma RestoreSeesSeed(db: Db, saved: User, newId: Id, now: int)
    requires WithEmail(db.users, AdminEmail) == {} && newId !in db.users
    requires saved.id == newId
    ensures var r := InitAuth(db, Some(saved), false, newId, now);
      r.1.state.isAuthenticated && r.1.state.user == Some(AdminRow(newId, now, Some(false)).user)
  {
  }

  /** The fields `updateProfile` may carry; `profileImage` counts as given
      whenever it is defined, even when empty. */
  datatype ProfileUpdate = ProfileUpdate(password: Option<string>, profileImage: Option<string>,
                                         email: Option<string>)

  /** Both stores are well keyed and differ at most in row `id`. */
  predicate SameAccounts(a: Db, b: Db, id: Id) {
    && a.Valid() && b.Valid()
    && b.songs == a.songs && b.members == a.members && b.messages == a.messages
    && b.users.Keys == a.users.Keys
    && (forall k :: k in a.users && k != id ==> b.users[k] == a.users[k])
  }

  /** Step one of `updateProfile`: the password reset, when one is given. */
  function PasswordStep(db: Db, id: Id, password: Option<string>): (r: Db)
    requires db.Valid()
    ensures SameAccounts(db, r, id)
    ensures id in db.users ==>
      && r.users[id].user == db.users[id].user
      && r.users[id].passwordHash == (if Truthy(password) then password.value else db.users[id].passwordHash)
  {
    if Truthy(password) then ResetUserPassword(db, id, password.value) else db
  }

  /** Step two: `updateUser(id, { profileImage })` when an image is given;
      `.single()` fails when the row is missing. */
  function ImageStep(db: Db, id: Id, image: Option<string>): (r: Result<Db, Error>)
    requires db.Valid()
    ensures r.Failure? <==> image.Some? && id !in db.users
    ensures r.Failure? ==> r.error == NoRows
    ensures r.Success? ==> SameAccounts(db, r.value, id)
    ensures r.Success? && id in db.users ==>
      && r.value.users[id].passwordHash == db.users[id].passwordHash
      && r.value.users[id].user == db.users[id].user.(avatar := if image.Some? then image else db.users[id].user.avatar)
  {
    if image.None? then Success(db)
    else match UpdateUserRow(db, id, UserPatch(None, None, image))
      case Failure(e) => Failure(e)
      case Success((d, _)) => Success(d)
  }

  /** The store side of `updateProfile`: the password reset when one is
      given, then the image update, then the email change with its
      uniqueness check. A failing step throws after the earlier steps have
      written; nothing is rolled back. */
  function ProfileWrites(db: Db, id: Id, upd: ProfileUpdate): (r: (Db, Option<Error>))
    requires db.Valid()
    ensures r.0.Valid()
    ensures r.0.songs == db.songs && r.0.members == db.members && r.0.messages == db.messages
    ensures r.0.users.Keys == db.users.Keys
    ensures forall k :: k in db.users && k != id ==> r.0.users[k] == db.users[k]
    ensures id in db.users ==>
      r.0.users[id].passwordHash ==
        (if Truthy(upd.password) then upd.password.value else db.users[id].passwordHash)
    ensures id in db.users ==>
      r.0.users[id].user.avatar ==
        (if upd.profileImage.Some? then upd.profileImage else db.users[id].user.avatar)
    ensures id in db.users && r.1.None? ==>
      r.0.users[id].user.email ==
        (if Truthy(upd.email) then upd.email.value else db.users[id].user.email)
    ensures id in db.users && r.1.Some? ==> r.0.users[id].user.email == db.users[id].user.email
    ensures id !in db.users ==> (r.1.None? <==> upd.profileImage.None? && !Truthy(upd.email))
    ensures id in db.users ==>
      (r.1.Some? <==> Truthy(upd.email) && exists k :: k in db.users && k != id && db.users[k].user.email == upd.email.value)
    ensures r.1.Some? ==> r.1.value in {NoRows, EmailInUse, MultipleRows}
  {
    var db1 := PasswordStep(db, id, upd.password);
    match ImageStep(db1, id, upd.profileImage)
    case Failure(e) => (db1, Some(e))
    case Success(db2) =>
      SameAccountsChain(db, db1, db2, id);
      EmailStep(db, db2, id, upd.email)
  }

  /** Two stores that each differ from the last in row `id` only differ from
      the first in row `id` only. */
  lemma SameAccountsChain(a: Db, b: Db, c: Db, id: Id)
    requires SameAccounts(a, b, id) && SameAccounts(b, c, id)
    ensures SameAccounts(a, c, id)
  {
  }

  /** Step three: the email change when one is given, applied to the store
      the first two steps left behind. */
  function EmailStep(db: Db, db2: Db, id: Id, email: Option<string>): (r: (Db, Option<Error>))
    requires SameAccounts(db, db2, id)
    ensures SameAccounts(db, r.0, id)
    ensures id in db.users ==>
      r.0.users[id] == UserRow(
        db2.users[id].user.(email := if r.1.None? && Truthy(email) then email.value else db2.users[id].user.email),
        db2.users[id].passwordHash)
    ensures r.1.Some? ==> r.0 == db2
    ensures r.1.Some? <==>
      Truthy(email) && (id !in db.users || exists k :: k in db.users && k != id && db.users[k].user.email == email.value)
    ensures r.1.Some? ==> r.1.value in {NoRows, EmailInUse, MultipleRows}
  {
    if !Truthy(email) then (db2, None)
    else match ChoirDb.AdminUpdateUserEmail(db2, id, email.value)
      case Failure(e) => (db2, Some(e))
      case Success((db3, _)) => (db3, None)
  }

  /** `updateProfile(id, updates)` as written: the three writes, then, when
      none threw, `refreshSession(id)`, which signs the client in as account
      `id`, whichever account that is. */
  function UpdateProfile(db: Db, c: Client, id: Id, upd: ProfileUpdate): (r: Transition)
    requires db.Valid()
    ensures (r.db, r.failure) == ProfileWrites(db, id, upd)
    ensures r.failure.Some? || id !in db.users ==> r.client == c
    ensures r.failure.None? && id in db.users ==>
      r.client == SignedIn(r.db.users[id].user) && r.client.state.user.value.id == id
  {
    var (d, failure) := ProfileWrites(db, id, upd);
    Transition(d, if failure.None? then RefreshSession(d, c, id) else c, failure)
  }

  /** Used on another account, as the user-management page does to change an
      email, the refresh replaces the signed-in administrator by the edited
      account, in the published state and in the saved session. */
  lemma EditingAnotherAccountSwapsSession(db: Db, c: Client, me: User, other: Id, email: string)
    requires db.Valid()
    requires c.state.user == Some(me) && other != me.id && other in db.users
    requires email != ""
    requires forall k :: k in db.users && k != other ==> db.users[k].user.email != email
    ensures var r := UpdateProfile(db, c, other, ProfileUpdate(None, None, Some(email)));
      && r.failure.None?
      && r.client.state.user.Some? && r.client.state.user.value.id == other
      && r.client.state.user.value.id != me.id
      && r.client.session == r.client.state.user
  {
  }

  /** `updateProfile` with the refresh confined to the signed-in account:
      the same writes, and the client re-reads its own account only. */
  function UpdateProfileOwnSession(db: Db, c: Client, id: Id, upd: ProfileUpdate): (r: Transition)
    requires db.Valid()
    ensures (r.db, r.failure) == ProfileWrites(db, id, upd)
    ensures !(c.state.user.Some? && c.state.user.value.id == id) ==> r.client == c
    ensures c.state.user.Some? && c.state.user.value.id == id && r.failure.None? && id in db.users ==>
      r.client == SignedIn(r.db.users[id].user)
  {
    var (d, failure) := ProfileWrites(db, id, upd);
    var own := c.state.user.Some? && c.state.user.value.id == id;
    Transition(d, if failure.None? && own then RefreshSession(d, c, id) else c, failure)
  }

  /** Whichever account is edited, the client stays signed in as the same
      account (or stays signed out). */
  lemma OwnSessionKeepsIdentity(db: Db, c: Client, id: Id, upd: ProfileUpdate)
    requires db.Valid()
    ensures var r := UpdateProfileOwnSession(db, c, id, upd);
      && (r.client.state.user.Some? <==> c.state.user.Some?)
      && (r.client.state.user.Some? ==> r.client.state.user.value.id == c.state.user.value.id)
  {
  }

  /** On the signed-in account's own profile the correction changes nothing. */
  lemma OwnSessionAgreesOnOwnProfile(db: Db, c: Client, id: Id, upd: ProfileUpdate)
    requires db.Valid()
    requires c.state.user.Some? && c.state.user.value.id == id
    ensures UpdateProfileOwnSession(db, c, id, upd) == UpdateProfile(db, c, id, upd)
  {
  }
}

=== FILE: choir_chat.dfy ===
/** The chat page of the choir-ii-ruvumera variant
    (`choir-ii-ruvumera/pages/Chat.tsx`): the realtime reducers over the
    listed messages, the text and file senders with their guards, the emoji
    picker, and the administrator's delete. */
module ChoirChat {
  import opened Wrappers
  import opened Collections
  import opened Domain
  import opened Text
  import opened Tables

  /** The page's local state: the listed messages, the draft, and whether
      the emoji picker is open. */
  datatype ChatView = ChatView(messages: seq<Message>, input: string, emojiOpen: bool)

  // ------------------------------------------------------------- realtime

  /** The INSERT handler: the delivered row goes after every listed one. */
  function OnInsert(msgs: seq<Message>, m: Message): (r: seq<Message>)
    ensures |r| == |msgs| + 1 && r[..|msgs|] == msgs && r[|msgs|] == m
  {
    msgs + [m]
  }

  /** The INSERT handler does not look for the row among the listed ones:
      a row delivered twice is listed twice. */
  lemma RepeatedDeliveryListsTwice(msgs: seq<Message>, m: Message)
    ensures multiset(OnInsert(OnInsert(msgs, m), m))[m] == multiset(msgs)[m] + 2
  {
    assert OnInsert(OnInsert(msgs, m), m) == msgs + [m, m];
  }

  /** Keeps the messages whose id is not `id`. */
  function Other(id: Id): Message -> bool {
    (m: Message) => m.id != id
  }

  /** The DELETE handler: every listed message with the deleted id goes, the
      rest stay in their order. */
  function OnDelete(msgs: seq<Message>, id: Id): (r: seq<Message>)
    ensures forall m: Message :: m in r ==> m.id != id
    ensures forall m: Message :: m.id != id ==> multiset(r)[m] == multiset(msgs)[m]
  {
    FilterCounts(msgs, Other(id));
    Filter(msgs, Other(id))
  }

  /** A repeated DELETE event changes nothing more. */
  lemma OnDeleteIdempotent(msgs: seq<Message>, id: Id)
    ensures OnDelete(OnDelete(msgs, id), id) == OnDelete(msgs, id)
  {
    FilterIdempotent(msgs, Other(id));
  }

  /** A DELETE for an id nobody lists leaves the list as it is. */
  lemma OnDeleteUnknownKeepsList(msgs: seq<Message>, id: Id)
    requires forall i :: 0 <= i < |msgs| ==> msgs[i].id != id
    ensures OnDelete(msgs, id) == msgs
  {
    FilterAll(msgs, Other(id));
  }

  /** A DELETE after an INSERT removes the inserted row when the ids agree,
      and otherwise deletes from the earlier rows and leaves the new row
      last: the order of the survivors is kept. */
  lemma OnDeleteAfterInsert(msgs: seq<Message>, m: Message, id: Id)
    ensures OnDelete(OnInsert(msgs, m), id) ==
      if m.id == id then OnDelete(msgs, id) else OnInsert(OnDelete(msgs, id), m)
  {
    FilterAppend(msgs, m, Other(id));
  }

  // -------------------------------------------------------------- sending

  /** The stored flag is set: `user?.isChatSuspended` is truthy. */
  predicate IsSuspended(u: Option<User>) {
    u.Some? && u.value.chatSuspended == Some(true)
  }

  datatype SendOutcome =
    | Ignored              // nothing but white space typed
    | Suspended            // alerted "You are suspended from the chat."
    | Crashed              // no signed-in user: reading `user!.id` threw
    | Sent(m: Message)
    | SendFailed(e: Error) // alerted "Failed to send"

  /** `handleSendText`: white-space-only input is ignored; a suspended user
      is told so; otherwise the draft is cleared and then sent, untrimmed,
      as a text message carrying the sender's id, name and picture. A failed
      send loses the draft. `remoteFails` is the store's answer. */
  function HandleSendText(db: Db, v: ChatView, u: Option<User>, remoteFails: bool, newId: Id, now: int)
    : (r: (Db, ChatView, SendOutcome))
    ensures Blank(v.input) ==> r == (db, v, Ignored)
    ensures !Blank(v.input) && IsSuspended(u) ==> r == (db, v, Suspended)
    ensures !Blank(v.input) && u.None? ==> r == (db, v, Crashed)
    ensures r.2.Sent? <==> !Blank(v.input) && u.Some? && !IsSuspended(u) && !remoteFails && newId !in db.messages
    ensures r.2.Sent? ==>
      && r.2.m == Message(newId, u.value.id, u.value.name, u.value.avatar, v.input, Text, None, None, now)
      && r.0 == db.(messages := db.messages[newId := r.2.m])
    ensures !r.2.Sent? ==> r.0 == db
    ensures r.2.Sent? || r.2.SendFailed? ==> r.1 == v.(input := "")
    ensures !Blank(v.input) && u.Some? && !IsSuspended(u) && !r.2.Sent? ==>
      r.2.SendFailed? && r.1 == v.(input := "")
    ensures !Blank(v.input) && u.Some? && !IsSuspended(u) && remoteFails ==> r.2 == SendFailed(RemoteFailure)
  {
    TrimEmptyIffBlank(v.input);
    if Trim(v.input) == [] then (db, v, Ignored)
    else if IsSuspended(u) then (db, v, Suspended)
    else if u.None? then (db, v, Crashed)
    else
      var user := u.value;
      var draft := MessageDraft(user.id, user.name, user.avatar, v.input, Text, None, None);
      var cleared := v.(input := "");
      if remoteFails then (db, cleared, SendFailed(RemoteFailure))
      else match SendMessage(db, draft, newId, now)
        case Failure(e) => (db, cleared, SendFailed(e))
        case Success((d, m)) => (d, cleared, Sent(m))
  }

  /** A chosen file: its name and size in bytes. */
  datatype Upload = Upload(name: string, size: nat)

  /** Which of the two file inputs the file came from. */
  datatype Picker = ImagePicker | FilePicker

  const MaxUploadBytes: nat := 5000000

  datatype UploadOutcome =
    | NoFile
    | UploadSuspended      // alerted "You are suspended from the chat."
    | TooLarge             // alerted "File too large (Max 5MB)"
    | UploadCrashed        // no signed-in user: reading `user!.id` threw
    | Uploaded(m: Message)
    | UploadFailed(e: Error)

  /** `handleFileUpload`, with the file already read into the data URL
      `dataUrl`: nothing without a file; a suspended user and a file over
      5,000,000 bytes are refused; otherwise the data URL is sent as an image
      or file message under the file's name. */
  function HandleFileUpload(db: Db, u: Option<User>, file: Option<Upload>, picker: Picker, dataUrl: string,
                            remoteFails: bool, newId: Id, now: int): (r: (Db, UploadOutcome))
    ensures file.None? ==> r == (db, NoFile)
    ensures file.Some? && IsSuspended(u) ==> r == (db, UploadSuspended)
    ensures r.1 == TooLarge <==> file.Some? && !IsSuspended(u) && file.value.size > MaxUploadBytes
    ensures r.1.Uploaded? <==>
      && file.Some? && !IsSuspended(u) && file.value.size <= MaxUploadBytes
      && u.Some? && !remoteFails && newId !in db.messages
    ensures r.1.Uploaded? ==>
      && r.1.m == Message(newId, u.value.id, u.value.name, u.value.avatar, dataUrl,
                          if picker == ImagePicker then Image else File, None, Some(file.value.name), now)
      && r.0 == db.(messages := db.messages[newId := r.1.m])
    ensures !r.1.Uploaded? ==> r.0 == db
    ensures file.Some? && !IsSuspended(u) && file.value.size <= MaxUploadBytes ==>
      && (u.None? ==> r.1 == UploadCrashed)
      && (u.Some? && remoteFails ==> r.1 == UploadFailed(RemoteFailure))
      && (u.Some? && !r.1.Uploaded? ==> r.1.UploadFailed?)
  {
    if file.None? then (db, NoFile)
    else if IsSuspended(u) then (db, UploadSuspended)
    else if file.value.size > MaxUploadBytes then (db, TooLarge)
    else if u.None? then (db, UploadCrashed)
    else
      var user := u.value;
      var kind := if picker == ImagePicker then Image else File;
      var draft := MessageDraft(user.id, user.name, user.avatar, dataUrl, kind, None, Some(file.value.name));
      if remoteFails then (db, UploadFailed(RemoteFailure))
      else match SendMessage(db, draft, newId, now)
        case Failure(e) => (db, UploadFailed(e))
        case Success((d, m)) => (d, Uploaded(m))
  }

  /** A suspended user writes nothing through either sender. */
  lemma SuspendedUserWritesNothing(db: Db, v: ChatView, u: Option<User>, file: Option<Upload>, picker: Picker,
                                   dataUrl: string, remoteFails: bool, newId: Id, now: int)
    requires IsSuspended(u)
    ensures HandleSendText(db, v, u, remoteFails, newId, now).0 == db
    ensures HandleFileUpload(db, u, file, picker, dataUrl, remoteFails, newId, now).0 == db
  {
  }

  /** `addEmoji`: the emoji goes at the end of the draft and the picker
      closes. */
  function AddEmoji(v: ChatView, emoji: string): (r: ChatView)
    ensures r.input == v.input + emoji && !r.emojiOpen && r.messages == v.messages
  {
    v.(input := v.input + emoji, emojiOpen := false)
  }

  /** The draft keeps what was typed, and emojis accumulate in the order
      picked. */
  lemma EmojisAccumulate(v: ChatView, a: string, b: string)
    ensures AddEmoji(AddEmoji(v, a), b).input == v.input + a + b
    ensures AddEmoji(v, a).input[..|v.input|] == v.input
  {
  }

  // ------------------------------------------------------------- deleting

  /** The delete control is rendered for administrators only. */
  predicate ShowsDelete(u: Option<User>) {
    RoleOf(u) == Some(ADMIN)
  }

  /** `handleDeleteMessage`, reachable only through the administrator's
      control: the message is deleted for everyone after confirmation. */
  function HandleDeleteMessage(db: Db, u: Option<User>, id: Id, confirmed: bool): (r: Db)
    ensures r != db ==> ShowsDelete(u) && confirmed && id in db.messages
    ensures ShowsDelete(u) && confirmed ==> id !in r.messages
    ensures r.users == db.users && r.songs == db.songs && r.members == db.members
    ensures forall k :: k in db.messages && k != id ==> k in r.messages && r.messages[k] == db.messages[k]
  {
    if ShowsDelete(u) && confirmed then DeleteMessage(db, id) else db
  }
}

=== FILE: choir_db.dfy ===
/** The persistence service of the choir-ii-ruvumera variant: admin seeding,
    registration with a duplicate-email check, email changes that refuse an
    address held by another account, field-scoped account writes, ordered
    reads (messages capped at 200), and a backup whose import REPLACES the
    store. */
module ChoirDb {
  import opened Wrappers
  import opened Collections
  import opened Domain
  import opened Tables

  /** `seedAdmin`: looks the reserved email up and inserts the administrator
      only when no account holds it. A failed lookup (`lookupFails`, or more
      than one row) and a failed insert are logged and write nothing. */
  function SeedAdmin(db: Db, lookupFails: bool, newId: Id, now: int): (r: Db)
    ensures lookupFails ==> r == db
    ensures WithEmail(db.users, AdminEmail) != {} ==> r == db
    ensures newId in db.users ==> r == db
    ensures !lookupFails && WithEmail(db.users, AdminEmail) == {} && newId !in db.users ==>
      r == db.(users := db.users[newId := AdminRow(newId, now, Some(false))])
  {
    if lookupFails then db
    else
      match FindByEmail(db.users, AdminEmail)
      case Failure(_) => db
      case Success(Some(_)) => db
      case Success(None) =>
        match InsertUser(db, AdminRow(newId, now, Some(false)))
        case Success(d) => d
        case Failure(_) => db
  }

  /** A seed that was able to run leaves exactly one account under the reserved
      email when emails were unique, and seeding again changes nothing. */
  lemma SeedAdminIdempotent(db: Db, newId: Id, now: int, lookupFails: bool, newId2: Id, now2: int)
    requires UniqueEmails(db.users)
    requires newId !in db.users
    ensures var once := SeedAdmin(db, false, newId, now);
      && |WithEmail(once.users, AdminEmail)| == 1
      && UniqueEmails(once.users)
      && SeedAdmin(once, lookupFails, newId2, now2) == once
  {
    var once := SeedAdmin(db, false, newId, now);
    UniqueEmailsAtMostOne(db.users, AdminEmail);
    if WithEmail(db.users, AdminEmail) == {} {
      assert WithEmail(once.users, AdminEmail) == {newId};
    } else {
      var k := TheOne(WithEmail(db.users, AdminEmail));
      assert WithEmail(once.users, AdminEmail) == {k};
    }
  }

  /** What `createUser` receives: the account fields and the credential. */
  datatype NewUser = NewUser(name: string, email: string, role: Role, passwordHash: string)

  /** `createUser`: refuses an email that is already registered ('User already
      exists') and otherwise inserts the row, returning it without its
      credential. No failure writes anything. */
  function CreateUser(db: Db, nu: NewUser, newId: Id, now: int): (r: Result<(Db, User), Error>)
    ensures |WithEmail(db.users, nu.email)| == 1 ==> r == Failure(UserAlreadyExists)
    ensures |WithEmail(db.users, nu.email)| > 1 ==> r == Failure(MultipleRows)
    ensures WithEmail(db.users, nu.email) == {} && newId in db.users ==> r == Failure(DuplicateKey)
    ensures r.Success? <==> WithEmail(db.users, nu.email) == {} && newId !in db.users
    ensures r.Success? ==>
      && r.value.1 == User(newId, nu.name, nu.email, nu.role, now, None, None)
      && r.value.0 == db.(users := db.users[newId := UserRow(r.value.1, nu.passwordHash)])
  {
    match FindByEmail(db.users, nu.email)
    case Failure(e) => Failure(e)
    case Success(Some(_)) => Failure(UserAlreadyExists)
    case Success(None) =>
      var u := User(newId, nu.name, nu.email, nu.role, now, None, None);
      match InsertUser(db, UserRow(u, nu.passwordHash))
      case Failure(e) => Failure(e)
      case Success(d) => Success((d, u))
  }

  /** `adminUpdateUserEmail`: refuses an email held by a different account
      ('Email is already in use'); setting an account's own email again is
      allowed. Only the email of row `id` changes. */
  function AdminUpdateUserEmail(db: Db, id: Id, newEmail: string): (r: Result<(Db, UserRow), Error>)
    requires db.Valid()
    ensures (exists k :: k in db.users && k != id && db.users[k].user.email == newEmail) ==> r.Failure?
    ensures forall k :: WithEmail(db.users, newEmail) == {k} && k != id ==> r == Failure(EmailInUse)
    ensures WithEmail(db.users, newEmail) == {} && id !in db.users ==> r == Failure(NoRows)
    ensures id in db.users && WithEmail(db.users, newEmail) in {{}, {id}} ==> r.Success?
    ensures id in db.users ==>
      (r.Failure? <==> exists k :: k in db.users && k != id && db.users[k].user.email == newEmail)
    ensures r.Success? ==>
      && id in db.users
      && r.value.1 == UserRow(db.users[id].user.(email := newEmail), db.users[id].passwordHash)
      && r.value.0 == db.(users := db.users[id := r.value.1])
  {
    match FindByEmail(db.users, newEmail)
    case Failure(e) =>
      AnotherMember(WithEmail(db.users, newEmail), id);
      Failure(e)
    case Success(Some(existing)) =>
      if existing.user.id != id then Failure(EmailInUse)
      else UpdateUserRow(db, id, UserPatch(None, Some(newEmail), None))
    case Success(None) => UpdateUserRow(db, id, UserPatch(None, Some(newEmail), None))
  }

  /** `toggleChatSuspension(id, flag)`: sets the suspension flag of row `id`
      and nothing else. */
  function ToggleChatSuspension(db: Db, id: Id, suspended: bool): (r: Db)
    ensures r.songs == db.songs && r.members == db.members && r.messages == db.messages
    ensures r.users.Keys == db.users.Keys
    ensures forall k :: k in db.users && k != id ==> r.users[k] == db.users[k]
    ensures id in db.users ==>
      r.users[id] == UserRow(db.users[id].user.(chatSuspended := Some(suspended)), db.users[id].passwordHash)
  {
    if id in db.users then
      var row := db.users[id];
      db.(users := db.users[id := UserRow(row.user.(chatSuspended := Some(suspended)), row.passwordHash)])
    else db
  }

  /** Accounts keep distinct emails, and rows stay under their own keys,
      through every account write of this service. */
  lemma SeedAdminKeepsInvariants(db: Db, lookupFails: bool, newId: Id, now: int)
    requires db.Valid() && UniqueEmails(db.users)
    ensures var r := SeedAdmin(db, lookupFails, newId, now); r.Valid() && UniqueEmails(r.users)
  {
  }

  lemma CreateUserKeepsInvariants(db: Db, nu: NewUser, newId: Id, now: int)
    requires db.Valid() && UniqueEmails(db.users)
    ensures var r := CreateUser(db, nu, newId, now);
      r.Success? ==> r.value.0.Valid() && UniqueEmails(r.value.0.users)
  {
  }

  lemma AdminUpdateUserEmailKeepsInvariants(db: Db, id: Id, email: string)
    requires db.Valid() && UniqueEmails(db.users)
    ensures var r := AdminUpdateUserEmail(db, id, email);
      r.Success? ==> r.value.0.Valid() && UniqueEmails(r.value.0.users)
  {
  }

  lemma ToggleChatSuspensionKeepsInvariants(db: Db, id: Id, flag: bool)
    requires db.Valid() && UniqueEmails(db.users)
    ensures var r := ToggleChatSuspension(db, id, flag); r.Valid() && UniqueEmails(r.users)
  {
  }

  /** Users oldest first: `order('createdAt', { ascending: true })`. */
  function JoinedFirst(a: UserRow, b: UserRow): bool {
    a.user.createdAt <= b.user.createdAt
  }

  /** `getUsers`: every account row (credential included) once, oldest first. */
  method GetUsers(db: Db) returns (r: seq<UserRow>)
    ensures Lists(r, db.users)
    ensures forall i, j :: 0 <= i < j < |r| ==> r[i].user.createdAt <= r[j].user.createdAt
  {
    assert TotalPreorder(JoinedFirst);
    r := SortedListing(db.users, JoinedFirst);
  }

  /** The cap `getMessages` puts on the chat history. */
  const MessageLimit: nat := 200

  /** `getMessages`: the earliest 200 messages, oldest first. */
  method GetMessages(db: Db) returns (r: seq<Message>)
    ensures |r| <= MessageLimit
    ensures |db.messages| <= MessageLimit ==> Lists(r, db.messages)
    ensures |r| == MessageLimit || Lists(r, db.messages)
    ensures multiset(r) <= multiset(db.messages.Values)
    ensures forall i, j :: 0 <= i < j < |r| ==> r[i].createdAt <= r[j].createdAt
    ensures forall x, y :: x in r && y in db.messages.Values && y !in r ==> x.createdAt <= y.createdAt
  {
    r := ListMessages(db, Some(MessageLimit));
  }

  /** The format version this variant writes. */
  const BackupVersion := 3

  /** `exportDatabase`: the four ordered reads run together, and each throws
      on a store error, so the export rejects as soon as any read fails
      (`unreadable` names the tables whose read fails). Otherwise the reads
      are bundled with version 3 and the export time. Messages beyond the
      first 200 are not exported. */
  method ExportDatabase(db: Db, unreadable: set<Table>, nameLe: (string, string) -> bool, nowIso: string)
    returns (r: Result<BackupDocument, Error>)
    requires TotalPreorder(nameLe)
    ensures r.Failure? <==> unreadable != {}
    ensures r.Failure? ==> r.error == RemoteFailure
    ensures r.Success? ==>
      var doc := r.value;
      && doc.version == BackupVersion && doc.exportedAt == nowIso
      && doc.users.List? && Lists(doc.users.rows, db.users)
      && doc.songs.List? && Lists(doc.songs.rows, db.songs)
      && doc.members.List? && Lists(doc.members.rows, db.members)
      && doc.messages.List? && |doc.messages.rows| <= MessageLimit
      && (|db.messages| <= MessageLimit ==> Lists(doc.messages.rows, db.messages))
      && multiset(doc.messages.rows) <= multiset(db.messages.Values)
      && (forall x, y :: x in doc.messages.rows && y in db.messages.Values && y !in doc.messages.rows ==>
            x.createdAt <= y.createdAt)
  {
    if unreadable != {} {
      return Failure(RemoteFailure);
    }
    var users := GetUsers(db);
    var songs := ListSongs(db);
    var members := ListMembers(db, nameLe);
    var messages := GetMessages(db);
    r := Success(BackupDocument(List(users), List(songs), List(members), List(messages), BackupVersion, nowIso));
  }

  /** One table after the replace-import: emptied, then filled by a single
      insert of the document's rows when that field is a non-empty list. A
      batch with two rows under one key is rejected as a whole, and the
      rejection is not noticed. */
  function Refilled<T>(f: Field<T>, key: T -> Id): (m: map<Id, T>)
    ensures f.List? && DistinctKeys(f.rows, key) ==> m == Keyed(f.rows, key)
    ensures !(f.List? && DistinctKeys(f.rows, key)) ==> m == map[]
  {
    if f.List? && |f.rows| > 0 && DistinctKeys(f.rows, key) then Keyed(f.rows, key) else map[]
  }

  /** `importDatabase`: refuses a document that cannot be parsed or whose
      `songs` is not a list, before deleting anything; otherwise the store
      becomes exactly the document's rows, whatever it held before. */
  function ImportDatabase(db: Db, parsed: Option<BackupDocument>): (r: Result<Db, Error>)
    ensures r.Failure? <==> parsed.None? || !parsed.value.songs.List?
    ensures r.Failure? ==> r.error == InvalidBackup
    ensures r.Success? ==>
      var doc := parsed.value;
      && r.value.users == Refilled(doc.users, UserKey)
      && r.value.songs == Refilled(doc.songs, SongKey)
      && r.value.members == Refilled(doc.members, MemberKey)
      && r.value.messages == Refilled(doc.messages, MessageKey)
  {
    match parsed
    case None => Failure(InvalidBackup)
    case Some(doc) =>
      if !doc.songs.List? then Failure(InvalidBackup)
      else
        Success(Db(Refilled(doc.users, UserKey), Refilled(doc.songs, SongKey),
                   Refilled(doc.members, MemberKey), Refilled(doc.messages, MessageKey)))
  }

  /** Replace semantics: what was in the store before an import has no
      influence on what is in it after. */
  lemma ImportReplaces(db1: Db, db2: Db, parsed: Option<BackupDocument>)
    ensures ImportDatabase(db1, parsed) == ImportDatabase(db2, parsed)
  {
  }

  /** The document lists every row of every table. */
  predicate Snapshot(db: Db, doc: BackupDocument) {
    && doc.users.List? && Lists(doc.users.rows, db.users)
    && doc.songs.List? && Lists(doc.songs.rows, db.songs)
    && doc.members.List? && Lists(doc.members.rows, db.members)
    && doc.messages.List? && Lists(doc.messages.rows, db.messages)
  }

  lemma RefilledListing<T>(m: map<Id, T>, f: Field<T>, key: T -> Id)
    requires WellKeyed(m, key)
    requires f.List? && Lists(f.rows, m)
    ensures Refilled(f, key) == m
  {
    KeyedListing(m, f.rows, key);
  }

  /** Importing a complete snapshot of a store restores that store, whatever
      the target held. */
  lemma SnapshotRestores(db: Db, doc: BackupDocument, target: Db)
    requires db.Valid()
    requires Snapshot(db, doc)
    ensures ImportDatabase(target, Some(doc)) == Success(db)
  {
    RefilledListing(db.users, doc.users, UserKey);
    RefilledListing(db.songs, doc.songs, SongKey);
    RefilledListing(db.members, doc.members, MemberKey);
    RefilledListing(db.messages, doc.messages, MessageKey);
  }

  /** Backing up, with every read succeeding, and restoring: the store comes
      back unchanged when it holds at most 200 messages; otherwise every
      table but `messages` comes back, and `messages` keeps at most 200 of
      the original messages. */
  method BackupAndRestore(db: Db, nameLe: (string, string) -> bool, nowIso: string, target: Db)
    returns (r: Result<Db, Error>)
    requires TotalPreorder(nameLe)
    requires db.Valid()
    ensures r.Success?
    ensures |db.messages| <= MessageLimit ==> r.value == db
    ensures r.value.users == db.users && r.value.songs == db.songs && r.value.members == db.members
    ensures |r.value.messages| <= MessageLimit
    ensures forall k :: k in r.value.messages ==> k in db.messages && r.value.messages[k] == db.messages[k]
  {
    var exported := ExportDatabase(db, {}, nameLe, nowIso);
    var doc := exported.value;
    r := ImportDatabase(target, Some(doc));
    RefilledListing(db.users, doc.users, UserKey);
    RefilledListing(db.songs, doc.songs, SongKey);
    RefilledListing(db.members, doc.members, MemberKey);
    if |db.messages| <= MessageLimit {
      SnapshotRestores(db, doc, target);
    }
    PartialListingRefills(db.messages, doc.messages.rows, MessageKey);
  }

  /** Rows of a well-keyed table refill, each under its own key, a table no
      larger than the list. */
  lemma PartialListingRefills<T>(m: map<Id, T>, rows: seq<T>, key: T -> Id)
    requires WellKeyed(m, key)
    requires multiset(rows) <= multiset(m.Values)
    ensures var r := Refilled(List(rows), key);
      && |r| <= |rows|
      && forall k :: k in r ==> k in m && r[k] == m[k]
  {
    var r := Refilled(List(rows), key);
    forall i | 0 <= i < |rows|
      ensures key(rows[i]) in m && m[key(rows[i])] == rows[i]
    {
      assert rows[i] in multiset(rows);
      assert rows[i] in m.Values;
      var k :| k in m && m[k] == rows[i];
    }
    if DistinctKeys(rows, key) && |rows| > 0 {
      KeyedSize(rows, key);
    }
  }

  lemma {:induction false} KeyedSize<T>(rows: seq<T>, key: T -> Id)
    ensures |Keyed(rows, key)| <= |rows|
  {
    if |rows| > 0 {
      KeyedSize(rows[..|rows| - 1], key);
    }
  }
}

=== FILE: choir_layout.dfy ===
/** The sidebar of the choir-ii-ruvumera variant. */
module ChoirLayout {
  import opened Wrappers
  import opened Domain
  import opened Routes
  import RootApp
  import ChoirApp

  /** The pages the sidebar links to for the signed-in account's role: the
      dashboard only for ADMIN, song creation for ADMIN and EDITOR, the
      administration links for ADMIN, and the rest for everyone. */
  function NavPages(role: Option<Role>): (pages: seq<Page>)
    ensures forall i :: 0 <= i < |pages| ==> Linkable(pages[i])
    ensures forall a, b :: 0 <= a < b < |pages| ==> pages[a] != pages[b]
  {
    (if role == Some(ADMIN) then [DashboardPage] else [])
    + [SongList]
    + (if role == Some(ADMIN) || role == Some(EDITOR) then [SongNew] else [])
    + [MemberList, ChatRoom, ProfilePage]
    + (if role == Some(ADMIN) then [UserAdmin, SettingsPage] else [])
  }

  /** The visibility table. */
  lemma Visibility(role: Option<Role>)
    ensures var ps := NavPages(role);
      && (DashboardPage in ps <==> role == Some(ADMIN))
      && (SongNew in ps <==> role == Some(ADMIN) || role == Some(EDITOR))
      && SongList in ps && MemberList in ps && ChatRoom in ps && ProfilePage in ps
      && (UserAdmin in ps <==> role == Some(ADMIN))
      && (SettingsPage in ps <==> role == Some(ADMIN))
  {
    var ps := NavPages(role);
    if role == Some(ADMIN) {
      assert ps == [DashboardPage, SongList, SongNew, MemberList, ChatRoom, ProfilePage, UserAdmin, SettingsPage];
    } else if role == Some(EDITOR) {
      assert ps == [SongList, SongNew, MemberList, ChatRoom, ProfilePage];
    } else {
      assert ps == [SongList, MemberList, ChatRoom, ProfilePage];
    }
  }

  /** Hiding a link is the only protection here: a USER sees no link to user
      management or backup, yet the guard renders both when typed in. */
  lemma HiddenButReachable(s: AuthState, p: Page)
    requires !s.isLoading && s.isAuthenticated && s.user.Some? && s.user.value.role == USER
    requires p == UserAdmin || p == SettingsPage
    ensures p !in NavPages(Some(USER))
    ensures ChoirApp.Resolve(s, Href(p)) == RootApp.Render(p)
  {
    Visibility(Some(USER));
    HrefShows(p);
  }

  lemma OneHighlighted(role: Option<Role>, pathname: Path, i: int, j: int)
    requires 0 <= i < |NavPages(role)| && 0 <= j < |NavPages(role)|
    requires IsActive(pathname, Href(NavPages(role)[i]))
    requires IsActive(pathname, Href(NavPages(role)[j]))
    ensures i == j
  {
    OneActive(NavPages(role), pathname, i, j);
  }

  /** `handleLogout`: logs out, then navigates to the login page. */
  function HandleLogout(c: Client): (r: (Client, Path))
    ensures r.0 == Logout(c)
    ensures ChoirApp.Resolve(r.0.state, r.1) == RootApp.Render(LoginPage)
  {
    assert Href(LoginPage) == LoginPath;
    HrefShows(LoginPage);
    (Logout(c), LoginPath)
  }
}

=== FILE: choir_profile.dfy ===
/** The profile page of the choir-ii-ruvumera variant
    (`choir-ii-ruvumera/pages/Profile.tsx`): the photo upload with its size
    limit, and the save that assembles only the changed fields. */
module ChoirProfile {
  import opened Wrappers
  import opened Domain
  import opened Tables
  import opened ChoirAuth

  /** The form fields. */
  datatype ProfileForm = ProfileForm(email: string, password: string, confirmPassword: string)

  /** The message line under the form. */
  datatype Notice =
    | Problem(text: string)  // an error the page itself words
    | Failed(e: Error)       // an error thrown by the update, shown by its message
    | Done(text: string)
    | Info(text: string)

  const MismatchText: string := "Passwords do not match."
  const NothingToSaveText: string := "No changes to save."
  const SavedText: string := "Profile updated successfully."

  /** Everything a save decides: the store and client afterwards, the form,
      the message, and the successive values written to `isLoading`. */
  datatype Saved = Saved(t: Transition, form: ProfileForm, notice: Notice, loading: seq<bool>)

  /** A typed password that the confirmation does not repeat. */
  predicate Mismatched(f: ProfileForm) {
    f.password != "" && f.password != f.confirmPassword
  }

  /** The update object: the password when typed, and the email when an
      administrator changed it; never a photo. */
  function Updates(u: Option<User>, f: ProfileForm): (upd: ProfileUpdate)
    ensures upd.profileImage.None?
    ensures upd.password.Some? <==> f.password != ""
    ensures upd.password.Some? ==> upd.password.value == f.password
    ensures upd.email.Some? <==> RoleOf(u) == Some(ADMIN) && f.email != u.value.email
    ensures upd.email.Some? ==> upd.email.value == f.email
  {
    ProfileUpdate(
      if f.password != "" then Some(f.password) else None,
      None,
      if RoleOf(u) == Some(ADMIN) && f.email != u.value.email then Some(f.email) else None)
  }

  predicate IsEmpty(upd: ProfileUpdate) {
    upd.password.None? && upd.profileImage.None? && upd.email.None?
  }

  /** `handleSave`. A mismatched confirmation and an empty update send
      nothing and say why; otherwise the signed-in account is updated, the
      password fields are emptied on success, and a thrown error is shown.
      `isLoading` is raised and lowered on every path. */
  function HandleSave(db: Db, c: Client, f: ProfileForm): (r: Saved)
    requires db.Valid()
    ensures r.loading == [true, false]
    ensures Mismatched(f) ==> r == Saved(Transition(db, c, None), f, Problem(MismatchText), [true, false])
    ensures !Mismatched(f) && IsEmpty(Updates(c.state.user, f)) ==>
      r == Saved(Transition(db, c, None), f, Info(NothingToSaveText), [true, false])
    ensures r.notice.Done? <==>
      && !Mismatched(f) && !IsEmpty(Updates(c.state.user, f)) && c.state.user.Some?
      && r.t.failure.None?
    ensures r.notice.Done? ==> r.form == f.(password := "", confirmPassword := "")
    ensures !r.notice.Done? ==> r.form == f
    ensures r.notice.Failed? ==> r.t.failure == Some(r.notice.e)
    ensures c.state.user.None? ==> r.t.db == db
    ensures c.state.user.Some? && !Mismatched(f) ==>
      var u := c.state.user.value;
      && r.t.db.users.Keys == db.users.Keys
      && (forall k :: k in db.users && k != u.id ==> r.t.db.users[k] == db.users[k])
      && (u.id in db.users ==>
            && r.t.db.users[u.id].passwordHash ==
                 (if f.password != "" then f.password else db.users[u.id].passwordHash)
            && r.t.db.users[u.id].user.avatar == db.users[u.id].user.avatar)
      && (u.role != ADMIN && u.id in db.users ==>
            r.t.db.users[u.id].user.email == db.users[u.id].user.email)
    ensures r.notice.Done? ==>
      var u := c.state.user.value;
      && (u.id in db.users ==> r.t.client == SignedIn(r.t.db.users[u.id].user))
      && (u.id !in db.users ==> r.t.client == c)
      && (u.role == ADMIN && u.id in db.users && f.email != u.email && f.email != "" ==>
            r.t.db.users[u.id].user.email == f.email)
    ensures !r.notice.Done? ==> r.t.client == c
  {
    var u := c.state.user;
    if Mismatched(f) then Saved(Transition(db, c, None), f, Problem(MismatchText), [true, false])
    else
      var upd := Updates(u, f);
      if IsEmpty(upd) then Saved(Transition(db, c, None), f, Info(NothingToSaveText), [true, false])
      else if u.None? then Saved(Transition(db, c, Some(ClientFault)), f, Failed(ClientFault), [true, false])
      else
        var t := ChoirAuth.UpdateProfile(db, c, u.value.id, upd);
        match t.failure
        case None => Saved(t, f.(password := "", confirmPassword := ""), Done(SavedText), [true, false])
        case Some(e) => Saved(t, f, Failed(e), [true, false])
  }

  /** An administrator's email change to one another account holds is
      refused with nothing of the email written, and the typed password is
      stored all the same. */
  lemma TakenEmailKeepsPasswordChange(db: Db, c: Client, u: User, f: ProfileForm, other: Id)
    requires db.Valid()
    requires c.state.user == Some(u) && u.role == ADMIN && u.id in db.users
    requires !Mismatched(f) && f.password != "" && f.email != u.email && f.email != ""
    requires other in db.users && other != u.id && db.users[other].user.email == f.email
    ensures var r := HandleSave(db, c, f);
      && r.notice.Failed?
      && r.t.db.users[u.id].passwordHash == f.password
      && r.t.db.users[u.id].user.email == db.users[u.id].user.email
      && r.form == f
  {
  }

  const PhotoLimitBytes: nat := 2000000
  const PhotoSavedText: string := "Profile photo updated!"
  const PhotoFailedText: string := "Failed to update photo."

  datatype PhotoOutcome =
    | NoPhoto
    | PhotoTooLarge         // alerted "Image is too large. Please select an image under 2MB."
    | PhotoCrashed          // nobody signed in: reading `user!.id` threw
    | PhotoSent(notice: Notice)

  /** `handleImageUpload`, with the file (its size in bytes) already read
      into the data URL `dataUrl`: a photo over 2,000,000 bytes is refused;
      otherwise it becomes the signed-in account's `profileImage`. */
  function HandleImageUpload(db: Db, c: Client, size: Option<nat>, dataUrl: string): (r: (Transition, PhotoOutcome))
    requires db.Valid()
    ensures size.None? ==> r == (Transition(db, c, None), NoPhoto)
    ensures size.Some? && size.value > PhotoLimitBytes ==> r == (Transition(db, c, None), PhotoTooLarge)
    ensures r.1.PhotoSent? <==> size.Some? && size.value <= PhotoLimitBytes && c.state.user.Some?
    ensures r.1.PhotoSent? ==>
      var id := c.state.user.value.id;
      && r.0.db.users.Keys == db.users.Keys
      && (forall k :: k in db.users && k != id ==> r.0.db.users[k] == db.users[k])
      && (id in db.users <==> r.1.notice == Done(PhotoSavedText))
      && (id in db.users ==> r.0.db.users[id].user.avatar == Some(dataUrl))
      && (id !in db.users ==> r.1.notice == Problem(PhotoFailedText))
    ensures !r.1.PhotoSent? ==> r.0.db == db
  {
    if size.None? then (Transition(db, c, None), NoPhoto)
    else if size.value > PhotoLimitBytes then (Transition(db, c, None), PhotoTooLarge)
    else if c.state.user.None? then (Transition(db, c, Some(ClientFault)), PhotoCrashed)
    else
      var t := ChoirAuth.UpdateProfile(db, c, c.state.user.value.id, ProfileUpdate(None, Some(dataUrl), None));
      (t, PhotoSent(if t.failure.None? then Done(PhotoSavedText) else Problem(PhotoFailedText)))
  }
}

=== FILE: choir_song_detail.dfy ===
/** The song page of the choir-ii-ruvumera variant
    (`choir-ii-ruvumera/pages/SongDetail.tsx`): the fetch of the song named
    by the route, the edit link, and the read mode with its font-size
    buttons. */
module ChoirSongDetail {
  import opened Wrappers
  import opened Domain
  import opened Routes
  import SongEditor
  import ChoirApp
  import RootApp

  /** The page's state: the song shown, the spinner, read mode, and the
      index of the lyrics' font size. */
  datatype Detail = Detail(song: Option<Song>, loading: bool, presenting: bool, fontSize: nat)

  /** The four lyric sizes of read mode. */
  const FontSizeCount: nat := 4

  /** The page as it mounts: no song, spinner up, third size. */
  const Mounted := Detail(None, true, false, 2)

  /** How the fetch ends: the song shown, or a redirect to the library. */
  datatype Fetched = Fetched(d: Detail, navigate: Option<Path>)

  /** `fetchSong`: with a route id the song with that id is shown, an unknown
      id leads back to `/songs`, a failed fetch leaves the page empty, and
      the spinner is lowered in every one of these cases. Without an id
      nothing happens and the spinner stays. */
  function FetchSong(d: Detail, fetched: Result<seq<Song>, Error>, routeId: Option<Id>): (r: Fetched)
    ensures SongEditor.EditMode(routeId) ==> !r.d.loading
    ensures !SongEditor.EditMode(routeId) ==> r == Fetched(d, None)
    ensures r.navigate.Some? <==>
      && SongEditor.EditMode(routeId) && fetched.Success?
      && forall i :: 0 <= i < |fetched.value| ==> fetched.value[i].id != routeId.value
    ensures r.navigate.Some? ==> r.navigate == Some(SongsPath)
    ensures SongEditor.EditMode(routeId) && fetched.Success? &&
            SongEditor.Find(fetched.value, routeId.value).Some? ==>
      r.d.song == SongEditor.Find(fetched.value, routeId.value) && r.navigate.None?
    ensures r.d.song != d.song ==>
      && SongEditor.EditMode(routeId) && fetched.Success? && r.d.song.Some?
      && r.d.song.value.id == routeId.value && r.d.song.value in fetched.value
    ensures r.d.presenting == d.presenting && r.d.fontSize == d.fontSize
  {
    if !SongEditor.EditMode(routeId) then Fetched(d, None)
    else match fetched
      case Failure(_) => Fetched(d.(loading := false), None)
      case Success(songs) =>
        match SongEditor.Find(songs, routeId.value)
        case Some(s) => Fetched(d.(song := Some(s), loading := false), None)
        case None => Fetched(d.(loading := false), Some(SongsPath))
  }

  /** The edit link is shown to administrators and editors. */
  predicate CanEdit(u: Option<User>) {
    CanEditSongs(RoleOf(u))
  }

  /** The edit link leads to the song's editor. */
  lemma EditLinkOpensEditor(s: Song)
    requires s.id != "" && '/' !in s.id
    ensures Match(Href(SongEdit(s.id))) == Show(SongEdit(s.id))
  {
    HrefShows(SongEdit(s.id));
  }

  /** Hiding the link is all that keeps a member out of the editor: the
      route guard of this variant renders it for any signed-in account,
      where the root variant's guard turns the same member away. */
  lemma EditorHiddenNotGuarded(st: AuthState, s: Song)
    requires s.id != "" && '/' !in s.id
    requires !st.isLoading && st.isAuthenticated && st.user.Some? && st.user.value.role == USER
    ensures !CanEdit(st.user)
    ensures ChoirApp.Resolve(st, Href(SongEdit(s.id))) == RootApp.Render(SongEdit(s.id))
    ensures RootApp.Resolve(st, Href(SongEdit(s.id))) == RootApp.Redirect(DashboardPath)
  {
    ChoirApp.EveryRoleEverywhere(st, SongEdit(s.id));
    RootApp.PermitsTable(USER, SongEdit(s.id));
  }

  /** `togglePresentation`. */
  function Toggle(d: Detail): (r: Detail)
    ensures r.presenting != d.presenting
    ensures r.song == d.song && r.loading == d.loading && r.fontSize == d.fontSize
  {
    d.(presenting := !d.presenting)
  }

  /** Entering and leaving read mode returns to the page as it was. */
  lemma ToggleTwice(d: Detail)
    ensures Toggle(Toggle(d)) == d
  {
  }

  /** `A-`: one size smaller, never below the first. */
  function Smaller(d: Detail): (r: Detail)
    ensures r.fontSize == if d.fontSize == 0 then 0 else d.fontSize - 1
    ensures r.(fontSize := d.fontSize) == d
  {
    d.(fontSize := if d.fontSize == 0 then 0 else d.fontSize - 1)
  }

  /** `A+`: one size larger, never above the last. */
  function Larger(d: Detail): (r: Detail)
    ensures r.fontSize == if d.fontSize + 1 < FontSizeCount then d.fontSize + 1 else FontSizeCount - 1
    ensures r.(fontSize := d.fontSize) == d
  {
    d.(fontSize := if d.fontSize + 1 < FontSizeCount then d.fontSize + 1 else FontSizeCount - 1)
  }

  /** A font-size button: `true` for `A+`, `false` for `A-`. */
  function Click(d: Detail, larger: bool): Detail {
    if larger then Larger(d) else Smaller(d)
  }

  function Clicks(d: Detail, clicks: seq<bool>): Detail
    decreases |clicks|
  {
    if |clicks| == 0 then d else Clicks(Click(d, clicks[0]), clicks[1..])
  }

  /** Whatever buttons are pressed from the mounted size, the index stays
      one of the four sizes, so the size lookup never falls off the list. */
  lemma {:induction false} ClicksStayInRange(d: Detail, clicks: seq<bool>)
    requires d.fontSize < FontSizeCount
    ensures Clicks(d, clicks).fontSize < FontSizeCount
    ensures Clicks(d, clicks).song == d.song && Clicks(d, clicks).presenting == d.presenting
    decreases |clicks|
  {
    if |clicks| > 0 {
      ClicksStayInRange(Click(d, clicks[0]), clicks[1..]);
    }
  }

  /** Three presses of `A+` reach the largest size from any size, and three
      of `A-` the smallest. */
  lemma {:induction false} ThreeClicksReachEnds(d: Detail)
    requires d.fontSize < FontSizeCount
    ensures Clicks(d, [true, true, true]).fontSize == FontSizeCount - 1
    ensures Clicks(d, [false, false, false]).fontSize == 0
  {
    assert [true, true, true][1..] == [true, true];
    assert [true, true][1..] == [true];
    assert [false, false, false][1..] == [false, false];
    assert [false, false][1..] == [false];
  }
}

=== FILE: choir_song_editor.dfy ===
/** The song editor of the choir-ii-ruvumera variant
    (`choir-ii-ruvumera/pages/SongEditor.tsx`): the root variant's load and
    submit with a loading spinner around the load and a saving flag around
    the write. */
module ChoirSongEditor {
  import opened Wrappers
  import opened Domain
  import opened Tables
  import opened SongEditor

  /** The spinner is up from the start exactly when a song is to be loaded. */
  function InitialLoading(routeId: Option<Id>): (b: bool)
    ensures b <==> routeId.Some? && routeId.value != ""
  {
    EditMode(routeId)
  }

  /** A load: its outcome and the successive values written to `loading`. */
  datatype LoadResult = LoadResult(outcome: LoadOutcome, loading: seq<bool>)

  /** `loadSong` with its `finally`: in edit mode `loading` is lowered once,
      whatever the fetch did; a new song writes nothing to it. */
  function Load(fetched: Result<seq<Song>, Error>, routeId: Option<Id>): (r: LoadResult)
    ensures r.outcome == LoadSong(fetched, routeId)
    ensures EditMode(routeId) <==> r.loading == [false]
    ensures !EditMode(routeId) <==> r.loading == []
  {
    LoadResult(LoadSong(fetched, routeId), if EditMode(routeId) then [false] else [])
  }

  /** The flag after a list of writes, starting from `start`. */
  function Last(start: bool, writes: seq<bool>): bool {
    if |writes| == 0 then start else writes[|writes| - 1]
  }

  /** Once the load has settled the spinner is down on every path: it was
      never raised for a new song, and the `finally` lowered it otherwise. */
  lemma SpinnerSettles(fetched: Result<seq<Song>, Error>, routeId: Option<Id>)
    ensures !Last(InitialLoading(routeId), Load(fetched, routeId).loading)
  {
  }

  /** A submit: the store and outcome, and the successive values written to
      `saving`. */
  datatype Submitted = Submitted(db: Db, outcome: SubmitOutcome, saving: seq<bool>)

  /** `handleSubmit`: an incomplete form is turned away before `saving` is
      touched; every other submit raises it and lowers it in `finally`. */
  function HandleSubmit(db: Db, routeId: Option<Id>, f: SongForm, u: Option<User>,
                        remoteFails: bool, newId: Id, now: int): (r: Submitted)
    requires db.Valid()
    ensures (r.db, r.outcome) == Submit(db, routeId, f, u, remoteFails, newId, now)
    ensures r.saving == [] <==> !Complete(f)
    ensures Complete(f) ==> r.saving == [true, false]
  {
    var (d, o) := Submit(db, routeId, f, u, remoteFails, newId, now);
    Submitted(d, o, if o.Incomplete? then [] else [true, false])
  }

  /** The save button is never left disabled. */
  lemma SavingSettles(db: Db, routeId: Option<Id>, f: SongForm, u: Option<User>,
                      remoteFails: bool, newId: Id, now: int)
    requires db.Valid()
    ensures !Last(false, HandleSubmit(db, routeId, f, u, remoteFails, newId, now).saving)
  {
  }
}

=== FILE: choir_users.dfy ===
/** The user-management page of the choir-ii-ruvumera variant
    (`choir-ii-ruvumera/pages/Users.tsx`): account creation through the
    uniqueness-checked `createUser`, the chat-suspension toggle, and the
    inline email editor. */
module ChoirUsers {
  import opened Wrappers
  import opened Domain
  import opened Tables
  import opened UserAdmin
  import ChoirDb
  import ChoirAuth

  datatype CreateOutcome = Created(u: User) | CreateFailed(e: Error) // alerted with the error's message

  /** `handleCreate`: registers the form's account. On success the modal
      closes and the form is reset to empty fields and the USER role; on
      failure, such as an email already registered, the modal and form stay
      as they were and nothing is written. */
  function HandleCreate(db: Db, m: CreateModal, newId: Id, now: int): (r: (Db, CreateModal, CreateOutcome))
    ensures r.2.Created? <==> WithEmail(db.users, m.form.email) == {} && newId !in db.users
    ensures r.2.Created? ==>
      && r.2.u == User(newId, m.form.name, m.form.email, m.form.role, now, None, None)
      && r.0.users == db.users[newId := UserRow(r.2.u, m.form.password)]
      && r.1 == CreateModal(false, BlankForm)
    ensures |WithEmail(db.users, m.form.email)| == 1 ==> r.2 == CreateFailed(UserAlreadyExists)
    ensures r.2.CreateFailed? ==> r.0 == db && r.1 == m
  {
    match ChoirDb.CreateUser(db, ChoirDb.NewUser(m.form.name, m.form.email, m.form.role, m.form.password), newId, now)
    case Success((d, u)) => (d, CreateModal(false, BlankForm), Created(u))
    case Failure(e) => (db, m, CreateFailed(e))
  }

  /** The flag the toggle writes: the negation of the row's flag, a missing
      flag counting as not suspended. */
  function NewStatus(row: User): (suspend: bool)
    ensures suspend <==> row.chatSuspended != Some(true)
  {
    !(row.chatSuspended == Some(true))
  }

  /** `toggleChatSuspension`: after confirmation, writes the negated flag of
      the row as listed; declining writes nothing. */
  function ToggleChatSuspension(db: Db, row: User, confirmed: bool): (r: Db)
    ensures !confirmed ==> r == db
    ensures r.users.Keys == db.users.Keys
    ensures forall k :: k in db.users && k != row.id ==> r.users[k] == db.users[k]
    ensures confirmed && row.id in db.users ==>
      && r.users[row.id].user.chatSuspended == Some(row.chatSuspended != Some(true))
      && r.users[row.id].user == db.users[row.id].user.(chatSuspended := r.users[row.id].user.chatSuspended)
      && r.users[row.id].passwordHash == db.users[row.id].passwordHash
  {
    if confirmed then ChoirDb.ToggleChatSuspension(db, row.id, NewStatus(row)) else db
  }

  /** Toggling twice, each time on the freshly listed row, restores whether
      the account is suspended; a missing flag comes back as `false`. */
  lemma ToggleTwiceRestores(db: Db, id: Id)
    requires db.Valid() && id in db.users
    ensures var once := ToggleChatSuspension(db, db.users[id].user, true);
      var twice := ToggleChatSuspension(once, once.users[id].user, true);
      && (twice.users[id].user.chatSuspended == Some(true) <==> db.users[id].user.chatSuspended == Some(true))
      && twice.users[id].user.chatSuspended.Some?
  {
    var once := ToggleChatSuspension(db, db.users[id].user, true);
    assert id in once.users;
    var twice := ToggleChatSuspension(once, once.users[id].user, true);
    assert twice.users[id].user.chatSuspended == Some(once.users[id].user.chatSuspended != Some(true));
  }

  /** The inline email editor: which row is in edit mode, and the typed
      email. */
  datatype EmailEditor = EmailEditor(editing: Option<Id>, tempEmail: string)

  /** `saveEmail(userId)` as written: `updateProfile(userId, { email })`,
      whose refresh signs the client in as the edited account. Edit mode is
      left only on success. */
  function SaveEmailAsWritten(db: Db, c: Client, e: EmailEditor, userId: Id): (r: (Transition, EmailEditor))
    requires db.Valid()
    ensures r.0 == ChoirAuth.UpdateProfile(db, c, userId, ChoirAuth.ProfileUpdate(None, None, Some(e.tempEmail)))
    ensures r.1 == (if r.0.failure.None? then e.(editing := None) else e)
  {
    var t := ChoirAuth.UpdateProfile(db, c, userId, ChoirAuth.ProfileUpdate(None, None, Some(e.tempEmail)));
    (t, if t.failure.None? then e.(editing := None) else e)
  }

  /** Saving another account's email as written leaves the administrator
      signed in as that account. */
  lemma SaveEmailAsWrittenSwapsSession(db: Db, c: Client, me: User, e: EmailEditor, other: Id)
    requires db.Valid()
    requires c.state.user == Some(me) && other != me.id && other in db.users
    requires e.tempEmail != ""
    requires forall k :: k in db.users && k != other ==> db.users[k].user.email != e.tempEmail
    ensures var r := SaveEmailAsWritten(db, c, e, other);
      r.0.client.state.user.Some? && r.0.client.state.user.value.id == other && r.1.editing.None?
  {
    ChoirAuth.EditingAnotherAccountSwapsSession(db, c, me, other, e.tempEmail);
  }

  /** `saveEmail(userId)` with the refresh confined to the signed-in
      account: the email of row `userId` changes unless another account holds
      it, the administrator stays signed in as themself, and edit mode is
      left only on success. */
  function SaveEmail(db: Db, c: Client, e: EmailEditor, userId: Id): (r: (Transition, EmailEditor))
    requires db.Valid()
    ensures r.0.db.users.Keys == db.users.Keys
    ensures forall k :: k in db.users && k != userId ==> r.0.db.users[k] == db.users[k]
    ensures userId in db.users ==>
      (r.0.failure.Some? <==>
         e.tempEmail != "" && exists k :: k in db.users && k != userId && db.users[k].user.email == e.tempEmail)
    ensures userId in db.users && r.0.failure.None? && e.tempEmail != "" ==>
      r.0.db.users[userId].user.email == e.tempEmail
    ensures c.state.user.Some? && c.state.user.value.id != userId ==> r.0.client == c
    ensures r.0.client.state.user.Some? <==> c.state.user.Some?
    ensures r.0.client.state.user.Some? ==> r.0.client.state.user.value.id == c.state.user.value.id
    ensures r.1 == (if r.0.failure.None? then e.(editing := None) else e)
  {
    var upd := ChoirAuth.ProfileUpdate(None, None, Some(e.tempEmail));
    ChoirAuth.OwnSessionKeepsIdentity(db, c, userId, upd);
    var t := ChoirAuth.UpdateProfileOwnSession(db, c, userId, upd);
    (t, if t.failure.None? then e.(editing := None) else e)
  }
}

=== FILE: collections.dfy ===
/** Generic sequence and map machinery shared by the store model: filtering,
    an order-generic stable insertion sort, listing the rows of a table, and
    rebuilding a table from a list of rows keyed by their id. */
module Collections {

  /** The elements of `s` that satisfy `p`, in their original order (the
      source's `Array.prototype.filter`). */
  function Filter<T(!new)>(s: seq<T>, p: T -> bool): (r: seq<T>)
    ensures |r| <= |s|
    ensures forall x :: x in r ==> p(x) && x in s
  {
    if |s| == 0 then []
    else
      var rest := Filter(s[1..], p);
      if p(s[0]) then [s[0]] + rest else rest
  }

  /** The filter keeps every element satisfying `p` as often as `s` holds it,
      and no other element. */
  lemma {:induction false} FilterCounts<T(!new)>(s: seq<T>, p: T -> bool)
    ensures forall x :: p(x) ==> multiset(Filter(s, p))[x] == multiset(s)[x]
    ensures forall x :: !p(x) ==> multiset(Filter(s, p))[x] == 0
    ensures multiset(Filter(s, p)) <= multiset(s)
  {
    if |s| > 0 {
      FilterCounts(s[1..], p);
      var rest := Filter(s[1..], p);
      assert s == [s[0]] + s[1..];
      assert multiset(s) == multiset{s[0]} + multiset(s[1..]);
      if p(s[0]) {
        assert multiset(Filter(s, p)) == multiset{s[0]} + multiset(rest);
      }
    }
  }

  /** Filtering twice with the same predicate changes nothing the second time. */
  lemma {:induction false} FilterIdempotent<T(!new)>(s: seq<T>, p: T -> bool)
    ensures Filter(Filter(s, p), p) == Filter(s, p)
  {
    if |s| > 0 {
      FilterIdempotent(s[1..], p);
      var rest := Filter(s[1..], p);
      if p(s[0]) {
        assert ([s[0]] + rest)[1..] == rest;
      }
    }
  }

  /** A predicate that holds of every element keeps the whole sequence. */
  lemma {:induction false} FilterAll<T(!new)>(s: seq<T>, p: T -> bool)
    requires forall i :: 0 <= i < |s| ==> p(s[i])
    ensures Filter(s, p) == s
  {
    if |s| > 0 {
      FilterAll(s[1..], p);
      assert s == [s[0]] + s[1..];
    }
  }

  /** Filtering commutes with appending one element. */
  lemma {:induction false} FilterAppend<T(!new)>(s: seq<T>, x: T, p: T -> bool)
    ensures Filter(s + [x], p) == Filter(s, p) + (if p(x) then [x] else [])
  {
    if |s| == 0 {
      assert s + [x] == [x];
    } else {
      assert (s + [x])[1..] == s[1..] + [x];
      FilterAppend(s[1..], x, p);
    }
  }

  /** `le` is a total preorder: any two elements compare, and comparison chains.
      This is what a comparator handed to a sort is assumed to induce. */
  ghost predicate TotalPreorder<T(!new)>(le: (T, T) -> bool) {
    && (forall a, b :: le(a, b) || le(b, a))
    && (forall a, b, c :: le(a, b) && le(b, c) ==> le(a, c))
  }

  /** `s` is in non-decreasing order under `le`. */
  predicate SortedBy<T>(s: seq<T>, le: (T, T) -> bool) {
    forall i, j :: 0 <= i < j < |s| ==> le(s[i], s[j])
  }

  /** Inserts `x` into the sorted `s` after every element that is not greater
      than `x`, so equal elements keep their arrival order. */
  function Insert<T(!new)>(x: T, s: seq<T>, le: (T, T) -> bool): (r: seq<T>)
    requires TotalPreorder(le)
    requires SortedBy(s, le)
    ensures multiset(r) == multiset(s) + multiset{x}
    ensures SortedBy(r, le)
  {
    if |s| == 0 then [x]
    else if !le(s[0], x) then
      FrontPrecedes(x, s, le);
      SortedCons(x, s, le);
      [x] + s
    else
      var rest := Insert(x, s[1..], le);
      assert s == [s[0]] + s[1..];
      HeadPrecedes(s, x, rest, le);
      SortedCons(s[0], rest, le);
      assert multiset([s[0]] + rest) == multiset{s[0]} + multiset(rest);
      [s[0]] + rest
  }

  /** An element preceding every element of a sorted sequence can go first. */
  lemma SortedCons<T>(a: T, rest: seq<T>, le: (T, T) -> bool)
    requires SortedBy(rest, le)
    requires forall k :: 0 <= k < |rest| ==> le(a, rest[k])
    ensures SortedBy([a] + rest, le)
  {
    var r := [a] + rest;
    forall i, j | 0 <= i < j < |r|
      ensures le(r[i], r[j])
    {
      assert r[j] == rest[j - 1];
      if i > 0 {
        assert r[i] == rest[i - 1];
      }
    }
  }

  /** Under a total preorder, an element the head of a sorted sequence does
      not precede precedes every element. */
  lemma FrontPrecedes<T(!new)>(x: T, s: seq<T>, le: (T, T) -> bool)
    requires TotalPreorder(le) && SortedBy(s, le)
    requires |s| > 0 && !le(s[0], x)
    ensures forall k :: 0 <= k < |s| ==> le(x, s[k])
  {
    assert le(x, s[0]);
    forall k | 0 < k < |s|
      ensures le(x, s[k])
    {
      assert le(s[0], s[k]);
    }
  }

  /** The head of a sorted `s` that precedes `x` precedes every element of
      any rearrangement of the rest of `s` with `x` added. */
  lemma HeadPrecedes<T>(s: seq<T>, x: T, rest: seq<T>, le: (T, T) -> bool)
    requires SortedBy(s, le) && |s| > 0 && le(s[0], x)
    requires multiset(rest) == multiset(s[1..]) + multiset{x}
    ensures forall k :: 0 <= k < |rest| ==> le(s[0], rest[k])
  {
    forall k | 0 <= k < |rest|
      ensures le(s[0], rest[k])
    {
      assert rest[k] in multiset(rest);
      if rest[k] != x {
        assert rest[k] in multiset(s[1..]);
        var i :| 0 <= i < |s[1..]| && s[1..][i] == rest[k];
        assert s[i + 1] == rest[k];
      }
    }
  }

  /** Insertion sort: a permutation of `s` in non-decreasing order under `le`
      (the source's `Array.prototype.sort` with a comparator, and a database
      `ORDER BY`). */
  function Sort<T(!new)>(s: seq<T>, le: (T, T) -> bool): (r: seq<T>)
    requires TotalPreorder(le)
    ensures multiset(r) == multiset(s)
    ensures SortedBy(r, le)
  {
    if |s| == 0 then []
    else
      assert s == s[..|s| - 1] + [s[|s| - 1]];
      Insert(s[|s| - 1], Sort(s[..|s| - 1], le), le)
  }

  /** A sequence that lists every element of `xs` exactly once, in some order
      (reading a table whose row order the store does not promise). */
  method Enumerate<T>(xs: set<T>) returns (s: seq<T>)
    ensures multiset(s) == multiset(xs)
  {
    s := [];
    var rest := xs;
    while rest != {}
      invariant rest <= xs
      invariant multiset(s) + multiset(rest) == multiset(xs)
      decreases |rest|
    {
      var x :| x in rest;
      assert multiset(rest) == multiset(rest - {x}) + multiset{x};
      s := s + [x];
      rest := rest - {x};
    }
  }

  /** Every row of `m` is stored under its own key. */
  predicate WellKeyed<K(==), T>(m: map<K, T>, key: T -> K) {
    forall k :: k in m ==> key(m[k]) == k
  }

  /** No two rows of `rows` share a key. */
  predicate DistinctKeys<K(==), T>(rows: seq<T>, key: T -> K) {
    forall i, j :: 0 <= i < j < |rows| ==> key(rows[i]) != key(rows[j])
  }

  /** The table holding `rows`, each under its key. */
  function Keyed<K(==), T>(rows: seq<T>, key: T -> K): (m: map<K, T>)
    ensures m.Keys == set i | 0 <= i < |rows| :: key(rows[i])
    ensures WellKeyed(m, key)
    ensures DistinctKeys(rows, key) ==> forall i :: 0 <= i < |rows| ==> m[key(rows[i])] == rows[i]
  {
    if |rows| == 0 then map[]
    else
      var init := rows[..|rows| - 1];
      var last := rows[|rows| - 1];
      var m := Keyed(init, key);
      assert forall i :: 0 <= i < |init| ==> init[i] == rows[i];
      m[key(last) := last]
  }

  /** `rows` lists the rows of the table `m`: each row once, nothing else. */
  predicate Lists<K, T(==)>(rows: seq<T>, m: map<K, T>) {
    multiset(rows) == multiset(m.Values)
  }

  /** An element at two positions is counted at least twice. */
  lemma CountedTwice<T>(s: seq<T>, i: int, j: int)
    requires 0 <= i < j < |s| && s[i] == s[j]
    ensures multiset(s)[s[i]] >= 2
  {
    assert s == s[..i] + [s[i]] + s[i + 1..];
    assert s[j] in s[i + 1..];
  }

  /** Every row of a listing of a well-keyed table sits under its key. */
  lemma ListedRowsStored<K, T>(m: map<K, T>, rows: seq<T>, key: T -> K)
    requires WellKeyed(m, key)
    requires Lists(rows, m)
    ensures forall i :: 0 <= i < |rows| ==> key(rows[i]) in m && m[key(rows[i])] == rows[i]
  {
    forall i | 0 <= i < |rows|
      ensures key(rows[i]) in m && m[key(rows[i])] == rows[i]
    {
      assert rows[i] in multiset(rows);
      assert rows[i] in m.Values;
      var k :| k in m && m[k] == rows[i];
    }
  }

  /** A listing of a table holds no two rows with one key: such rows would
      be one row listed twice. */
  lemma ListingKeysDistinct<K, T>(m: map<K, T>, rows: seq<T>, key: T -> K)
    requires WellKeyed(m, key)
    requires Lists(rows, m)
    ensures DistinctKeys(rows, key)
  {
    ListedRowsStored(m, rows, key);
    forall i, j | 0 <= i < j < |rows|
      ensures key(rows[i]) != key(rows[j])
    {
      if key(rows[i]) == key(rows[j]) {
        CountedTwice(rows, i, j);
      }
    }
  }

  /** Every key of a listing's rebuilt table is a key of the table, with the
      same row. */
  lemma KeyedWithin<K, T>(m: map<K, T>, rows: seq<T>, key: T -> K)
    requires WellKeyed(m, key)
    requires Lists(rows, m)
    ensures forall k :: k in Keyed(rows, key) ==> k in m && Keyed(rows, key)[k] == m[k]
  {
    ListedRowsStored(m, rows, key);
    ListingKeysDistinct(m, rows, key);
    var r := Keyed(rows, key);
    forall k | k in r
      ensures k in m && r[k] == m[k]
    {
      var i :| 0 <= i < |rows| && key(rows[i]) == k;
    }
  }

  /** Every key of the table is a key of a listing's rebuilt table. */
  lemma KeyedCovers<K, T>(m: map<K, T>, rows: seq<T>, key: T -> K)
    requires WellKeyed(m, key)
    requires Lists(rows, m)
    ensures forall k :: k in m ==> k in Keyed(rows, key)
  {
    var r := Keyed(rows, key);
    forall k | k in m
      ensures k in r
    {
      assert m[k] in m.Values;
      assert m[k] in multiset(rows);
      var i :| 0 <= i < |rows| && rows[i] == m[k];
      assert key(rows[i]) == k;
    }
  }

  /** Rebuilding a well-keyed table from a listing of its rows gives the table
      back, and the listing has no two rows with one key. */
  lemma KeyedListing<K, T>(m: map<K, T>, rows: seq<T>, key: T -> K)
    requires WellKeyed(m, key)
    requires Lists(rows, m)
    ensures DistinctKeys(rows, key)
    ensures Keyed(rows, key) == m
  {
    ListingKeysDistinct(m, rows, key);
    KeyedWithin(m, rows, key);
    KeyedCovers(m, rows, key);
    assert Keyed(rows, key).Keys == m.Keys;
  }

  /** Orders rows by a key under an order on keys (`ORDER BY column`). */
  function By<T, K>(key: T -> K, le: (K, K) -> bool): (T, T) -> bool {
    (a: T, b: T) => le(key(a), key(b))
  }

  /** Ordering by a key inherits totality and transitivity from the key order. */
  lemma ByPreorder<T(!new), K(!new)>(key: T -> K, le: (K, K) -> bool)
    requires TotalPreorder(le)
    ensures TotalPreorder(By(key, le))
  {
    var o := By(key, le);
    forall a: T, b: T, c: T | o(a, b) && o(b, c)
      ensures o(a, c)
    {
      assert le(key(a), key(b)) && le(key(b), key(c));
    }
    forall a: T, b: T
      ensures o(a, b) || o(b, a)
    {
      assert le(key(a), key(b)) || le(key(b), key(a));
    }
  }

  /** Lists every row of `m` once, in non-decreasing order under `le` (a
      `SELECT * ... ORDER BY`). */
  method SortedListing<K, T(==,!new)>(m: map<K, T>, le: (T, T) -> bool) returns (r: seq<T>)
    requires TotalPreorder(le)
    ensures Lists(r, m)
    ensures SortedBy(r, le)
  {
    var s := Enumerate(m.Values);
    r := Sort(s, le);
  }

  /** In a sorted sequence, every element of a prefix precedes every element
      outside it: the first `n` rows of an ordered query are the least ones. */
  lemma SortedPrefixIsLeast<T>(s: seq<T>, n: nat, le: (T, T) -> bool)
    requires SortedBy(s, le)
    requires n <= |s|
    ensures forall x, y :: x in s[..n] && y in s && y !in s[..n] ==> le(x, y)
  {
    forall x, y | x in s[..n] && y in s && y !in s[..n]
      ensures le(x, y)
    {
      var i :| 0 <= i < n && s[..n][i] == x;
      var j :| 0 <= j < |s| && s[j] == y;
    }
  }

  /** The first `n` rows of a sorted listing of `m`: rows of `m`, still
      sorted, each no greater than any row left out, and the whole table when
      `n` covers the listing. */
  lemma ListingPrefix<K, T>(all: seq<T>, m: map<K, T>, n: nat, le: (T, T) -> bool)
    requires Lists(all, m)
    requires SortedBy(all, le)
    requires n <= |all|
    ensures multiset(all[..n]) <= multiset(m.Values)
    ensures SortedBy(all[..n], le)
    ensures forall x, y :: x in all[..n] && y in m.Values && y !in all[..n] ==> le(x, y)
    ensures n == |all| ==> Lists(all[..n], m)
  {
    assert all == all[..n] + all[n..];
    SortedPrefixIsLeast(all, n, le);
    forall y | y in m.Values
      ensures y in all
    {
      assert y in multiset(all);
    }
  }
}

=== FILE: domain.dfy ===
/** The records of the choir application, shared by both variants of the code
    base: accounts, songs, choir members, chat messages, the four-table store,
    the client's authentication state and the backup document. */
module Domain {
  import opened Wrappers
  import opened Collections

  /** Primary keys are opaque strings generated by the store. */
  type Id = string

  datatype Role = ADMIN | EDITOR | USER

  /** An account as the client sees and caches it: the stored row without its
      credential. `avatar` is `profileImage` in one variant and `avatar` in the
      other; `chatSuspended` exists only in the choir-ii-ruvumera variant.
      Timestamps are abstracted to integers. */
  datatype User = User(
    id: Id,
    name: string,
    email: string,
    role: Role,
    createdAt: int,
    avatar: Option<string>,
    chatSuspended: Option<bool>)

  /** A row of the `users` table: the account together with its credential,
      which is stored and compared as plain text. */
  datatype UserRow = UserRow(user: User, passwordHash: string)

  datatype Song = Song(
    id: Id,
    title: string,
    lyrics: string,
    category: string,
    language: Option<string>,
    author: Option<string>,
    createdBy: Id,
    updatedBy: Id,
    createdAt: int,
    updatedAt: int)

  datatype VoicePart = Soprano | Alto | Tenor | Bass | Instrumentalist

  datatype Member = Member(
    id: Id,
    name: string,
    voicePart: VoicePart,
    phone: Option<string>,
    address: Option<string>,
    isActive: bool,
    createdAt: int)

  datatype MessageKind = Text | Image | File

  /** A chat message; `createdAt` is the column called `timestamp` in one
      variant. `mediaUrl` is used by one variant and `fileName` by both. */
  datatype Message = Message(
    id: Id,
    userId: Id,
    userName: string,
    userAvatar: Option<string>,
    content: string,
    kind: MessageKind,
    mediaUrl: Option<string>,
    fileName: Option<string>,
    createdAt: int)

  function UserKey(r: UserRow): Id { r.user.id }
  function SongKey(s: Song): Id { s.id }
  function MemberKey(m: Member): Id { m.id }
  function MessageKey(m: Message): Id { m.id }

  /** The hosted database: four tables, each a map from primary key to row. */
  datatype Db = Db(
    users: map<Id, UserRow>,
    songs: map<Id, Song>,
    members: map<Id, Member>,
    messages: map<Id, Message>)
  {
    /** Every row sits under its own primary key. */
    predicate Valid() {
      && WellKeyed(users, UserKey)
      && WellKeyed(songs, SongKey)
      && WellKeyed(members, MemberKey)
      && WellKeyed(messages, MessageKey)
    }
  }

  const EmptyDb := Db(map[], map[], map[], map[])

  /** The published authentication state of the client. */
  datatype AuthState = AuthState(user: Option<User>, isAuthenticated: bool, isLoading: bool)

  /** The state every provider mounts with. */
  const Initial := AuthState(None, false, true)

  /** The state after logging out. */
  const SignedOut := AuthState(None, false, false)

  /** The client: its published state and the session slot in local storage
      (the serialized, credential-free account, or nothing). */
  datatype Client = Client(state: AuthState, session: Option<User>)

  /** `logout`, the same in both providers: from any state, signed out, not
      loading, session removed. */
  function Logout(c: Client): (r: Client)
    ensures r.state == SignedOut && r.session.None?
    ensures !r.state.isAuthenticated && r.state.user.None? && !r.state.isLoading
  {
    Client(SignedOut, None)
  }

  /** The four tables a backup covers. */
  datatype Table = UsersTable | SongsTable | MembersTable | MessagesTable

  /** A top-level field of a parsed backup document: missing, present but not
      an array, or an array of rows. */
  datatype Field<T> = Absent | NotList | List(rows: seq<T>)

  /** The backup document, parsed. */
  datatype BackupDocument = BackupDocument(
    users: Field<UserRow>,
    songs: Field<Song>,
    members: Field<Member>,
    messages: Field<Message>,
    version: int,
    exportedAt: string)

  datatype Error =
    | UserNotFound        // login lookup miss
    | InvalidCredentials  // login password mismatch
    | UserAlreadyExists   // registration with a taken email
    | EmailInUse          // email change to another account's email
    | NoRows              // `.single()` found no row
    | MultipleRows        // `.maybeSingle()` found more than one row
    | DuplicateKey        // an insert clashed with an existing primary key
    | InvalidBackup       // an import was refused
    | RemoteFailure       // the call itself failed
    | ClientFault         // a TypeError in the page, such as reading a field of a missing user

  /** The outcome of an operation that may write several times before it
      fails: the store and client as they are afterwards, and the error if
      one was thrown. */
  datatype Transition = Transition(db: Db, client: Client, failure: Option<Error>)

  /** The current account's role, `undefined` when signed out (`user?.role`). */
  function RoleOf(u: Option<User>): Option<Role> {
    match u
    case Some(v) => Some(v.role)
    case None => None
  }

  /** `user?.role === 'ADMIN' || user?.role === 'EDITOR'`: the song pages
      offer editing controls to these two roles only. */
  predicate CanEditSongs(role: Option<Role>) {
    role == Some(ADMIN) || role == Some(EDITOR)
  }

  /** JavaScript truthiness of an optional string: present and non-empty. */
  predicate Truthy(s: Option<string>) {
    s.Some? && s.value != ""
  }
}

=== FILE: root_app.dfy ===
/** The route guard of the root variant: loading first, then
    authentication, then the page's allowed roles. */
module RootApp {
  import opened Wrappers
  import opened Domain
  import opened Routes

  /** What the application shows for a pathname. */
  datatype View = LoadingView | Redirect(path: Path) | Render(page: Page)

  /** The `allowedRoles` of each protected route; `None` admits every role. */
  function AllowedRoles(p: Page): Option<set<Role>> {
    match p
    case SongNew => Some({ADMIN, EDITOR})
    case SongEdit(_) => Some({ADMIN, EDITOR})
    case MemberList => Some({ADMIN, EDITOR})
    case UserAdmin => Some({ADMIN})
    case SettingsPage => Some({ADMIN})
    case _ => None
  }

  /** `ProtectedRoute`: the loading screen while loading, `/login` when not
      authenticated, `/dashboard` when a known role is not allowed, and the
      page otherwise. A missing user on an authenticated state is not
      checked against the roles. */
  function Guard(s: AuthState, allowed: Option<set<Role>>, p: Page): (v: View)
    ensures s.isLoading <==> v == LoadingView
    ensures !s.isLoading && !s.isAuthenticated ==> v == Redirect(LoginPath)
    ensures !s.isLoading && s.isAuthenticated ==>
      (v == Render(p) <==> allowed.None? || s.user.None? || s.user.value.role in allowed.value)
    ensures v.Redirect? ==> v.path in {LoginPath, DashboardPath}
  {
    if s.isLoading then LoadingView
    else if !s.isAuthenticated then Redirect(LoginPath)
    else if allowed.Some? && s.user.Some? && s.user.value.role !in allowed.value then Redirect(DashboardPath)
    else Render(p)
  }

  /** The router and the guard together; `/login` is not guarded. */
  function Resolve(s: AuthState, path: Path): (v: View)
    ensures Match(path).GoTo? ==> v == Redirect(DashboardPath)
    ensures Match(path) == Show(LoginPage) ==> v == Render(LoginPage)
  {
    match Match(path)
    case GoTo(target) => Redirect(target)
    case Show(LoginPage) => Render(LoginPage)
    case Show(p) => Guard(s, AllowedRoles(p), p)
  }

  /** Which pages a role may open: songs editing and members need ADMIN or
      EDITOR, users and settings need ADMIN, the rest are open. */
  predicate Permits(r: Role, p: Page) {
    AllowedRoles(p).None? || r in AllowedRoles(p).value
  }

  lemma PermitsTable(r: Role, p: Page)
    ensures Permits(r, p) <==>
      (r == ADMIN
       || (r == EDITOR && !p.UserAdmin? && !p.SettingsPage?)
       || (r == USER && !p.SongNew? && !p.SongEdit? && !p.MemberList? && !p.UserAdmin? && !p.SettingsPage?))
  {
  }

  /** The decision table on every protected page's link. */
  lemma ResolveProtected(s: AuthState, p: Page)
    requires Linkable(p) && p != LoginPage
    ensures s.isLoading ==> Resolve(s, Href(p)) == LoadingView
    ensures !s.isLoading && !s.isAuthenticated ==> Resolve(s, Href(p)) == Redirect(LoginPath)
    ensures !s.isLoading && s.isAuthenticated && s.user.Some? ==>
      Resolve(s, Href(p)) == (if Permits(s.user.value.role, p) then Render(p) else Redirect(DashboardPath))
  {
    HrefShows(p);
  }

  /** A denied caller lands on a page every signed-in role may open, so the
      guard never sends anyone round in circles. */
  lemma DenialLandsOnDashboard(s: AuthState)
    requires !s.isLoading && s.isAuthenticated
    ensures Resolve(s, DashboardPath) == Render(DashboardPage)
  {
    DashboardRenders();
  }
}

=== FILE: root_auth.dfy ===
/** The authentication provider of the root variant: session restore guarded
    by a `mounted` flag and a safety timer, login (whose lookup may create the
    administrator), logout, and a profile update that writes the returned
    account into the session without re-reading it. */
module RootAuth {
  import opened Wrappers
  import opened Domain
  import opened Tables
  import RootDb

  /** `login`: the lookup (which may insert the administrator, and reads
      several matches as none), then plain equality of the credential. A
      failure leaves state and session as they were, but the lookup's write
      stays. */
  function Login(db: Db, c: Client, email: string, password: string, newId: Id, now: int): (r: Transition)
    ensures r.db == RootDb.GetUserByEmail(db, email, newId, now).0
    ensures r.failure.Some? ==> r.client == c
    ensures r.failure == Some(UserNotFound) <==> RootDb.GetUserByEmail(db, email, newId, now).1.None?
    ensures r.failure.None? <==>
      exists row :: RootDb.GetUserByEmail(db, email, newId, now).1 == Some(row) && row.passwordHash == password
    ensures r.failure.None? ==>
      && r.client.state == AuthState(r.client.session, true, false)
      && r.client.session == Some(RootDb.GetUserByEmail(db, email, newId, now).1.value.user)
    ensures r.failure.Some? ==> r.failure.value in {UserNotFound, InvalidCredentials}
  {
    var (d, found) := RootDb.GetUserByEmail(db, email, newId, now);
    match found
    case None => Transition(d, c, Some(UserNotFound))
    case Some(row) =>
      if row.passwordHash != password then Transition(d, c, Some(InvalidCredentials))
      else Transition(d, Client(AuthState(Some(row.user), true, false), Some(row.user)), None)
  }

  /** Other emails: login is a read that succeeds exactly for the one account
      holding the email when its credential matches. */
  lemma LoginDecision(db: Db, c: Client, k: Id, password: string, newId: Id, now: int)
    requires UniqueEmails(db.users) && k in db.users
    ensures var r := Login(db, c, db.users[k].user.email, password, newId, now);
      && r.db == db
      && (r.failure.None? <==> db.users[k].passwordHash == password)
      && (r.failure.None? ==> r.client.session == Some(db.users[k].user))
      && (r.failure.Some? ==> r.failure == Some(InvalidCredentials) && r.client == c)
  {
    RootDb.GetExistingUserIsRead(db, k, newId, now);
  }

  /** On a store without the administrator, a login attempt with the reserved
      email creates it, even when the password then turns out wrong. */
  lemma FailedAdminLoginStillSeeds(db: Db, c: Client, password: string, newId: Id, now: int)
    requires WithEmail(db.users, AdminEmail) == {} && newId !in db.users
    requires password != AdminPassword
    ensures var r := Login(db, c, AdminEmail, password, newId, now);
      && r.failure == Some(InvalidCredentials) && r.client == c
      && r.db.users == db.users[newId := AdminRow(newId, now, None)]
  {
  }

  /** How the restore's `try` block ended: normally, or with an exception
      (such as an unparseable saved session). */
  datatype RestoreEnd = Completed | Threw

  /** The restore effect: every state write is guarded by `mounted`. A saved
      account that still exists is adopted as stored now; one that no longer
      exists is removed from the session slot; without a saved session, and
      after an exception, the client only stops loading. */
  function Restore(db: Db, c: Client, mounted: bool, end: RestoreEnd): (r: Client)
    ensures !mounted ==> r == c
    ensures mounted ==> !r.state.isLoading
    ensures mounted && end == Completed && c.session.Some? && c.session.value.id in db.users ==>
      r == Client(AuthState(Some(db.users[c.session.value.id].user), true, false), c.session)
    ensures mounted && end == Completed && c.session.Some? && c.session.value.id !in db.users ==>
      r == Client(c.state.(isLoading := false), None)
    ensures mounted && (end == Threw || c.session.None?) ==> r == c.(state := c.state.(isLoading := false))
  {
    if !mounted then c
    else if end == Threw || c.session.None? then c.(state := c.state.(isLoading := false))
    else match FindById(db.users, c.session.value.id)
      case Some(row) => Client(AuthState(Some(row.user), true, false), c.session)
      case None => Client(c.state.(isLoading := false), None)
  }

  /** The safety timer. Its condition reads `isLoading` from the state
      captured when the effect was set up, which is the initial state, so it
      fires whenever the provider is still mounted. It only ever clears
      `isLoading`. */
  function SafetyTimer(c: Client, mounted: bool): (r: Client)
    ensures r.session == c.session
    ensures r.state.user == c.state.user && r.state.isAuthenticated == c.state.isAuthenticated
    ensures mounted ==> !r.state.isLoading
    ensures !mounted ==> r == c
  {
    if mounted && Initial.isLoading then c.(state := c.state.(isLoading := false)) else c
  }

  /** Starting from the mount state, the restore ends the same whether or not
      the timer fired first, and the (cleared) timer would change nothing
      afterwards. */
  lemma TimerDoesNotChangeOutcome(db: Db, session: Option<User>, mounted: bool, end: RestoreEnd)
    ensures var c := Client(Initial, session);
      && Restore(db, SafetyTimer(c, mounted), mounted, end) == Restore(db, c, mounted, end)
      && SafetyTimer(Restore(db, c, mounted, end), mounted) == Restore(db, c, mounted, end)
  {
  }

  /** From the mount state, a mounted restore ends authenticated exactly when
      it completed and the saved account still exists, and otherwise ends
      signed out and not loading. */
  lemma RestoreOutcome(db: Db, session: Option<User>, end: RestoreEnd)
    ensures var r := Restore(db, Client(Initial, session), true, end);
      && (r.state.isAuthenticated <==> end == Completed && session.Some? && session.value.id in db.users)
      && (!r.state.isAuthenticated ==> r.state == SignedOut)
  {
  }

  /** A key of the update object: not there, there with `undefined`, or
      there with a value. `Object.keys` counts the middle case too. */
  datatype Key<T> = Missing | Undefined | Given(value: T)

  predicate HasKey<T>(k: Key<T>) {
    !k.Missing?
  }

  function Defined<T>(k: Key<T>): Option<T> {
    if k.Given? then Some(k.value) else None
  }

  /** The argument of `updateProfile`. */
  datatype ProfileData = ProfileData(name: Key<string>, email: Key<string>, avatar: Key<string>,
                                     password: Option<string>)

  /** Some key other than the password is present, possibly `undefined`. */
  predicate AnyKey(data: ProfileData) {
    HasKey(data.name) || HasKey(data.email) || HasKey(data.avatar)
  }

  /** Some key other than the password carries a value, so the update body
      is not empty. */
  predicate AnyDefined(data: ProfileData) {
    data.name.Given? || data.email.Given? || data.avatar.Given?
  }

  /** `updateProfile`: resets the password when one is given; then, when any
      other key is present, writes the defined ones through `updateUser` (no
      email check) and puts the returned account into the session and the
      state's `user`, leaving `isAuthenticated` and `isLoading` alone. A
      failed update, including one whose keys are all `undefined`, throws
      after the reset. */
  function UpdateProfile(db: Db, c: Client, id: Id, data: ProfileData): (r: Transition)
    ensures var afterReset := if Truthy(data.password) then ResetUserPassword(db, id, data.password.value) else db;
      && (!AnyKey(data) ==> r == Transition(afterReset, c, None))
      && (AnyKey(data) && (id !in db.users || !AnyDefined(data)) ==>
            r == Transition(afterReset, c, Some(NoRows)))
    ensures AnyDefined(data) && id in db.users ==>
      && r.failure.None?
      && r.db.users.Keys == db.users.Keys
      && (forall k :: k in db.users && k != id ==> r.db.users[k] == db.users[k])
      && r.db.users[id].passwordHash == (if Truthy(data.password) then data.password.value else db.users[id].passwordHash)
      && r.client.session == Some(r.db.users[id].user)
      && r.client.state == c.state.(user := r.client.session)
      && r.db.users[id].user.role == db.users[id].user.role
      && r.db.users[id].user.name == Defined(data.name).GetOr(db.users[id].user.name)
      && r.db.users[id].user.email == Defined(data.email).GetOr(db.users[id].user.email)
      && r.db.users[id].user.avatar ==
           (if Defined(data.avatar).Some? then Defined(data.avatar) else db.users[id].user.avatar)
  {
    var afterReset := if Truthy(data.password) then ResetUserPassword(db, id, data.password.value) else db;
    if !AnyKey(data) then Transition(afterReset, c, None)
    else
      match RootDb.UpdateUser(afterReset, id, UserPatch(Defined(data.name), Defined(data.email), Defined(data.avatar)))
      case Failure(e) => Transition(afterReset, c, Some(e))
      case Success((d, u)) => Transition(d, Client(c.state.(user := Some(u)), Some(u)), None)
  }

  /** No uniqueness check: a profile update can give an account the email of
      another one. */
  lemma UpdateProfileAllowsTakenEmail(db: Db, c: Client, id: Id, other: Id)
    requires id in db.users && other in db.users && id != other
    ensures var email := db.users[other].user.email;
      var r := UpdateProfile(db, c, id, ProfileData(Missing, Given(email), Missing, None));
      && r.failure.None?
      && r.db.users[id].user.email == r.db.users[other].user.email
      && !UniqueEmails(r.db.users)
  {
  }
}

=== FILE: root_chat.dfy ===
/** The chat page of the root variant (`pages/Chat.tsx`): the composer with
    its image preview, the send guard and payload, file selection, the emoji
    picker, and the header and sender colours. Its administrator's delete is
    the same as the choir variant's, `ChoirChat.HandleDeleteMessage`. */
module RootChat {
  import opened Wrappers
  import opened Domain
  import opened Text
  import opened Tables

  /** The composer: the typed text, the image preview (a data URL), and
      whether the emoji picker and the attach menu are open. */
  datatype Composer = Composer(text: string, preview: Option<string>, emojiOpen: bool, attachOpen: bool)

  datatype SendOutcome =
    | Ignored              // nothing to send, or nobody signed in
    | Sent(m: Message)
    | SendFailed(e: Error) // alerted "Failed to send message"

  /** `handleSend`: does nothing without a user or without anything to send
      (only white space and no preview). Otherwise sends an image message
      when a preview is present, carrying the preview as its media URL, and
      a text message when not. A successful send clears the text and the
      preview and closes the emoji picker; a failed one keeps the draft. */
  function HandleSend(db: Db, c: Composer, u: Option<User>, remoteFails: bool, newId: Id, now: int)
    : (r: (Db, Composer, SendOutcome))
    ensures u.None? || (Blank(c.text) && !Truthy(c.preview)) ==> r == (db, c, Ignored)
    ensures r.2.Sent? <==>
      u.Some? && (!Blank(c.text) || Truthy(c.preview)) && !remoteFails && newId !in db.messages
    ensures r.2.Sent? ==>
      && r.2.m.userId == u.value.id && r.2.m.userName == u.value.name && r.2.m.userAvatar == u.value.avatar
      && r.2.m.content == c.text
      && (r.2.m.kind == Image <==> Truthy(c.preview))
      && r.2.m.kind in {Image, Text}
      && r.2.m.mediaUrl == (if Truthy(c.preview) then c.preview else None)
      && r.2.m.id == newId && r.2.m.createdAt == now
      && r.0 == db.(messages := db.messages[newId := r.2.m])
      && r.1 == c.(text := "", preview := None, emojiOpen := false)
    ensures !r.2.Sent? ==> r.0 == db && r.1 == c
  {
    TrimEmptyIffBlank(c.text);
    if (Trim(c.text) == [] && !Truthy(c.preview)) || u.None? then (db, c, Ignored)
    else
      var user := u.value;
      var image := Truthy(c.preview);
      var draft := MessageDraft(user.id, user.name, user.avatar, c.text,
                                if image then Image else Text, if image then c.preview else None, None);
      if remoteFails then (db, c, SendFailed(RemoteFailure))
      else match SendMessage(db, draft, newId, now)
        case Failure(e) => (db, c, SendFailed(e))
        case Success((d, m)) => (d, c.(text := "", preview := None, emojiOpen := false), Sent(m))
  }

  /** A chosen file: its name and MIME type. */
  datatype Chosen = Chosen(name: string, mimeType: string)

  const FileMarker: string := "[FILE] "

  /** `handleFileSelect`, with an image already read into the data URL
      `dataUrl`: an `image/` file becomes the preview, any other file
      replaces the text by `[FILE] ` and its name; either way the attach menu
      closes. Without a file nothing changes. */
  function HandleFileSelect(c: Composer, file: Option<Chosen>, dataUrl: string): (r: Composer)
    ensures file.None? ==> r == c
    ensures file.Some? ==> !r.attachOpen && r.emojiOpen == c.emojiOpen
    ensures file.Some? && StartsWith(file.value.mimeType, "image/") ==>
      r.preview == Some(dataUrl) && r.text == c.text
    ensures file.Some? && !StartsWith(file.value.mimeType, "image/") ==>
      r.preview == c.preview && StartsWith(r.text, FileMarker) && r.text[|FileMarker|..] == file.value.name
  {
    match file
    case None => c
    case Some(f) =>
      if StartsWith(f.mimeType, "image/") then c.(preview := Some(dataUrl), attachOpen := false)
      else c.(text := FileMarker + f.name, attachOpen := false)
  }

  /** `addEmoji`: the emoji goes at the end of the text and the picker
      closes; the preview and the attach menu are untouched. */
  function AddEmoji(c: Composer, emoji: string): (r: Composer)
    ensures r.text == c.text + emoji && !r.emojiOpen
    ensures r.preview == c.preview && r.attachOpen == c.attachOpen
  {
    c.(text := c.text + emoji, emojiOpen := false)
  }

  /** A selected non-image file can always be sent: its marker text is
      never blank. */
  lemma FileMarkerIsSendable(c: Composer, f: Chosen, dataUrl: string)
    requires !StartsWith(f.mimeType, "image/")
    ensures !Blank(HandleFileSelect(c, Some(f), dataUrl).text)
  {
    var t := HandleFileSelect(c, Some(f), dataUrl).text;
    assert t[1] == FileMarker[1] == 'F';
  }

  // --------------------------------------------------------------- header

  /** The sender names of the listed messages, in order. */
  function Senders(msgs: seq<Message>): (r: seq<string>)
    ensures |r| == |msgs| && forall i :: 0 <= i < |msgs| ==> r[i] == msgs[i].userName
  {
    seq(|msgs|, i requires 0 <= i < |msgs| => msgs[i].userName)
  }

  /** `[...new Set(names)]`: each name once, in order of first appearance. */
  function Distinct(s: seq<string>): (r: seq<string>)
    ensures forall x :: x in r <==> x in s
    ensures forall i, j :: 0 <= i < j < |r| ==> r[i] != r[j]
  {
    if |s| == 0 then []
    else
      var d := Distinct(s[..|s| - 1]);
      assert forall x :: x in s <==> x in s[..|s| - 1] || x == s[|s| - 1];
      if s[|s| - 1] in d then d else d + [s[|s| - 1]]
  }

  /** More messages never reorder the names already listed. */
  lemma {:induction false} DistinctKeepsFirstAppearance(s: seq<string>, t: seq<string>)
    ensures Distinct(s) <= Distinct(s + t)
    decreases |t|
  {
    if |t| > 0 {
      var init := s + t[..|t| - 1];
      DistinctKeepsFirstAppearance(s, t[..|t| - 1]);
      assert (s + t)[..|s + t| - 1] == init;
    } else {
      assert s + t == s;
    }
  }

  /** The header's names: at most three distinct senders, the first ones to
      have written, and three whenever three different people have written. */
  function HeaderNames(msgs: seq<Message>): (r: seq<string>)
    ensures |r| <= 3
    ensures forall i, j :: 0 <= i < j < |r| ==> r[i] != r[j]
    ensures forall x :: x in r ==> exists i :: 0 <= i < |msgs| && msgs[i].userName == x
    ensures r <= Distinct(Senders(msgs))
    ensures |Distinct(Senders(msgs))| >= 3 ==> |r| == 3
  {
    var d := Distinct(Senders(msgs));
    var r := Take(d, 3);
    assert forall x :: x in r ==> x in d;
    r
  }

  /** The names joined with `, `; the first name leads. */
  function JoinNames(names: seq<string>): (r: string)
    ensures |names| == 1 ==> r == names[0]
    ensures names != [] ==> names[0] <= r
  {
    if |names| == 0 then ""
    else if |names| == 1 then names[0]
    else
      var rest := ", " + JoinNames(names[1..]);
      assert (names[0] + rest)[..|names[0]|] == names[0];
      names[0] + rest
  }

  /** Whoever wrote first is the first of the header's names. */
  lemma FirstSenderLeads(msgs: seq<Message>)
    requires msgs != []
    ensures HeaderNames(msgs) != [] && HeaderNames(msgs)[0] == msgs[0].userName
  {
    var s := Senders(msgs);
    assert s == [s[0]] + s[1..];
    assert [s[0]][..0] == [];
    assert Distinct([s[0]]) == [s[0]];
    DistinctKeepsFirstAppearance([s[0]], s[1..]);
  }

  /** The header line under the group name: "Group Chat" for an empty chat;
      otherwise the header's names and "...", led by whoever wrote first. */
  function Header(msgs: seq<Message>): (r: string)
    ensures msgs == [] ==> r == "Group Chat"
    ensures msgs != [] ==> |r| >= 3 && r[|r| - 3..] == "..."
    ensures msgs != [] ==> msgs[0].userName <= r
  {
    if |msgs| > 0 then
      FirstSenderLeads(msgs);
      var names := JoinNames(HeaderNames(msgs));
      assert (names + "...")[..|names|] == names;
      names + "..."
    else "Group Chat"
  }

  /** The five sender colours. */
  const ColourCount: nat := 5

  /** The index of a sender's colour: the length of the sender's id modulo
      five, always a valid index, and the same for ids of equal length. */
  function ColourIndex(userId: Id): (i: nat)
    ensures i < ColourCount
    ensures (|userId| - i) % ColourCount == 0
  {
    |userId| % ColourCount
  }
}

=== FILE: root_db.dfy ===
/** The persistence service of the root variant: a connectivity probe, admin
    seeding, an email lookup that re-creates a missing administrator,
    registration WITHOUT a duplicate-email check, role-free account updates,
    unordered or lightly ordered reads, and a backup whose import MERGES into
    the store by primary key. */
module RootDb {
  import opened Wrappers
  import opened Collections
  import opened Domain
  import opened Tables

  /** What the one-row probe of `checkConnection` can observe. */
  datatype Probe = Answered | ErrorCode(code: string)

  /** The Postgres code for a missing relation. */
  const UndefinedTable := "42P01"

  /** `checkConnection`: only a missing `users` table counts as "not set up";
      any other error (network, permissions) still reads as connected. */
  function CheckConnection(p: Probe): (connected: bool)
    ensures !connected <==> p == ErrorCode(UndefinedTable)
  {
    !(p.ErrorCode? && p.code == UndefinedTable)
  }

  /** `seedAdmin` (run from the service's constructor): inserts the
      administrator, with the database's default id and creation time and no
      suspension flag, when the list query for the reserved email comes back
      empty; a query error and an insert error write nothing. */
  function SeedAdmin(db: Db, queryFails: bool, newId: Id, now: int): (r: Db)
    ensures queryFails || WithEmail(db.users, AdminEmail) != {} || newId in db.users ==> r == db
    ensures !queryFails && WithEmail(db.users, AdminEmail) == {} && newId !in db.users ==>
      r == db.(users := db.users[newId := AdminRow(newId, now, None)])
  {
    if queryFails || WithEmail(db.users, AdminEmail) != {} then db
    else
      match InsertUser(db, AdminRow(newId, now, None))
      case Success(d) => d
      case Failure(_) => db
  }

  /** `maybeSingle()` read with its error ignored: the row when exactly one
      account holds the email, `null` for none and for several. */
  function LookupEmail(users: map<Id, UserRow>, email: string): (r: Option<UserRow>)
    ensures r.Some? <==> |WithEmail(users, email)| == 1
    ensures r.Some? ==> exists k :: WithEmail(users, email) == {k} && users[k] == r.value
  {
    match FindByEmail(users, email)
    case Success(found) => found
    case Failure(_) => None
  }

  /** `getUserByEmail`: a read, except that when the lookup yields nothing
      for the reserved email it inserts a fresh administrator and returns
      that row (or `null` if the insert fails). */
  function GetUserByEmail(db: Db, email: string, newId: Id, now: int): (r: (Db, Option<UserRow>))
    ensures email != AdminEmail ==> r.0 == db && r.1 == LookupEmail(db.users, email)
    ensures |WithEmail(db.users, email)| == 1 ==> r.0 == db && r.1 == LookupEmail(db.users, email)
    ensures email == AdminEmail && |WithEmail(db.users, email)| != 1 && newId !in db.users ==>
      && r.0 == db.(users := db.users[newId := AdminRow(newId, now, None)])
      && r.1 == Some(AdminRow(newId, now, None))
    ensures newId in db.users ==> r.0 == db
  {
    var data := LookupEmail(db.users, email);
    if data.None? && email == AdminEmail then
      match InsertUser(db, AdminRow(newId, now, None))
      case Success(d) => (d, Some(AdminRow(newId, now, None)))
      case Failure(_) => (db, data)
    else (db, data)
  }

  /** The auto-fix cannot tell "missing" from "duplicated": with two or more
      administrator rows the lookup reads as a miss, and every further lookup
      adds one more row under the reserved email. */
  lemma DuplicatedAdminGrows(db: Db, newId: Id, now: int)
    requires |WithEmail(db.users, AdminEmail)| >= 2
    requires newId !in db.users
    ensures var r := GetUserByEmail(db, AdminEmail, newId, now);
      && WithEmail(r.0.users, AdminEmail) == WithEmail(db.users, AdminEmail) + {newId}
      && |WithEmail(r.0.users, AdminEmail)| == |WithEmail(db.users, AdminEmail)| + 1
  {
  }

  /** With unique emails the lookup of an existing account is a pure read
      returning that account. */
  lemma GetExistingUserIsRead(db: Db, k: Id, newId: Id, now: int)
    requires UniqueEmails(db.users)
    requires k in db.users
    ensures GetUserByEmail(db, db.users[k].user.email, newId, now) == (db, Some(db.users[k]))
  {
    FindByEmailUnique(db.users, db.users[k].user.email);
  }

  /** What `createUser` receives: every account field but id and creation
      time, and the credential. */
  datatype NewUser = NewUser(name: string, email: string, role: Role, avatar: Option<string>,
                             chatSuspended: Option<bool>, passwordHash: string)

  /** `createUser`: inserts the row as given, with no look at existing emails,
      and returns it without its credential. */
  function CreateUser(db: Db, nu: NewUser, newId: Id, now: int): (r: Result<(Db, User), Error>)
    ensures r.Failure? <==> newId in db.users
    ensures r.Success? ==>
      && r.value.1 == User(newId, nu.name, nu.email, nu.role, now, nu.avatar, nu.chatSuspended)
      && r.value.0 == db.(users := db.users[newId := UserRow(r.value.1, nu.passwordHash)])
  {
    var u := User(newId, nu.name, nu.email, nu.role, now, nu.avatar, nu.chatSuspended);
    match InsertUser(db, UserRow(u, nu.passwordHash))
    case Success(d) => Success((d, u))
    case Failure(e) => Failure(e)
  }

  /** Nothing stops a second account under an email already in use. */
  lemma CreateUserAllowsDuplicateEmail(db: Db, nu: NewUser, newId: Id, now: int)
    requires WithEmail(db.users, nu.email) != {}
    requires newId !in db.users
    ensures var r := CreateUser(db, nu, newId, now);
      && r.Success?
      && |WithEmail(r.value.0.users, nu.email)| == |WithEmail(db.users, nu.email)| + 1
      && !UniqueEmails(r.value.0.users)
  {
    var r := CreateUser(db, nu, newId, now);
    assert WithEmail(r.value.0.users, nu.email) == WithEmail(db.users, nu.email) + {newId};
    var k :| k in WithEmail(db.users, nu.email);
    assert r.value.0.users[k].user.email == r.value.0.users[newId].user.email;
  }

  /** `updateUser`: rewrites the given name, email and avatar of row `id`; the
      update type has no role, id or creation time, so those stay, and the
      result comes back without its credential. An unknown id, or an update
      with no field defined, returns no row and throws. */
  function UpdateUser(db: Db, id: Id, p: UserPatch): (r: Result<(Db, User), Error>)
    ensures id !in db.users || p == NoChange <==> r == Failure(NoRows)
    ensures r.Failure? ==> r.error == NoRows
    ensures r.Success? ==>
      var was := db.users[id];
      && r.value.1.id == was.user.id && r.value.1.role == was.user.role
      && r.value.1.createdAt == was.user.createdAt
      && r.value.1.name == p.name.GetOr(was.user.name)
      && r.value.1.email == p.email.GetOr(was.user.email)
      && r.value.1.avatar == (if p.avatar.Some? then p.avatar else was.user.avatar)
      && r.value.1.chatSuspended == was.user.chatSuspended
      && r.value.0 == db.(users := db.users[id := UserRow(r.value.1, was.passwordHash)])
  {
    match UpdateUserRow(db, id, p)
    case Failure(e) => Failure(e)
    case Success((d, row)) => Success((d, row.user))
  }

  /** `getUsers`: every account row once, in no promised order. */
  method GetUsers(db: Db) returns (r: seq<UserRow>)
    ensures Lists(r, db.users)
  {
    r := Enumerate(set k | k in db.users :: db.users[k]);
    assert (set k | k in db.users :: db.users[k]) == db.users.Values;
  }

  /** `getMessages`: every message, oldest first, with no cap. */
  method GetMessages(db: Db) returns (r: seq<Message>)
    ensures Lists(r, db.messages)
    ensures forall i, j :: 0 <= i < j < |r| ==> r[i].createdAt <= r[j].createdAt
  {
    r := ListMessages(db, None);
  }

  const BackupVersion := 1

  /** One unordered read of a whole table, with a failed read (`null` data)
      replaced by the empty list. */
  method ReadAll<T(==)>(m: map<Id, T>, fails: bool) returns (r: seq<T>)
    ensures fails ==> r == []
    ensures !fails ==> Lists(r, m)
  {
    if fails {
      r := [];
    } else {
      r := Enumerate(m.Values);
    }
  }

  /** `exportDatabase`: four unordered reads, each failed one replaced by
      `[]`, tagged version 1. */
  method ExportDatabase(db: Db, unreadable: set<Table>, nowIso: string) returns (doc: BackupDocument)
    ensures doc.version == BackupVersion && doc.exportedAt == nowIso
    ensures doc.users.List? && doc.songs.List? && doc.members.List? && doc.messages.List?
    ensures UsersTable in unreadable ==> doc.users.rows == []
    ensures SongsTable in unreadable ==> doc.songs.rows == []
    ensures MembersTable in unreadable ==> doc.members.rows == []
    ensures MessagesTable in unreadable ==> doc.messages.rows == []
    ensures UsersTable !in unreadable ==> Lists(doc.users.rows, db.users)
    ensures SongsTable !in unreadable ==> Lists(doc.songs.rows, db.songs)
    ensures MembersTable !in unreadable ==> Lists(doc.members.rows, db.members)
    ensures MessagesTable !in unreadable ==> Lists(doc.messages.rows, db.messages)
  {
    var users := ReadAll(db.users, UsersTable in unreadable);
    var songs := ReadAll(db.songs, SongsTable in unreadable);
    var members := ReadAll(db.members, MembersTable in unreadable);
    var messages := ReadAll(db.messages, MessagesTable in unreadable);
    doc := BackupDocument(List(users), List(songs), List(members), List(messages), BackupVersion, nowIso);
  }

  /** One table after `upsert(rows)`: when the field is a non-empty list the
      document's rows overwrite or add by key and every other row stays; a
      batch naming one key twice is refused whole, and unnoticed. */
  function Upserted<T>(m: map<Id, T>, f: Field<T>, key: T -> Id): (r: map<Id, T>)
    ensures !(f.List? && DistinctKeys(f.rows, key)) ==> r == m
    ensures f.List? && DistinctKeys(f.rows, key) ==>
      && r.Keys == m.Keys + Keyed(f.rows, key).Keys
      && (forall k :: k in Keyed(f.rows, key) ==> r[k] == Keyed(f.rows, key)[k])
      && (forall k :: k in m && k !in Keyed(f.rows, key) ==> r[k] == m[k])
  {
    if f.List? && |f.rows| > 0 && DistinctKeys(f.rows, key) then m + Keyed(f.rows, key) else m
  }

  /** `importDatabase`: an unparseable document fails with 'Invalid backup
      file or database error'; otherwise each table is upserted on its own
      and the import reports success whatever the upserts did. */
  function ImportDatabase(db: Db, parsed: Option<BackupDocument>): (r: Result<Db, Error>)
    ensures r.Failure? <==> parsed.None?
    ensures r.Failure? ==> r.error == InvalidBackup
    ensures r.Success? ==>
      var doc := parsed.value;
      && r.value.users == Upserted(db.users, doc.users, UserKey)
      && r.value.songs == Upserted(db.songs, doc.songs, SongKey)
      && r.value.members == Upserted(db.members, doc.members, MemberKey)
      && r.value.messages == Upserted(db.messages, doc.messages, MessageKey)
  {
    match parsed
    case None => Failure(InvalidBackup)
    case Some(doc) =>
      Success(Db(Upserted(db.users, doc.users, UserKey), Upserted(db.songs, doc.songs, SongKey),
                 Upserted(db.members, doc.members, MemberKey),
                 Upserted(db.messages, doc.messages, MessageKey)))
  }

  /** Merge semantics: a row the document does not name keeps its value. */
  lemma ImportKeepsUnnamedRows(db: Db, doc: BackupDocument, k: Id)
    requires k in db.songs
    requires !(doc.songs.List? && k in Keyed(doc.songs.rows, SongKey))
    ensures var r := ImportDatabase(db, Some(doc));
      r.Success? && k in r.value.songs && r.value.songs[k] == db.songs[k]
  {
  }

  lemma UpsertTwice<T>(m: map<Id, T>, f: Field<T>, key: T -> Id)
    ensures Upserted(Upserted(m, f, key), f, key) == Upserted(m, f, key)
  {
  }

  /** Importing the same document twice is the same as importing it once. */
  lemma ImportIdempotent(db: Db, doc: BackupDocument)
    ensures var once := ImportDatabase(db, Some(doc)).value;
      ImportDatabase(once, Some(doc)) == Success(once)
  {
    UpsertTwice(db.users, doc.users, UserKey);
    UpsertTwice(db.songs, doc.songs, SongKey);
    UpsertTwice(db.members, doc.members, MemberKey);
    UpsertTwice(db.messages, doc.messages, MessageKey);
  }

  lemma UpsertListing<T>(m: map<Id, T>, target: map<Id, T>, f: Field<T>, key: T -> Id)
    requires WellKeyed(m, key)
    requires f.List? && Lists(f.rows, m)
    ensures var r := Upserted(target, f, key);
      && r.Keys == target.Keys + m.Keys
      && (forall k :: k in m ==> r[k] == m[k])
      && (forall k :: k in target && k !in m ==> r[k] == target[k])
  {
    KeyedListing(m, f.rows, key);
  }

  /** The document lists every row of every table. */
  predicate Snapshot(db: Db, doc: BackupDocument) {
    && doc.users.List? && Lists(doc.users.rows, db.users)
    && doc.songs.List? && Lists(doc.songs.rows, db.songs)
    && doc.members.List? && Lists(doc.members.rows, db.members)
    && doc.messages.List? && Lists(doc.messages.rows, db.messages)
  }

  /** Merging a complete snapshot into any store brings every snapshot row
      back under its key and leaves the target's other rows as they were;
      merged into the store it came from, it changes nothing. */
  lemma SnapshotMerges(db: Db, doc: BackupDocument, target: Db)
    requires db.Valid() && Snapshot(db, doc)
    ensures var r := ImportDatabase(target, Some(doc)).value;
      && r.songs.Keys == target.songs.Keys + db.songs.Keys
      && (forall k :: k in db.songs ==> r.songs[k] == db.songs[k])
      && (forall k :: k in target.songs && k !in db.songs ==> r.songs[k] == target.songs[k])
      && r.users.Keys == target.users.Keys + db.users.Keys
      && (forall k :: k in db.users ==> r.users[k] == db.users[k])
      && (forall k :: k in target.users && k !in db.users ==> r.users[k] == target.users[k])
  {
    UpsertListing(db.users, target.users, doc.users, UserKey);
    UpsertListing(db.songs, target.songs, doc.songs, SongKey);
  }

  lemma SnapshotMergesIntoItself(db: Db, doc: BackupDocument)
    requires db.Valid() && Snapshot(db, doc)
    ensures ImportDatabase(db, Some(doc)) == Success(db)
  {
    UpsertOwnListing(db.users, doc.users, UserKey);
    UpsertOwnListing(db.songs, doc.songs, SongKey);
    UpsertOwnListing(db.members, doc.members, MemberKey);
    UpsertOwnListing(db.messages, doc.messages, MessageKey);
  }

  lemma UpsertOwnListing<T>(m: map<Id, T>, f: Field<T>, key: T -> Id)
    requires WellKeyed(m, key)
    requires f.List? && Lists(f.rows, m)
    ensures Upserted(m, f, key) == m
  {
    UpsertListing(m, m, f, key);
  }

  /** A backup taken with every read succeeding is a complete snapshot. */
  method FullBackup(db: Db, nowIso: string) returns (doc: BackupDocument)
    ensures Snapshot(db, doc) && doc.version == BackupVersion
  {
    doc := ExportDatabase(db, {}, nowIso);
  }
}

=== FILE: root_layout.dfy ===
/** The sidebar of the root variant: which links each role sees, which one
    is highlighted, and the logout button. */
module RootLayout {
  import opened Wrappers
  import opened Domain
  import opened Routes
  import RootApp

  /** The pages the sidebar links to for the signed-in account's role
      (`user?.role`): the menu for everyone, the management links for ADMIN
      and EDITOR, the administration links for ADMIN. The profile link of
      the footer is always there and is not part of this list. */
  function NavPages(role: Option<Role>): (pages: seq<Page>)
    ensures forall i :: 0 <= i < |pages| ==> Linkable(pages[i])
    ensures forall a, b :: 0 <= a < b < |pages| ==> pages[a] != pages[b]
  {
    [DashboardPage, SongList, ChatRoom]
    + (if role == Some(ADMIN) || role == Some(EDITOR) then [SongNew, MemberList] else [])
    + (if role == Some(ADMIN) then [UserAdmin, SettingsPage] else [])
  }

  /** The visibility table. */
  lemma Visibility(role: Option<Role>)
    ensures var ps := NavPages(role);
      && DashboardPage in ps && SongList in ps && ChatRoom in ps
      && (SongNew in ps <==> role == Some(ADMIN) || role == Some(EDITOR))
      && (MemberList in ps <==> role == Some(ADMIN) || role == Some(EDITOR))
      && (UserAdmin in ps <==> role == Some(ADMIN))
      && (SettingsPage in ps <==> role == Some(ADMIN))
      && ProfilePage !in ps
  {
    var ps := NavPages(role);
    if role == Some(ADMIN) {
      assert ps == [DashboardPage, SongList, ChatRoom, SongNew, MemberList, UserAdmin, SettingsPage];
    } else if role == Some(EDITOR) {
      assert ps == [DashboardPage, SongList, ChatRoom, SongNew, MemberList];
    } else {
      assert ps == [DashboardPage, SongList, ChatRoom];
    }
  }

  /** The sidebar and the guard agree: a role sees a link exactly when the
      guard would let it through. */
  lemma SidebarMatchesGuard(r: Role, p: Page)
    requires p in {DashboardPage, SongList, ChatRoom, SongNew, MemberList, UserAdmin, SettingsPage}
    ensures p in NavPages(Some(r)) <==> RootApp.Permits(r, p)
  {
    Visibility(Some(r));
  }

  /** `handleLogout`: logs out, then navigates to the login page, which
      renders for the signed-out client. */
  function HandleLogout(c: Client): (r: (Client, Path))
    ensures r.0 == Logout(c)
    ensures RootApp.Resolve(r.0.state, r.1) == RootApp.Render(LoginPage)
  {
    assert Href(LoginPage) == LoginPath;
    HrefShows(LoginPage);
    (Logout(c), LoginPath)
  }
}

=== FILE: root_profile.dfy ===
/** The profile page of the root variant (`pages/Profile.tsx`): the
    password confirmation, the update payload, and what a submit leaves in
    the form. */
module RootProfile {
  import opened Wrappers
  import opened Domain
  import opened Tables
  import opened RootAuth

  /** The form fields; the avatar preview is held beside them. */
  datatype ProfileForm = ProfileForm(name: string, email: string, password: string, confirmPassword: string)

  datatype SubmitOutcome =
    | NoUser               // nobody signed in: the submit returns at once
    | Mismatch             // alerted "Passwords do not match"
    | Saved                // alerted "Profile updated successfully"
    | SaveFailed(e: Error) // alerted "Failed to update profile"

  /** Everything a submit decides: the store and client afterwards, the form,
      the outcome, and the successive values written to `isSaving`. */
  datatype Submitted = Submitted(t: Transition, form: ProfileForm, outcome: SubmitOutcome, saving: seq<bool>)

  /** The payload: `name` and `email` keys are always there but defined only
      for an administrator, `avatar` is the preview (possibly undefined), and
      the password goes along only when typed. */
  function Payload(u: User, f: ProfileForm, avatarPreview: Option<string>): (d: ProfileData)
    ensures HasKey(d.name) && HasKey(d.email) && HasKey(d.avatar)
    ensures Defined(d.name) == (if u.role == ADMIN then Some(f.name) else None)
    ensures Defined(d.email) == (if u.role == ADMIN then Some(f.email) else None)
    ensures Defined(d.avatar) == avatarPreview
    ensures Truthy(d.password) <==> f.password != ""
    ensures Truthy(d.password) ==> d.password.value == f.password
  {
    ProfileData(
      if u.role == ADMIN then Given(f.name) else Undefined,
      if u.role == ADMIN then Given(f.email) else Undefined,
      match avatarPreview { case Some(a) => Given(a) case None => Undefined },
      if f.password != "" then Some(f.password) else None)
  }

  /** A typed password that the confirmation does not repeat. */
  predicate Mismatched(f: ProfileForm) {
    f.password != "" && f.password != f.confirmPassword
  }

  /** The payload defines some account field: the user is an administrator
      or there is an avatar preview. Otherwise the update body is empty. */
  predicate SendsFields(u: User, avatarPreview: Option<string>) {
    u.role == ADMIN || avatarPreview.Some?
  }

  /** `handleSubmit`. Without a user, or with a mismatched confirmation,
      nothing is sent. Otherwise the payload goes to `updateProfile` with
      `isSaving` raised and then lowered: the typed password is stored,
      an administrator's name and email are rewritten, every other role's
      are kept, and the avatar becomes the preview when there is one. On
      success only the two password fields are emptied. When the payload
      defines no field the update returns no row, so the submit fails after
      the password was stored, and the session stays as it was. */
  function HandleSubmit(db: Db, c: Client, f: ProfileForm, avatarPreview: Option<string>): (r: Submitted)
    ensures c.state.user.None? ==> r == Submitted(Transition(db, c, None), f, NoUser, [])
    ensures c.state.user.Some? && Mismatched(f) ==> r == Submitted(Transition(db, c, None), f, Mismatch, [])
    ensures r.outcome.Saved? || r.outcome.SaveFailed? ==>
      c.state.user.Some? && !Mismatched(f) && r.saving == [true, false]
    ensures r.outcome.Saved? ==> r.form == f.(password := "", confirmPassword := "")
    ensures !r.outcome.Saved? ==> r.form == f
    ensures c.state.user.Some? && !Mismatched(f) ==>
      var u := c.state.user.value;
      && (u.id !in db.users ==> r.outcome == SaveFailed(NoRows))
      && (u.id in db.users ==>
            && r.t.db.users.Keys == db.users.Keys
            && (forall k :: k in db.users && k != u.id ==> r.t.db.users[k] == db.users[k])
            && var was := db.users[u.id];
            var now := r.t.db.users[u.id];
            && now.passwordHash == (if f.password != "" then f.password else was.passwordHash)
            && (!SendsFields(u, avatarPreview) ==>
                  && r.outcome == SaveFailed(NoRows)
                  && now.user == was.user
                  && r.t.client == c)
            && (SendsFields(u, avatarPreview) ==>
                  && r.outcome == Saved
                  && now.user.name == (if u.role == ADMIN then f.name else was.user.name)
                  && now.user.email == (if u.role == ADMIN then f.email else was.user.email)
                  && now.user.avatar == (if avatarPreview.Some? then avatarPreview else was.user.avatar)
                  && now.user.role == was.user.role
                  && r.t.client.session == Some(now.user)))
  {
    match c.state.user
    case None => Submitted(Transition(db, c, None), f, NoUser, [])
    case Some(u) =>
      if Mismatched(f) then Submitted(Transition(db, c, None), f, Mismatch, [])
      else
        var t := RootAuth.UpdateProfile(db, c, u.id, Payload(u, f, avatarPreview));
        match t.failure
        case None => Submitted(t, f.(password := "", confirmPassword := ""), Saved, [true, false])
        case Some(e) => Submitted(t, f, SaveFailed(e), [true, false])
  }

  /** Because the `name` and `email` keys are always present, a submit
      always reaches `updateUser`, even when only the password was typed.
      For a member without a new avatar every key is `undefined`: the
      password is stored, then the empty update fails, the failure is
      alerted, and the form and the session are left as they were. */
  lemma PasswordOnlySubmitFailsAfterReset(db: Db, c: Client, u: User, f: ProfileForm)
    requires c.state.user == Some(u) && u.id in db.users && !Mismatched(f)
    requires u.role != ADMIN && f.password != ""
    ensures var r := HandleSubmit(db, c, f, None);
      && r.outcome == SaveFailed(NoRows)
      && r.form == f
      && r.t.db.users[u.id].passwordHash == f.password
      && r.t.db.users[u.id].user == db.users[u.id].user
      && r.t.client == c
  {
  }
}

=== FILE: root_settings.dfy ===
/** The backup page of the root variant (`pages/Settings.tsx`): the
    administrator gate, the download with its dated file name, and the
    confirmed restore. */
module RootSettings {
  import opened Wrappers
  import opened Collections
  import opened Domain
  import opened Text
  import opened Routes
  import RootApp
  import RootDb

  /** The page body: the refusal, or the backup panel. */
  datatype SettingsView = PermissionDenied | Panel

  /** The page renders for administrators only. */
  function View(u: Option<User>): (v: SettingsView)
    ensures v == Panel <==> u.Some? && u.value.role == ADMIN
  {
    if RoleOf(u) != Some(ADMIN) then PermissionDenied else Panel
  }

  /** The page's own gate admits exactly the accounts the router admits. */
  lemma GateMatchesGuard(u: User)
    ensures View(Some(u)) == Panel <==> RootApp.Permits(u.role, SettingsPage)
  {
  }

  // ------------------------------------------------------------ file name

  const FilePrefix: string := "choir_ruvumera_backup_"
  const FileSuffix: string := ".json"

  /** The download's name: the prefix, the first ten characters of the ISO
      8601 timestamp, and `.json`. */
  function BackupFileName(iso: string): (name: string)
    ensures StartsWith(name, FilePrefix)
    ensures |name| == |FilePrefix| + |Take(iso, 10)| + |FileSuffix|
    ensures name[|FilePrefix|..|FilePrefix| + |Take(iso, 10)|] == Take(iso, 10)
  {
    FilePrefix + Take(iso, 10) + FileSuffix
  }

  function Pow10(n: nat): (p: nat)
    ensures p >= 1
  {
    if n == 0 then 1 else 10 * Pow10(n - 1)
  }

  /** `n` written in decimal with exactly `width` digits, zero-padded. */
  function Digits(n: nat, width: nat): (s: string)
    requires n < Pow10(width)
    ensures |s| == width
    ensures forall i :: 0 <= i < |s| ==> '0' <= s[i] <= '9'
  {
    if width == 0 then ""
    else Digits(n / 10, width - 1) + [(('0' as int) + n % 10) as char]
  }

  /** The number a string of decimal digits denotes. */
  function ReadDigits(s: string): nat {
    if |s| == 0 then 0
    else
      var d := s[|s| - 1] as int - '0' as int;
      ReadDigits(s[..|s| - 1]) * 10 + (if 0 <= d then d else 0)
  }

  /** Reading back what `Digits` wrote gives the number. */
  lemma {:induction false} DigitsRoundTrip(n: nat, width: nat)
    requires n < Pow10(width)
    ensures ReadDigits(Digits(n, width)) == n
  {
    if width > 0 {
      var s := Digits(n, width);
      DigitsRoundTrip(n / 10, width - 1);
      assert s[..|s| - 1] == Digits(n / 10, width - 1);
    }
  }

  /** A point in time in UTC, in the range whose ISO form has a four-digit
      year. */
  datatype Instant = Instant(year: nat, month: nat, day: nat, hour: nat, minute: nat, second: nat, millis: nat)
  {
    predicate Valid() {
      year < 10000 && 1 <= month <= 12 && 1 <= day <= 31
      && hour < 24 && minute < 60 && second < 60 && millis < 1000
    }
  }

  /** `toISOString()`: `YYYY-MM-DDTHH:mm:ss.sssZ`. */
  function IsoString(t: Instant): (s: string)
    requires t.Valid()
    ensures |s| == 24
  {
    Digits(t.year, 4) + "-" + Digits(t.month, 2) + "-" + Digits(t.day, 2) + "T"
    + Digits(t.hour, 2) + ":" + Digits(t.minute, 2) + ":" + Digits(t.second, 2) + "."
    + Digits(t.millis, 3) + "Z"
  }

  /** The calendar date a backup file name carries, when it has the shape
      the page gives it. */
  function DateOf(name: string): Option<(nat, nat, nat)> {
    var p := |FilePrefix|;
    if |name| == p + 10 + |FileSuffix| && StartsWith(name, FilePrefix) then
      Some((ReadDigits(name[p..p + 4]), ReadDigits(name[p + 5..p + 7]), ReadDigits(name[p + 8..p + 10])))
    else None
  }

  /** The file name keeps exactly the calendar date of the moment of the
      download: it can be read back from the name. */
  lemma FileNameCarriesDate(t: Instant)
    requires t.Valid()
    ensures DateOf(BackupFileName(IsoString(t))) == Some((t.year, t.month, t.day))
  {
    var iso := IsoString(t);
    var name := BackupFileName(iso);
    var p := |FilePrefix|;
    assert Take(iso, 10) == iso[..10];
    assert iso[..4] == Digits(t.year, 4);
    assert iso[5..7] == Digits(t.month, 2);
    assert iso[8..10] == Digits(t.day, 2);
    assert name[p..p + 4] == iso[..4];
    assert name[p + 5..p + 7] == iso[5..7];
    assert name[p + 8..p + 10] == iso[8..10];
    DigitsRoundTrip(t.year, 4);
    DigitsRoundTrip(t.month, 2);
    DigitsRoundTrip(t.day, 2);
  }

  // ------------------------------------------------------------- download

  /** What a download produced: the document and its file name, or nothing
      after the alert "Export failed"; and the successive values written to
      `downloading`. */
  datatype Download = Download(file: Option<(BackupDocument, string)>, downloading: seq<bool>)

  /** `handleDownload`: exports the store and names the file after the
      current date; `exportThrows` is a thrown export. Either way
      `downloading` is raised and then lowered. */
  method HandleDownload(db: Db, unreadable: set<Table>, now: Instant, exportThrows: bool)
    returns (r: Download)
    requires now.Valid()
    ensures r.downloading == [true, false]
    ensures exportThrows <==> r.file.None?
    ensures r.file.Some? ==>
      && DateOf(r.file.value.1) == Some((now.year, now.month, now.day))
      && r.file.value.0.version == RootDb.BackupVersion
      && r.file.value.0.exportedAt == IsoString(now)
      && var doc := r.file.value.0;
      && doc.users.List? && doc.songs.List? && doc.members.List? && doc.messages.List?
      && (UsersTable !in unreadable ==> Lists(doc.users.rows, db.users))
      && (SongsTable !in unreadable ==> Lists(doc.songs.rows, db.songs))
      && (MembersTable !in unreadable ==> Lists(doc.members.rows, db.members))
      && (MessagesTable !in unreadable ==> Lists(doc.messages.rows, db.messages))
  {
    if exportThrows {
      return Download(None, [true, false]);
    }
    var doc := RootDb.ExportDatabase(db, unreadable, IsoString(now));
    FileNameCarriesDate(now);
    r := Download(Some((doc, BackupFileName(IsoString(now)))), [true, false]);
  }

  // -------------------------------------------------------------- restore

  datatype UploadOutcome =
    | NoFile
    | Declined      // the overwrite warning was not confirmed
    | Restored      // alerted success; the page reloads
    | ImportFailed  // alerted "Failed to import database. Please ensure the file is valid."

  /** Whether the page reloads after the upload. */
  predicate Reloads(o: UploadOutcome) {
    o == Restored
  }

  /** `handleUpload`, with the file's text already parsed (`None` when it is
      not a backup document): only after the overwrite warning is confirmed
      does the import run; declining writes nothing, and a failed import
      alerts without reloading. */
  function HandleUpload(db: Db, file: bool, parsed: Option<BackupDocument>, confirmed: bool): (r: (Db, UploadOutcome))
    ensures !file ==> r == (db, NoFile)
    ensures file && !confirmed ==> r == (db, Declined)
    ensures Reloads(r.1) <==> file && confirmed && parsed.Some?
    ensures r.1 == ImportFailed <==> file && confirmed && parsed.None?
    ensures r.1 == ImportFailed ==> r.0 == db
    ensures Reloads(r.1) ==> RootDb.ImportDatabase(db, parsed) == Success(r.0)
  {
    if !file then (db, NoFile)
    else if !confirmed then (db, Declined)
    else match RootDb.ImportDatabase(db, parsed)
      case Success(d) => (d, Restored)
      case Failure(_) => (db, ImportFailed)
  }
}

=== FILE: root_songs.dfy ===
/** The song library page of the root variant (`pages/Songs.tsx`): the
    search, category filter and sort over the fetched songs, the edit
    controls, and deletion. */
module RootSongs {
  import opened Wrappers
  import opened Collections
  import opened Domain
  import opened Text
  import opened Tables
  import opened Routes
  import RootApp

  datatype SortBy = ByDate | ByTitle | ByCategory

  /** The category selection that admits every song. */
  const AnyCategory: string := "All"

  /** The lower-cased search term occurs in the lower-cased title or lyrics. */
  predicate MatchesSearch(s: Song, term: string) {
    Contains(Lower(s.title), Lower(term)) || Contains(Lower(s.lyrics), Lower(term))
  }

  predicate MatchesCategory(s: Song, category: string) {
    category == AnyCategory || s.category == category
  }

  predicate Shown(s: Song, term: string, category: string) {
    MatchesSearch(s, term) && MatchesCategory(s, category)
  }

  /** The comparator of each sort choice: title and category under the
      collation `textLe`, the date newest first. */
  function Order(sortBy: SortBy, textLe: (string, string) -> bool): (Song, Song) -> bool {
    match sortBy
    case ByTitle => By((s: Song) => s.title, textLe)
    case ByCategory => By((s: Song) => s.category, textLe)
    case ByDate => NewerFirst
  }

  lemma OrderIsPreorder(sortBy: SortBy, textLe: (string, string) -> bool)
    requires TotalPreorder(textLe)
    ensures TotalPreorder(Order(sortBy, textLe))
  {
    match sortBy
    case ByTitle => ByPreorder((s: Song) => s.title, textLe);
    case ByCategory => ByPreorder((s: Song) => s.category, textLe);
    case ByDate => OrdersArePreorders();
  }

  /** `filteredSongs`: exactly the shown songs, each as often as it was
      fetched, in the order the sort choice asks for. */
  function FilteredSongs(songs: seq<Song>, term: string, category: string, sortBy: SortBy,
                         textLe: (string, string) -> bool): (r: seq<Song>)
    requires TotalPreorder(textLe)
    ensures forall x :: x in r ==> Shown(x, term, category)
    ensures forall x :: Shown(x, term, category) ==> multiset(r)[x] == multiset(songs)[x]
    ensures multiset(r) <= multiset(songs)
    ensures SortedBy(r, Order(sortBy, textLe))
  {
    OrderIsPreorder(sortBy, textLe);
    var kept := Filter(songs, (s: Song) => Shown(s, term, category));
    FilterCounts(songs, (s: Song) => Shown(s, term, category));
    var r := Sort(kept, Order(sortBy, textLe));
    assert forall x :: x in r ==> x in multiset(kept);
    r
  }

  /** What each sort choice means for the listed songs: ascending title,
      ascending category, or newest first. */
  lemma FilteredSongsOrder(songs: seq<Song>, term: string, category: string, sortBy: SortBy,
                           textLe: (string, string) -> bool)
    requires TotalPreorder(textLe)
    ensures var r := FilteredSongs(songs, term, category, sortBy, textLe);
      && (sortBy == ByTitle ==> forall i, j :: 0 <= i < j < |r| ==> textLe(r[i].title, r[j].title))
      && (sortBy == ByCategory ==> forall i, j :: 0 <= i < j < |r| ==> textLe(r[i].category, r[j].category))
      && (sortBy == ByDate ==> forall i, j :: 0 <= i < j < |r| ==> r[i].createdAt >= r[j].createdAt)
  {
    var r := FilteredSongs(songs, term, category, sortBy, textLe);
    forall i, j | 0 <= i < j < |r|
      ensures Order(sortBy, textLe)(r[i], r[j])
    {
    }
  }

  /** A song is found by the search exactly when the lower-cased term occurs
      at some position of its lower-cased title or lyrics. */
  lemma SearchFindsOccurrences(s: Song, term: string)
    ensures MatchesSearch(s, term) <==>
      (exists i :: OccursAt(Lower(s.title), Lower(term), i))
      || (exists i :: OccursAt(Lower(s.lyrics), Lower(term), i))
  {
    ContainsMeansOccurs(Lower(s.title), Lower(term));
    ContainsMeansOccurs(Lower(s.lyrics), Lower(term));
  }

  /** The search ignores the case of the term. */
  lemma SearchIgnoresCase(s: Song, term: string)
    ensures MatchesSearch(s, term) <==> MatchesSearch(s, Lower(term))
  {
    LowerIdempotent(term);
  }

  /** With an empty search and every category, the page lists every fetched
      song. */
  lemma UnfilteredShowsAll(songs: seq<Song>, sortBy: SortBy, textLe: (string, string) -> bool)
    requires TotalPreorder(textLe)
    ensures multiset(FilteredSongs(songs, "", AnyCategory, sortBy, textLe)) == multiset(songs)
  {
    var r := FilteredSongs(songs, "", AnyCategory, sortBy, textLe);
    forall x
      ensures multiset(r)[x] == multiset(songs)[x]
    {
      assert Lower("") == "";
      assert Shown(x, "", AnyCategory);
    }
  }

  /** `canEdit` offers the add and edit controls to exactly the roles the
      router lets through to the song editor. */
  lemma EditControlsMatchGuard(u: Option<User>, id: Id)
    ensures CanEditSongs(RoleOf(u)) <==> u.Some? && RootApp.Permits(u.value.role, SongNew)
    ensures CanEditSongs(RoleOf(u)) <==> u.Some? && RootApp.Permits(u.value.role, SongEdit(id))
  {
  }

  /** `handleDelete`: only after confirmation, the song is deleted and the
      list fetched again, which then no longer holds it; declining changes
      nothing and fetches nothing. */
  method HandleDelete(db: Db, id: Id, confirmed: bool) returns (db': Db, refetched: Option<seq<Song>>)
    ensures !confirmed ==> db' == db && refetched == None
    ensures confirmed ==> db' == DeleteSong(db, id) && refetched.Some?
    ensures refetched.Some? ==> Lists(refetched.value, db'.songs)
    ensures refetched.Some? && db.Valid() ==> forall s :: s in refetched.value ==> s.id != id
  {
    if !confirmed {
      return db, None;
    }
    db' := DeleteSong(db, id);
    var songs := ListSongs(db');
    forall s | s in songs
      ensures db.Valid() ==> s.id != id
    {
      assert s in multiset(db'.songs.Values);
      var k :| k in db'.songs && db'.songs[k] == s;
    }
    refetched := Some(songs);
  }
}

=== FILE: root_users.dfy ===
/** The user-management page of the root variant (`pages/Users.tsx`):
    account creation without an email check, and the edit modal that
    rewrites an account's name and email. */
module RootUsers {
  import opened Wrappers
  import opened Domain
  import opened Tables
  import opened UserAdmin
  import RootDb

  datatype CreateOutcome = Created(u: User) | CreateFailed(e: Error) // alerted with the error's message

  /** `handleCreate`: registers the form's account with no look at existing
      emails. On success the modal closes and the form is reset to empty
      fields and the USER role; on failure both stay as they were. */
  function HandleCreate(db: Db, m: CreateModal, newId: Id, now: int): (r: (Db, CreateModal, CreateOutcome))
    ensures r.2.Created? <==> newId !in db.users
    ensures r.2.Created? ==>
      && r.2.u == User(newId, m.form.name, m.form.email, m.form.role, now, None, None)
      && r.0.users == db.users[newId := UserRow(r.2.u, m.form.password)]
      && r.1 == CreateModal(false, BlankForm)
    ensures r.2.CreateFailed? ==> r.0 == db && r.1 == m
  {
    var nu := RootDb.NewUser(m.form.name, m.form.email, m.form.role, None, None, m.form.password);
    match RootDb.CreateUser(db, nu, newId, now)
    case Success((d, u)) => (d, CreateModal(false, BlankForm), Created(u))
    case Failure(e) => (db, m, CreateFailed(e))
  }

  /** The edit modal: the account being edited, and the name and email
      typed. */
  datatype EditModal = EditModal(editing: Option<User>, name: string, email: string)

  /** `openEditModal`: the modal opens on the account, prefilled with
      exactly its name and email. */
  function OpenEditModal(u: User): (r: EditModal)
    ensures r.editing == Some(u) && r.name == u.name && r.email == u.email
  {
    EditModal(Some(u), u.name, u.email)
  }

  datatype UpdateOutcome =
    | NotEditing
    | Updated(u: User)
    | UpdateFailed(e: Error) // alerted "Failed to update user: " and the message

  /** `handleUpdateUser`: with no account in the modal nothing happens;
      otherwise the typed name and email, and nothing else, are written to
      the account, with no check that another account holds the email. The
      modal closes on success and stays open on failure. */
  function HandleUpdateUser(db: Db, m: EditModal): (r: (Db, EditModal, UpdateOutcome))
    ensures m.editing.None? ==> r == (db, m, NotEditing)
    ensures m.editing.Some? ==>
      var id := m.editing.value.id;
      && (r.2.Updated? <==> id in db.users)
      && (r.2.Updated? ==>
            && r.0.users.Keys == db.users.Keys
            && (forall k :: k in db.users && k != id ==> r.0.users[k] == db.users[k])
            && r.0.users[id].user == db.users[id].user.(name := m.name, email := m.email)
            && r.0.users[id].passwordHash == db.users[id].passwordHash
            && r.1.editing.None?)
      && (!r.2.Updated? ==> r.0 == db && r.1 == m)
  {
    match m.editing
    case None => (db, m, NotEditing)
    case Some(u) =>
      match RootDb.UpdateUser(db, u.id, UserPatch(Some(m.name), Some(m.email), None))
      case Success((d, updated)) => (d, m.(editing := None), Updated(updated))
      case Failure(e) => (db, m, UpdateFailed(e))
  }

  /** Editing one account to another account's email succeeds: afterwards
      two accounts share it. */
  lemma EditAllowsTakenEmail(db: Db, u: User, other: Id)
    requires db.Valid()
    requires u.id in db.users && other in db.users && other != u.id
    ensures var r := HandleUpdateUser(db, EditModal(Some(u), u.name, db.users[other].user.email));
      && r.2.Updated?
      && r.0.users[u.id].user.email == r.0.users[other].user.email
      && !UniqueEmails(r.0.users)
  {
  }
}

=== FILE: routes.dfy ===
/** The URL surface shared by both variants: splitting a pathname into
    segments, the route table of pages, and the links that lead to them. A
    static segment outranks a dynamic one, so `/songs/new` is the editor and
    not the song whose id is "new". No route asks for case-sensitive
    matching, so static segments match whatever their case, while a `:id`
    segment is passed on as typed. Trailing slashes are ignored; a repeated
    slash anywhere else leaves the pathname to the catch-all. */
module Routes {
  import opened Text

  type Path = string

  /** The pieces of `s` between slashes, empty pieces included. */
  function Split(s: string): (r: seq<string>)
    ensures |r| >= 1
    ensures forall i :: 0 <= i < |r| ==> '/' !in r[i]
  {
    if |s| == 0 then [""]
    else
      var rest := Split(s[1..]);
      if s[0] == '/' then [""] + rest
      else [[s[0]] + rest[0]] + rest[1..]
  }

  /** `s` without its trailing empty pieces. */
  function DropTrailing(s: seq<string>): (r: seq<string>)
    ensures |r| <= |s| && r == s[..|r|]
    ensures r == [] || r[|r| - 1] != ""
    ensures forall i :: |r| <= i < |s| ==> s[i] == ""
  {
    if |s| > 0 && s[|s| - 1] == "" then DropTrailing(s[..|s| - 1]) else s
  }

  /** The segments of a pathname: the pieces after its leading slash, with
      trailing slashes dropped. A repeated slash leaves an empty segment. */
  function Segments(path: Path): (segs: seq<string>)
    ensures forall i :: 0 <= i < |segs| ==> '/' !in segs[i]
    ensures segs == [] || segs[|segs| - 1] != ""
  {
    var pieces := Split(path)[1..];
    var segs := DropTrailing(pieces);
    assert forall i :: 0 <= i < |segs| ==> segs[i] == pieces[i];
    segs
  }

  /** Segments a link can be built from. */
  predicate Plain(segs: seq<string>) {
    forall i :: 0 <= i < |segs| ==> segs[i] != "" && '/' !in segs[i]
  }

  /** The pathname `/s1/s2/…` of a list of segments. */
  function Join(segs: seq<string>): (p: Path)
    ensures segs == [] <==> p == ""
    ensures segs != [] ==> p[0] == '/'
  {
    if segs == [] then "" else "/" + segs[0] + Join(segs[1..])
  }

  lemma {:induction false} SplitPlain(a: string)
    requires '/' !in a
    ensures Split(a) == [a]
  {
    if |a| > 0 {
      SplitPlain(a[1..]);
      assert [a[0]] + a[1..] == a;
    }
  }

  lemma {:induction false} SplitAtSlash(a: string, t: string)
    requires '/' !in a
    ensures Split(a + "/" + t) == [a] + Split(t)
  {
    if |a| == 0 {
      assert a + "/" + t == "/" + t;
      assert ("/" + t)[1..] == t;
    } else {
      assert (a + "/" + t)[1..] == a[1..] + "/" + t;
      SplitAtSlash(a[1..], t);
      assert [a[0]] + a[1..] == a;
    }
  }

  lemma {:induction false} SplitJoin(segs: seq<string>)
    requires segs != [] && Plain(segs)
    ensures Split(Join(segs)) == [""] + segs
  {
    var rest := segs[1..];
    assert Join(segs) == "/" + (segs[0] + Join(rest));
    assert ("/" + (segs[0] + Join(rest)))[1..] == segs[0] + Join(rest);
    if rest == [] {
      assert segs[0] + Join(rest) == segs[0];
      SplitPlain(segs[0]);
      assert Split(Join(segs)) == [""] + Split(segs[0]);
      assert segs == [segs[0]];
    } else {
      SplitJoin(rest);
      var y := Join(rest)[1..];
      assert Join(rest) == "/" + y;
      assert ("/" + y)[1..] == y;
      assert Split("/" + y) == [""] + Split(y);
      assert ([""] + Split(y))[1..] == Split(y);
      assert ([""] + rest)[1..] == rest;
      assert segs[0] + Join(rest) == segs[0] + "/" + y;
      SplitAtSlash(segs[0], y);
      assert Split(Join(segs)) == [""] + Split(segs[0] + Join(rest));
      assert segs == [segs[0]] + rest;
    }
  }

  lemma SplitSlash(w: string)
    ensures Split("/" + w) == [""] + Split(w)
  {
    assert ("/" + w)[1..] == w;
  }

  /** One segment before a slash: `/x/u` splits into "", x and the pieces
      of u. */
  lemma SplitSegmentThen(x: string, u: string)
    requires '/' !in x
    ensures Split("/" + x + "/" + u) == [""] + [x] + Split(u)
  {
    assert "/" + x + "/" + u == "/" + (x + "/" + u);
    SplitSlash(x + "/" + u);
    SplitAtSlash(x, u);
  }

  /** The step of `SplitJoinThen`: one more segment in front of a text `j`
      that starts with a slash. */
  lemma SplitJoinThenStep(x: string, j: string, u: string, tail: seq<string>)
    requires '/' !in x && |j| > 0 && j[0] == '/'
    requires Split(j + "/" + u) == [""] + tail
    ensures Split("/" + x + j + "/" + u) == [""] + [x] + tail
  {
    var w := j[1..] + "/" + u;
    assert j == "/" + j[1..];
    assert j + "/" + u == "/" + w;
    SplitSlash(w);
    assert Split(w) == tail by {
      assert Split(w) == ([""] + Split(w))[1..];
      assert ([""] + tail)[1..] == tail;
    }
    assert "/" + x + j + "/" + u == "/" + x + "/" + w;
    SplitSegmentThen(x, w);
  }

  /** A built link followed by a slash and more text splits into the link's
      pieces and then the pieces of that text. */
  lemma {:induction false} SplitJoinThen(segs: seq<string>, u: string)
    requires segs != [] && Plain(segs)
    ensures Split(Join(segs) + "/" + u) == [""] + segs + Split(u)
  {
    var x, rest := segs[0], segs[1..];
    assert segs == [x] + rest;
    assert Join(segs) == "/" + x + Join(rest);
    if rest == [] {
      assert Join(segs) + "/" + u == "/" + x + "/" + u;
      SplitSegmentThen(x, u);
    } else {
      SplitJoinThen(rest, u);
      SplitJoinThenStep(x, Join(rest), u, rest + Split(u));
      assert [x] + (rest + Split(u)) == segs + Split(u);
    }
  }

  /** `n` slashes. */
  function Slashes(n: nat): (s: string)
    ensures |s| == n
    ensures forall i :: 0 <= i < n ==> s[i] == '/'
  {
    if n == 0 then "" else "/" + Slashes(n - 1)
  }

  /** `n` slashes split into `n + 1` empty pieces. */
  lemma {:induction false} SplitSlashes(n: nat)
    ensures Split(Slashes(n)) == seq(n + 1, i => "")
  {
    if n > 0 {
      SplitSlashes(n - 1);
      assert Slashes(n)[1..] == Slashes(n - 1);
    }
  }

  /** Empty pieces after a last non-empty one are all dropped. */
  lemma {:induction false} DropTrailingEmpties(segs: seq<string>, n: nat)
    requires segs == [] || segs[|segs| - 1] != ""
    ensures DropTrailing(segs + seq(n, i => "")) == segs
  {
    if n > 0 {
      DropTrailingEmpties(segs, n - 1);
      assert (segs + seq(n, i => ""))[..|segs| + n - 1] == segs + seq(n - 1, i => "");
    } else {
      assert segs + seq(n, i => "") == segs;
    }
  }

  /** Splitting a built link gives back its segments. */
  lemma SegmentsJoin(segs: seq<string>)
    requires Plain(segs)
    ensures Segments(Join(segs)) == segs
  {
    if segs == [] {
      assert Split("") == [""];
    } else {
      SplitJoin(segs);
      assert ([""] + segs)[1..] == segs;
    }
  }

  /** A built link is routed on its own segments. */
  lemma MatchJoin(segs: seq<string>)
    requires Plain(segs)
    ensures Match(Join(segs)) == Route(segs)
  {
    SegmentsJoin(segs);
    assert "" !in segs by {
      forall i | 0 <= i < |segs| ensures segs[i] != "" { }
    }
  }

  /** Trailing slashes after a built link leave its segments as they are. */
  lemma SegmentsJoinSlashes(segs: seq<string>, n: nat)
    requires segs != [] && Plain(segs)
    ensures Segments(Join(segs) + Slashes(n)) == segs
  {
    if n == 0 {
      assert Join(segs) + Slashes(n) == Join(segs);
      SegmentsJoin(segs);
    } else {
      var path := Join(segs) + Slashes(n);
      assert Slashes(n) == "/" + Slashes(n - 1);
      assert path == Join(segs) + "/" + Slashes(n - 1);
      SplitJoinThen(segs, Slashes(n - 1));
      SplitSlashes(n - 1);
      assert Split(path)[1..] == segs + seq(n, i => "");
      DropTrailingEmpties(segs, n);
    }
  }

  /** Trailing slashes after a built link change nothing: the pathname is
      routed on the link's segments. */
  lemma MatchJoinSlashes(segs: seq<string>, n: nat)
    requires segs != [] && Plain(segs)
    ensures Match(Join(segs) + Slashes(n)) == Route(segs)
  {
    var path := Join(segs) + Slashes(n);
    SegmentsJoinSlashes(segs, n);
    assert "" !in segs by {
      forall i | 0 <= i < |segs| ensures segs[i] != "" { }
    }
    assert path[0] == '/';
  }

  /** The pages of the application. */
  datatype Page =
    | LoginPage
    | DashboardPage
    | SongList
    | SongView(id: string)
    | SongNew
    | SongEdit(id: string)
    | MemberList
    | UserAdmin
    | SettingsPage
    | ChatRoom
    | ProfilePage

  /** What the router does with a pathname: render a page, or redirect
      (`/` and every unmatched path go to `/dashboard`). */
  datatype Target = Show(page: Page) | GoTo(path: Path)

  const DashboardPath: Path := "/dashboard"
  const LoginPath: Path := "/login"
  const SongsPath: Path := "/songs"

  /** The segments with every one lower-cased: what the route table compares
      static segments against. */
  function Folded(s: seq<string>): (l: seq<string>)
    ensures |l| == |s|
    ensures forall i :: 0 <= i < |s| ==> l[i] == Lower(s[i])
  {
    seq(|s|, i requires 0 <= i < |s| => Lower(s[i]))
  }

  /** The route table, on the segments of a pathname. Every route pattern
      starts with a slash and takes one non-empty piece per segment, followed
      by any number of slashes: a pathname with a repeated slash, or without
      its leading one, matches only the catch-all. */
  function Match(path: Path): (t: Target)
    ensures t.GoTo? ==> t.path == DashboardPath
    ensures Segments(path) == [] ==> t == GoTo(DashboardPath)
    ensures "" in Segments(path) ==> t == GoTo(DashboardPath)
    ensures |path| > 0 && path[0] != '/' ==> t == GoTo(DashboardPath)
    ensures t.Show? ==> Plain(Segments(path)) && t == Route(Segments(path))
  {
    var segs := Segments(path);
    if (|path| > 0 && path[0] != '/') || "" in segs then GoTo(DashboardPath)
    else Route(segs)
  }

  function Route(s: seq<string>): (t: Target)
    ensures t.GoTo? ==> t.path == DashboardPath
    ensures s == [] ==> t == GoTo(DashboardPath)
  {
    var l := Folded(s);
    if l == ["login"] then Show(LoginPage)
    else if l == ["dashboard"] then Show(DashboardPage)
    else if l == ["songs"] then Show(SongList)
    else if l == ["songs", "new"] then Show(SongNew)
    else if |s| == 2 && l[0] == "songs" then Show(SongView(s[1]))
    else if |s| == 3 && l[0] == "songs" && l[2] == "edit" then Show(SongEdit(s[1]))
    else if l == ["members"] then Show(MemberList)
    else if l == ["users"] then Show(UserAdmin)
    else if l == ["settings"] then Show(SettingsPage)
    else if l == ["chat"] then Show(ChatRoom)
    else if l == ["profile"] then Show(ProfilePage)
    else GoTo(DashboardPath)
  }

  /** The segments of a page's link. */
  function Link(p: Page): seq<string> {
    match p
    case LoginPage => ["login"]
    case DashboardPage => ["dashboard"]
    case SongList => ["songs"]
    case SongView(id) => ["songs", id]
    case SongNew => ["songs", "new"]
    case SongEdit(id) => ["songs", id, "edit"]
    case MemberList => ["members"]
    case UserAdmin => ["users"]
    case SettingsPage => ["settings"]
    case ChatRoom => ["chat"]
    case ProfilePage => ["profile"]
  }

  /** A song id usable in a link: non-empty, slash-free, and (for the detail
      page) not the reserved segment "new" in any case. */
  predicate Linkable(p: Page) {
    match p
    case SongView(id) => id != "" && '/' !in id && Lower(id) != "new"
    case SongEdit(id) => id != "" && '/' !in id
    case _ => true
  }

  function Href(p: Page): (path: Path)
    requires Linkable(p)
  {
    Join(Link(p))
  }

  /** Following a page's link renders that page. */
  lemma HrefShows(p: Page)
    requires Linkable(p)
    ensures Match(Href(p)) == Show(p)
  {
    var segs := Link(p);
    assert Plain(segs);
    MatchJoin(segs);
    RouteLink(p);
    assert Href(p) == Join(segs);
  }

  /** A word without capitals is its own lower-case form. */
  lemma LowerOfLower(w: string)
    requires forall i :: 0 <= i < |w| ==> !('A' <= w[i] <= 'Z')
    ensures Lower(w) == w
  {
  }

  /** The static segments of every link are already lower case. */
  lemma FoldedLink(p: Page)
    ensures Folded(Link(p)) == match p
      case SongView(id) => ["songs", Lower(id)]
      case SongEdit(id) => ["songs", Lower(id), "edit"]
      case _ => Link(p)
  {
    var l := Link(p);
    forall i | 0 <= i < |l| && !((p.SongView? || p.SongEdit?) && i == 1)
      ensures Lower(l[i]) == l[i]
    {
      LowerOfLower(l[i]);
    }
  }

  /** Two segment lists that agree up to case, with the same `:id` segment,
      lead to the same target. */
  lemma RouteFolds(s: seq<string>, s': seq<string>)
    requires Folded(s) == Folded(s')
    requires |s| >= 2 ==> s[1] == s'[1]
    ensures Route(s) == Route(s')
  {
  }

  lemma RouteLink(p: Page)
    requires Linkable(p)
    ensures Route(Link(p)) == Show(p)
  {
    FoldedLink(p);
  }

  /** Every rendered page comes from its own link: the segments are the
      link's up to the case of the static ones, and the song id is the
      segment as typed. */
  lemma RouteIsLink(s: seq<string>, p: Page)
    requires Plain(s)
    requires Route(s) == Show(p)
    ensures Linkable(p) && Folded(s) == Folded(Link(p))
    ensures p.SongView? || p.SongEdit? ==> p.id == s[1]
  {
    FoldedLink(p);
  }

  /** Conversely, a pathname that renders a page is that page's link up to
      trailing slashes and the case of the static segments, and it carries
      the song id exactly as typed. */
  lemma ShowIsHref(path: Path, p: Page)
    requires Match(path) == Show(p)
    ensures Linkable(p) && Folded(Segments(path)) == Folded(Segments(Href(p)))
    ensures p.SongView? || p.SongEdit? ==> p.id == Segments(path)[1]
  {
    RouteIsLink(Segments(path), p);
    SegmentsJoin(Link(p));
  }

  /** A page's link followed by any number of slashes renders that page. */
  lemma TrailingSlashesShow(p: Page, n: nat)
    requires Linkable(p)
    ensures Match(Href(p) + Slashes(n)) == Show(p)
  {
    var segs := Link(p);
    assert Plain(segs) && segs != [];
    MatchJoinSlashes(segs, n);
    RouteLink(p);
    assert Href(p) == Join(segs);
  }

  /** A repeated slash inside a pathname leaves an empty segment, so
      `/songs//x` matches only the catch-all. */
  lemma RepeatedSlashRedirects()
    ensures Match("/songs//x") == GoTo(DashboardPath)
  {
    SplitPlain("x");
    assert "/x" == "" + "/" + "x";
    SplitAtSlash("", "x");
    assert "songs//x" == "songs" + "/" + "/x";
    SplitAtSlash("songs", "/x");
    assert Split("songs//x") == ["songs", "", "x"];
    assert "/songs//x" == "" + "/" + "songs//x";
    SplitAtSlash("", "songs//x");
    assert Split("/songs//x")[1..] == ["songs", "", "x"];
    assert Segments("/songs//x") == ["songs", "", "x"];
  }

  /** So does a doubled leading slash: `//songs` is not the song list. */
  lemma DoubledLeadingSlashRedirects()
    ensures Match("//songs") == GoTo(DashboardPath)
  {
    SplitPlain("songs");
    assert "/songs" == "" + "/" + "songs";
    SplitAtSlash("", "songs");
    assert "//songs" == "" + "/" + "/songs";
    SplitAtSlash("", "/songs");
    assert Split("//songs")[1..] == ["", "songs"];
    assert Segments("//songs") == ["", "songs"];
  }

  /** Any spelling of a link that differs only in the case of its static
      segments renders the same page: `/Users` is the users page and
      `/songs/NEW` the new-song editor. */
  lemma CaseVariantShows(s: seq<string>, p: Page)
    requires Linkable(p) && Plain(s)
    requires Folded(s) == Folded(Link(p))
    requires p.SongView? || p.SongEdit? ==> s[1] == p.id
    ensures Match(Join(s)) == Show(p)
  {
    MatchJoin(s);
    RouteLink(p);
    if p.SongView? || p.SongEdit? {
      RouteFolds(s, Link(p));
    } else {
      FoldedLink(p);
    }
  }

  /** `/Users` renders the users page. */
  lemma CapitalisedUsers()
    ensures Match("/Users") == Show(UserAdmin)
  {
    assert Join(["Users"]) == "/Users";
    FoldedLink(UserAdmin);
    assert Lower("Users") == "users";
    assert Folded(["Users"]) == ["users"];
    CaseVariantShows(["Users"], UserAdmin);
  }

  /** `/songs/NEW` is the new-song editor, not the song whose id is "NEW". */
  lemma CapitalisedNew()
    ensures Match("/songs/NEW") == Show(SongNew)
  {
    assert Join(["songs", "NEW"]) == "/songs/NEW";
    FoldedLink(SongNew);
    LowerOfLower("songs");
    assert Lower("NEW") == "new";
    assert Folded(["songs", "NEW"]) == ["songs", "new"];
    CaseVariantShows(["songs", "NEW"], SongNew);
  }

  /** `/songs/x/EDIT` is the editor of song "x". */
  lemma CapitalisedEdit()
    ensures Match("/songs/x/EDIT") == Show(SongEdit("x"))
  {
    assert Join(["songs", "x", "EDIT"]) == "/songs/x/EDIT";
    FoldedLink(SongEdit("x"));
    LowerOfLower("songs");
    LowerOfLower("x");
    assert Lower("EDIT") == "edit";
    assert Folded(["songs", "x", "EDIT"]) == ["songs", "x", "edit"];
    CaseVariantShows(["songs", "x", "EDIT"], SongEdit("x"));
  }

  /** The redirect target renders the dashboard, so redirects do not loop. */
  lemma DashboardRenders()
    ensures Match(DashboardPath) == Show(DashboardPage)
  {
    assert Href(DashboardPage) == DashboardPath;
    HrefShows(DashboardPage);
  }

  /** `isActive(path)`: the current pathname is exactly the link's path. */
  predicate IsActive(pathname: Path, path: Path) {
    pathname == path
  }

  /** Links of pages without parameters differ, so at most one of them is
      active for any pathname. */
  lemma HrefInjective(p: Page, q: Page)
    requires Linkable(p) && Linkable(q)
    requires Href(p) == Href(q)
    ensures p == q
  {
    HrefShows(p);
    HrefShows(q);
  }

  /** A sidebar whose links lead to pairwise different pages has at most one
      active link. */
  lemma OneActive(pages: seq<Page>, pathname: Path, i: int, j: int)
    requires forall k :: 0 <= k < |pages| ==> Linkable(pages[k])
    requires forall a, b :: 0 <= a < b < |pages| ==> pages[a] != pages[b]
    requires 0 <= i < |pages| && 0 <= j < |pages|
    requires IsActive(pathname, Href(pages[i])) && IsActive(pathname, Href(pages[j]))
    ensures i == j
  {
    HrefInjective(pages[i], pages[j]);
  }
}

=== FILE: song_editor.dfy ===
/** The song editor of the root variant (`pages/SongEditor.tsx`), whose
    logic the choir-ii-ruvumera variant repeats: loading the song named by
    the route, the required-field check, and the dispatch between updating
    and creating, with the author stamps each one writes. */
module SongEditor {
  import opened Wrappers
  import opened Domain
  import opened Tables
  import opened Routes

  /** The editable fields of a song. */
  datatype SongForm = SongForm(title: string, lyrics: string, category: string,
                               language: Option<string>, author: Option<string>)

  /** The form as it opens: everything empty, category `Worship`. */
  const InitialForm := SongForm("", "", "Worship", Some(""), Some(""))

  function FormOf(s: Song): SongForm {
    SongForm(s.title, s.lyrics, s.category, s.language, s.author)
  }

  /** `!!id`: the route names a song. */
  predicate EditMode(routeId: Option<Id>) {
    routeId.Some? && routeId.value != ""
  }

  /** Title, lyrics and category are all filled in. */
  predicate Complete(f: SongForm) {
    f.title != "" && f.lyrics != "" && f.category != ""
  }

  /** `songs.find(s => s.id === id)`: the first song with that id. */
  function Find(songs: seq<Song>, id: Id): (r: Option<Song>)
    ensures r.None? <==> forall i :: 0 <= i < |songs| ==> songs[i].id != id
    ensures r.Some? ==> exists i :: 0 <= i < |songs| && songs[i] == r.value && r.value.id == id
  {
    if |songs| == 0 then None
    else if songs[0].id == id then Some(songs[0])
    else
      var r := Find(songs[1..], id);
      assert forall i :: 1 <= i < |songs| ==> songs[i] == songs[1..][i - 1];
      r
  }

  datatype LoadOutcome =
    | NotEditing         // a new song: nothing to load
    | Loaded(form: SongForm)
    | NotFound           // navigates to `/songs`
    | LoadFailed         // the fetch threw; the form stays as it opened

  /** Where a load sends the browser, if anywhere. */
  function LoadTarget(o: LoadOutcome): Option<Path> {
    if o == NotFound then Some(SongsPath) else None
  }

  /** `loadSong`, given the fetched list (or the fetch's error): in edit
      mode the song with the route's id fills the form, and an id matching
      no song leads back to the library. */
  function LoadSong(fetched: Result<seq<Song>, Error>, routeId: Option<Id>): (r: LoadOutcome)
    ensures !EditMode(routeId) <==> r == NotEditing
    ensures r == LoadFailed <==> EditMode(routeId) && fetched.Failure?
    ensures LoadTarget(r) == Some(SongsPath) <==>
      EditMode(routeId) && fetched.Success? && forall i :: 0 <= i < |fetched.value| ==> fetched.value[i].id != routeId.value
    ensures r.Loaded? ==>
      exists i :: 0 <= i < |fetched.value| && fetched.value[i].id == routeId.value && r.form == FormOf(fetched.value[i])
  {
    if !EditMode(routeId) then NotEditing
    else match fetched
      case Failure(_) => LoadFailed
      case Success(songs) =>
        match Find(songs, routeId.value)
        case Some(s) => Loaded(FormOf(s))
        case None => NotFound
  }

  datatype SubmitOutcome =
    | Incomplete         // alerted "Please fill in required fields"
    | Saved(song: Song)  // navigates to `/songs`
    | SaveFailed(e: Error) // alerted "Error saving song"

  /** Where a submit sends the browser: only a save navigates, and it lands
      on the song list. */
  function SubmitTarget(o: SubmitOutcome): (p: Option<Path>)
    ensures p.Some? <==> o.Saved?
    ensures p.Some? ==> Match(p.value) == Show(SongList)
  {
    assert Href(SongList) == SongsPath;
    HrefShows(SongList);
    if o.Saved? then Some(SongsPath) else None
  }

  /** `handleSubmit`: an incomplete form writes nothing. In edit mode the
      five fields and `updatedBy` (the signed-in account, when there is one)
      are written over the song, whose `createdBy` and creation time stay; a
      new song gets the signed-in account as both `createdBy` and
      `updatedBy`. `remoteFails` is the store's answer when it is unreachable. A new song without a signed-in account carries no author,
      which the store refuses. */
  function Submit(db: Db, routeId: Option<Id>, f: SongForm, u: Option<User>, remoteFails: bool, newId: Id, now: int)
    : (r: (Db, SubmitOutcome))
    requires db.Valid()
    ensures !Complete(f) ==> r == (db, Incomplete)
    ensures !r.1.Saved? ==> r.0 == db
    ensures r.1.Saved? ==>
      && r.0.songs == db.songs[r.1.song.id := r.1.song]
      && r.0.users == db.users && r.0.members == db.members && r.0.messages == db.messages
    ensures r.1.Saved? ==>
      var s := r.1.song;
      && s.title == f.title && s.lyrics == f.lyrics && s.category == f.category
      && s.updatedAt == now
    ensures Complete(f) && EditMode(routeId) ==>
      var id := routeId.value;
      && (r.1.Saved? <==> !remoteFails && id in db.songs)
      && (r.1.Saved? ==>
            var s := r.1.song;
            var was := db.songs[id];
            && s.id == id && s.createdBy == was.createdBy && s.createdAt == was.createdAt
            && s.updatedBy == (if u.Some? then u.value.id else was.updatedBy)
            && s.language == (if f.language.Some? then f.language else was.language)
            && s.author == (if f.author.Some? then f.author else was.author))
    ensures Complete(f) && !EditMode(routeId) ==>
      && (r.1.Saved? <==> !remoteFails && u.Some? && newId !in db.songs)
      && (r.1.Saved? ==>
            var s := r.1.song;
            && s.id == newId && s.createdBy == u.value.id && s.updatedBy == u.value.id
            && s.createdAt == now && s.language == f.language && s.author == f.author)
  {
    if !Complete(f) then (db, Incomplete)
    else if remoteFails then (db, SaveFailed(RemoteFailure))
    else if EditMode(routeId) then
      var patch := SongPatch(Some(f.title), Some(f.lyrics), Some(f.category), f.language, f.author,
                             if u.Some? then Some(u.value.id) else None);
      match UpdateSong(db, routeId.value, patch, now)
      case Success((d, s)) => (d, Saved(s))
      case Failure(e) => (db, SaveFailed(e))
    else if u.None? then (db, SaveFailed(RemoteFailure))
    else
      var draft := SongDraft(f.title, f.lyrics, f.category, f.language, f.author, u.value.id, u.value.id);
      match CreateSong(db, draft, newId, now)
      case Success((d, s)) => (d, Saved(s))
      case Failure(e) => (db, SaveFailed(e))
  }

  /** Loading a song and saving the form untouched writes the song back as
      it was, apart from the update stamps. */
  lemma LoadThenSaveKeepsSong(db: Db, id: Id, u: Option<User>, newId: Id, now: int)
    requires db.Valid() && id != "" && id in db.songs
    requires Complete(FormOf(db.songs[id]))
    ensures var r := Submit(db, Some(id), FormOf(db.songs[id]), u, false, newId, now);
      && r.1.Saved?
      && r.1.song == db.songs[id].(updatedAt := now, updatedBy := if u.Some? then u.value.id else db.songs[id].updatedBy)
  {
  }

  /** The form a load fills in is the form of the stored song, so saving it
      keeps every field the form carries. */
  lemma LoadedFormIsStored(db: Db, songs: seq<Song>, id: Id)
    requires db.Valid() && id != ""
    requires forall i :: 0 <= i < |songs| ==> songs[i].id in db.songs && db.songs[songs[i].id] == songs[i]
    ensures LoadSong(Success(songs), Some(id)).Loaded? ==>
      id in db.songs && LoadSong(Success(songs), Some(id)).form == FormOf(db.songs[id])
  {
  }
}

=== FILE: tables.dfy ===
/** Store primitives that both persistence services implement the same way:
    lookups on the `users` table, the field-scoped account writes, and the
    `songs` and `messages` tables with their orderings. */
module Tables {
  import opened Wrappers
  import opened Collections
  import opened Domain

  /** The reserved bootstrap administrator. */
  const AdminEmail: string := "linox257@gmail.com"
  const AdminName: string := "Main Admin"
  const AdminPassword: string := "My company1"

  /** The ids of the accounts registered under exactly `email` (case-sensitive). */
  function WithEmail(users: map<Id, UserRow>, email: string): (ids: set<Id>)
    ensures forall k :: k in ids <==> k in users && users[k].user.email == email
  {
    set k | k in users && users[k].user.email == email
  }

  /** At most one account per email. */
  predicate UniqueEmails(users: map<Id, UserRow>) {
    forall a, b :: a in users && b in users && users[a].user.email == users[b].user.email ==> a == b
  }

  lemma UniqueEmailsAtMostOne(users: map<Id, UserRow>, email: string)
    requires UniqueEmails(users)
    ensures |WithEmail(users, email)| <= 1
  {
    var ids := WithEmail(users, email);
    if |ids| > 1 {
      var a :| a in ids;
      RemoveOne(ids, a);
    }
  }

  lemma RemoveOne(s: set<Id>, a: Id)
    requires a in s
    ensures |s - {a}| == |s| - 1
  {
    assert s == (s - {a}) + {a};
  }

  /** A set of two or more ids holds one other than any given id. */
  lemma AnotherMember(s: set<Id>, id: Id)
    requires |s| > 1
    ensures exists k :: k in s && k != id
  {
    if id in s {
      RemoveOne(s, id);
      assert s - {id} != {};
      var k :| k in s - {id};
    } else {
      assert s != {};
      var k :| k in s;
    }
  }

  lemma OneElement(s: set<Id>)
    requires |s| == 1
    ensures forall a, b :: a in s && b in s ==> a == b
  {
    forall a, b | a in s && b in s
      ensures a == b
    {
      if a != b {
        RemoveOne(s, a);
      }
    }
  }

  /** The only element of a one-element set. */
  function TheOne(s: set<Id>): (k: Id)
    requires |s| == 1
    ensures s == {k}
  {
    OneElement(s);
    var k :| k in s; k
  }

  /** `.eq('email', email).maybeSingle()`: no row, the one row, or an error
      when several rows match. */
  function FindByEmail(users: map<Id, UserRow>, email: string): (r: Result<Option<UserRow>, Error>)
    ensures r == Success(None) <==> WithEmail(users, email) == {}
    ensures r.Failure? <==> |WithEmail(users, email)| > 1
    ensures r.Failure? ==> r.error == MultipleRows
    ensures r.Success? && r.value.Some? ==>
      exists k :: WithEmail(users, email) == {k} && users[k] == r.value.value
  {
    var ids := WithEmail(users, email);
    if |ids| == 0 then Success(None)
    else if |ids| > 1 then Failure(MultipleRows)
    else Success(Some(users[TheOne(ids)]))
  }

  /** With unique emails the email lookup never reports several rows, and a
      hit is the account registered under that email. */
  lemma FindByEmailUnique(users: map<Id, UserRow>, email: string)
    requires UniqueEmails(users)
    ensures FindByEmail(users, email).Success?
    ensures forall k :: k in users && users[k].user.email == email ==>
      FindByEmail(users, email) == Success(Some(users[k]))
  {
    UniqueEmailsAtMostOne(users, email);
  }

  /** `.eq('id', id).single()` where an error reads as `null`. */
  function FindById(users: map<Id, UserRow>, id: Id): Option<UserRow> {
    if id in users then Some(users[id]) else None
  }

  /** The bootstrap administrator's row. */
  function AdminRow(id: Id, now: int, suspended: Option<bool>): UserRow {
    UserRow(User(id, AdminName, AdminEmail, ADMIN, now, None, suspended), AdminPassword)
  }

  /** A single-row insert into `users`; the primary key must be new. */
  function InsertUser(db: Db, row: UserRow): (r: Result<Db, Error>)
    ensures r.Failure? <==> row.user.id in db.users
    ensures r.Success? ==> r.value == db.(users := db.users[row.user.id := row])
  {
    if row.user.id in db.users then Failure(DuplicateKey)
    else Success(db.(users := db.users[row.user.id := row]))
  }

  /** The account fields an update may carry; id, creation time, role,
      credential and suspension flag are not among them. */
  datatype UserPatch = UserPatch(name: Option<string>, email: Option<string>, avatar: Option<string>)

  const NoChange := UserPatch(None, None, None)

  /** Applies the fields present in `p`. */
  function PatchUser(u: User, p: UserPatch): (r: User)
    ensures r.id == u.id && r.role == u.role && r.createdAt == u.createdAt
    ensures r.chatSuspended == u.chatSuspended
    ensures r.name == p.name.GetOr(u.name)
    ensures r.email == p.email.GetOr(u.email)
    ensures r.avatar == (if p.avatar.Some? then p.avatar else u.avatar)
  {
    User(u.id, p.name.GetOr(u.name), p.email.GetOr(u.email), u.role, u.createdAt,
         if p.avatar.Some? then p.avatar else u.avatar, u.chatSuspended)
  }

  /** `update(fields).eq('id', id).select().single()` on `users`: fails when no
      row has that id, and also when no field is given (an empty update body
      writes nothing and returns no row, so `.single()` fails); otherwise
      rewrites only that row's patched fields. */
  function UpdateUserRow(db: Db, id: Id, p: UserPatch): (r: Result<(Db, UserRow), Error>)
    ensures id !in db.users || p == NoChange <==> r == Failure(NoRows)
    ensures r.Failure? ==> r.error == NoRows
    ensures r.Success? ==>
      && r.value.1 == UserRow(PatchUser(db.users[id].user, p), db.users[id].passwordHash)
      && r.value.0 == db.(users := db.users[id := r.value.1])
  {
    if id !in db.users || p == NoChange then Failure(NoRows)
    else
      var row := UserRow(PatchUser(db.users[id].user, p), db.users[id].passwordHash);
      Success((db.(users := db.users[id := row]), row))
  }

  /** `resetUserPassword`: overwrites the credential of row `id` and nothing
      else; no row is touched when the id is unknown. */
  function ResetUserPassword(db: Db, id: Id, password: string): (r: Db)
    ensures r.songs == db.songs && r.members == db.members && r.messages == db.messages
    ensures r.users.Keys == db.users.Keys
    ensures forall k :: k in db.users && k != id ==> r.users[k] == db.users[k]
    ensures id in db.users ==> r.users[id] == UserRow(db.users[id].user, password)
  {
    if id in db.users then db.(users := db.users[id := UserRow(db.users[id].user, password)])
    else db
  }

  /** `deleteUser`: removes row `id` and nothing else. */
  function DeleteUser(db: Db, id: Id): (r: Db)
    ensures id !in r.users
    ensures forall k :: k in db.users && k != id ==> k in r.users && r.users[k] == db.users[k]
    ensures forall k :: k in r.users ==> k in db.users
    ensures r.songs == db.songs && r.members == db.members && r.messages == db.messages
  {
    db.(users := db.users - {id})
  }

  // ---------------------------------------------------------------- songs

  /** The fields a caller supplies when creating a song. */
  datatype SongDraft = SongDraft(
    title: string, lyrics: string, category: string,
    language: Option<string>, author: Option<string>,
    createdBy: Id, updatedBy: Id)

  /** `createSong`: the store assigns `newId` and stamps both timestamps. */
  function CreateSong(db: Db, d: SongDraft, newId: Id, now: int): (r: Result<(Db, Song), Error>)
    ensures r.Failure? <==> newId in db.songs
    ensures r.Success? ==>
      var s := r.value.1;
      && s == Song(newId, d.title, d.lyrics, d.category, d.language, d.author,
                   d.createdBy, d.updatedBy, now, now)
      && r.value.0 == db.(songs := db.songs[newId := s])
  {
    if newId in db.songs then Failure(DuplicateKey)
    else
      var s := Song(newId, d.title, d.lyrics, d.category, d.language, d.author,
                    d.createdBy, d.updatedBy, now, now);
      Success((db.(songs := db.songs[newId := s]), s))
  }

  /** What `updateSong` accepts: every song field except `id`, `createdAt`,
      `createdBy` (and `updatedAt`, which it always sets itself). */
  datatype SongPatch = SongPatch(
    title: Option<string>, lyrics: Option<string>, category: Option<string>,
    language: Option<string>, author: Option<string>, updatedBy: Option<Id>)

  /** `updateSong`: fails when the id is unknown; otherwise applies the patch
      and stamps `updatedAt` with the current time. */
  function UpdateSong(db: Db, id: Id, p: SongPatch, now: int): (r: Result<(Db, Song), Error>)
    ensures id !in db.songs <==> r == Failure(NoRows)
    ensures r.Success? ==>
      var was := db.songs[id];
      var s := r.value.1;
      && s.updatedAt == now
      && s.id == was.id && s.createdAt == was.createdAt && s.createdBy == was.createdBy
      && s.title == p.title.GetOr(was.title)
      && s.lyrics == p.lyrics.GetOr(was.lyrics)
      && s.category == p.category.GetOr(was.category)
      && s.language == (if p.language.Some? then p.language else was.language)
      && s.author == (if p.author.Some? then p.author else was.author)
      && s.updatedBy == p.updatedBy.GetOr(was.updatedBy)
      && r.value.0 == db.(songs := db.songs[id := s])
  {
    if id !in db.songs then Failure(NoRows)
    else
      var was := db.songs[id];
      var s := Song(was.id, p.title.GetOr(was.title), p.lyrics.GetOr(was.lyrics),
                    p.category.GetOr(was.category),
                    if p.language.Some? then p.language else was.language,
                    if p.author.Some? then p.author else was.author,
                    was.createdBy, p.updatedBy.GetOr(was.updatedBy), was.createdAt, now);
      Success((db.(songs := db.songs[id := s]), s))
  }

  /** `deleteSong`: removes song `id` and nothing else. */
  function DeleteSong(db: Db, id: Id): (r: Db)
    ensures id !in r.songs
    ensures forall k :: k in db.songs && k != id ==> k in r.songs && r.songs[k] == db.songs[k]
    ensures forall k :: k in r.songs ==> k in db.songs
    ensures r.users == db.users && r.members == db.members && r.messages == db.messages
  {
    db.(songs := db.songs - {id})
  }

  /** Songs newest first: `order('createdAt', { ascending: false })`. */
  function NewerFirst(a: Song, b: Song): bool {
    a.createdAt >= b.createdAt
  }

  /** Messages oldest first: `order('createdAt', { ascending: true })`. */
  function OlderFirst(a: Message, b: Message): bool {
    a.createdAt <= b.createdAt
  }

  lemma OrdersArePreorders()
    ensures TotalPreorder(NewerFirst)
    ensures TotalPreorder(OlderFirst)
  {
  }

  /** `getSongs`: every song once, newest first. */
  method ListSongs(db: Db) returns (r: seq<Song>)
    ensures Lists(r, db.songs)
    ensures forall i, j :: 0 <= i < j < |r| ==> r[i].createdAt >= r[j].createdAt
  {
    OrdersArePreorders();
    r := SortedListing(db.songs, NewerFirst);
  }

  /** `getMembers`: every member once, ascending by name under the store's
      collation `nameLe`. */
  method ListMembers(db: Db, nameLe: (string, string) -> bool) returns (r: seq<Member>)
    requires TotalPreorder(nameLe)
    ensures Lists(r, db.members)
    ensures forall i, j :: 0 <= i < j < |r| ==> nameLe(r[i].name, r[j].name)
  {
    var byName := By((m: Member) => m.name, nameLe);
    ByPreorder((m: Member) => m.name, nameLe);
    r := SortedListing(db.members, byName);
  }

  /** `getMessages`, oldest first, optionally cut to the first `limit` rows:
      the result holds the earliest messages, and all of them when fewer than
      `limit` exist. */
  method ListMessages(db: Db, limit: Option<nat>) returns (r: seq<Message>)
    ensures limit.None? ==> Lists(r, db.messages)
    ensures limit.Some? ==> |r| <= limit.value && (|r| == limit.value || Lists(r, db.messages))
    ensures limit.Some? && |db.messages| <= limit.value ==> Lists(r, db.messages)
    ensures multiset(r) <= multiset(db.messages.Values)
    ensures forall i, j :: 0 <= i < j < |r| ==> r[i].createdAt <= r[j].createdAt
    ensures forall x, y :: x in r && y in db.messages.Values && y !in r ==> x.createdAt <= y.createdAt
  {
    OrdersArePreorders();
    var all := SortedListing(db.messages, OlderFirst);
    assert |all| == |multiset(all)| == |db.messages.Values|;
    var n := if limit.Some? && limit.value < |all| then limit.value else |all|;
    ListingPrefix(all, db.messages, n, OlderFirst);
    r := all[..n];
    OlderFirstByTime(r, db.messages.Values);
  }

  /** `OlderFirst` facts about a listing `r` of some of the rows `all`, read
      as facts about `createdAt`. */
  lemma OlderFirstByTime(r: seq<Message>, all: set<Message>)
    requires SortedBy(r, OlderFirst)
    requires forall x, y :: x in r && y in all && y !in r ==> OlderFirst(x, y)
    ensures forall i, j :: 0 <= i < j < |r| ==> r[i].createdAt <= r[j].createdAt
    ensures forall x, y :: x in r && y in all && y !in r ==> x.createdAt <= y.createdAt
  {
    forall i, j | 0 <= i < j < |r|
      ensures r[i].createdAt <= r[j].createdAt
    {
      assert OlderFirst(r[i], r[j]);
    }
    forall x, y | x in r && y in all && y !in r
      ensures x.createdAt <= y.createdAt
    {
      assert OlderFirst(x, y);
    }
  }

  // ------------------------------------------------------------- messages

  /** What a sender supplies; the store assigns id and timestamp. */
  datatype MessageDraft = MessageDraft(
    userId: Id, userName: string, userAvatar: Option<string>, content: string,
    kind: MessageKind, mediaUrl: Option<string>, fileName: Option<string>)

  /** `sendMessage`: inserts the draft under `newId` at time `now`. */
  function SendMessage(db: Db, d: MessageDraft, newId: Id, now: int): (r: Result<(Db, Message), Error>)
    ensures r.Failure? <==> newId in db.messages
    ensures r.Success? ==>
      var m := r.value.1;
      && m == Message(newId, d.userId, d.userName, d.userAvatar, d.content, d.kind,
                      d.mediaUrl, d.fileName, now)
      && r.value.0 == db.(messages := db.messages[newId := m])
  {
    if newId in db.messages then Failure(DuplicateKey)
    else
      var m := Message(newId, d.userId, d.userName, d.userAvatar, d.content, d.kind,
                       d.mediaUrl, d.fileName, now);
      Success((db.(messages := db.messages[newId := m]), m))
  }

  /** `deleteMessage`: removes message `id` and nothing else. */
  function DeleteMessage(db: Db, id: Id): (r: Db)
    ensures id !in r.messages
    ensures forall k :: k in db.messages && k != id ==> k in r.messages && r.messages[k] == db.messages[k]
    ensures forall k :: k in r.messages ==> k in db.messages
    ensures r.users == db.users && r.songs == db.songs && r.members == db.members
  {
    db.(messages := db.messages - {id})
  }

  /** Every single-row write to the users table keeps each row under its
      own key. */
  lemma UserWritesKeepKeys(db: Db, id: Id, pw: string, p: UserPatch)
    requires db.Valid()
    ensures ResetUserPassword(db, id, pw).Valid()
    ensures DeleteUser(db, id).Valid()
    ensures UpdateUserRow(db, id, p).Success? ==> UpdateUserRow(db, id, p).value.0.Valid()
  {
  }

  /** Likewise for the songs table. */
  lemma SongWritesKeepKeys(db: Db, id: Id, sp: SongPatch, sd: SongDraft, newId: Id, now: int)
    requires db.Valid()
    ensures CreateSong(db, sd, newId, now).Success? ==> CreateSong(db, sd, newId, now).value.0.Valid()
    ensures UpdateSong(db, id, sp, now).Success? ==> UpdateSong(db, id, sp, now).value.0.Valid()
    ensures DeleteSong(db, id).Valid()
  {
  }

  /** Likewise for the messages table. */
  lemma MessageWritesKeepKeys(db: Db, id: Id, md: MessageDraft, newId: Id, now: int)
    requires db.Valid()
    ensures SendMessage(db, md, newId, now).Success? ==> SendMessage(db, md, newId, now).value.0.Valid()
    ensures DeleteMessage(db, id).Valid()
  {
  }
}

=== FILE: text.dfy ===
/** The string primitives the pages use: `toLowerCase`, `includes`, `trim`
    and `startsWith`, on strings as sequences of characters. */
module Text {

  /** `toLowerCase` on one code unit, for the ASCII letters; every other
      unit is left as it is. */
  function LowerChar(c: char): (d: char)
    ensures 'A' <= c <= 'Z' ==> 'a' <= d <= 'z' && d as int - c as int == 32
    ensures !('A' <= c <= 'Z') ==> d == c
  {
    if 'A' <= c <= 'Z' then (c as int + 32) as char else c
  }

  function Lower(s: string): (r: string)
    ensures |r| == |s|
    ensures forall i :: 0 <= i < |s| ==> r[i] == LowerChar(s[i])
  {
    seq(|s|, i requires 0 <= i < |s| => LowerChar(s[i]))
  }

  /** Lower-casing a lower-cased string changes nothing: searching compares
      two strings that have both been through it. */
  lemma LowerIdempotent(s: string)
    ensures Lower(Lower(s)) == Lower(s)
    ensures forall i :: 0 <= i < |s| ==> !('A' <= Lower(s)[i] <= 'Z')
  {
  }

  /** `hay.includes(needle)`: searches left to right for a position at which
      `needle` starts. */
  function Contains(hay: string, needle: string): (b: bool)
    ensures needle == [] ==> b
    ensures |needle| > |hay| ==> !b
    decreases |hay|
  {
    if needle <= hay then true
    else if |hay| == 0 then false
    else Contains(hay[1..], needle)
  }

  /** `needle` occurs in `hay` at position `i`. */
  predicate OccursAt(hay: string, needle: string, i: int) {
    0 <= i && i + |needle| <= |hay| && hay[i..i + |needle|] == needle
  }

  /** The search finds `needle` exactly when it occurs somewhere. */
  lemma {:induction false} ContainsMeansOccurs(hay: string, needle: string)
    ensures Contains(hay, needle) <==> exists i :: OccursAt(hay, needle, i)
    decreases |hay|
  {
    if needle <= hay {
      assert OccursAt(hay, needle, 0);
    } else if |hay| > 0 {
      ContainsMeansOccurs(hay[1..], needle);
      if Contains(hay[1..], needle) {
        var i :| OccursAt(hay[1..], needle, i);
        assert hay[i + 1..i + 1 + |needle|] == hay[1..][i..i + |needle|];
        assert OccursAt(hay, needle, i + 1);
      } else {
        forall i | OccursAt(hay, needle, i)
          ensures OccursAt(hay[1..], needle, i - 1)
        {
          assert hay[1..][i - 1..i - 1 + |needle|] == hay[i..i + |needle|];
        }
      }
    }
  }

  /** The code units `String.prototype.trim` removes: white space and line
      terminators as section 12.2 and 12.3 of ECMA-262 list them. */
  predicate IsSpace(c: char) {
    || c == '\t' || c == '\n' || c == '\U{B}' || c == '\U{C}' || c == '\r'
    || c == ' ' || c == '\U{A0}' || c == '\U{1680}'
    || ('\U{2000}' <= c <= '\U{200A}')
    || c == '\U{2028}' || c == '\U{2029}' || c == '\U{202F}' || c == '\U{205F}'
    || c == '\U{3000}' || c == '\U{FEFF}'
  }

  /** Every code unit of `s` is white space. */
  predicate Blank(s: string) {
    forall i :: 0 <= i < |s| ==> IsSpace(s[i])
  }

  /** How many white-space code units `s` starts with. */
  function SpacesBefore(s: string): (n: nat)
    ensures n <= |s|
    ensures forall k :: 0 <= k < n ==> IsSpace(s[k])
    ensures n < |s| ==> !IsSpace(s[n])
  {
    if |s| > 0 && IsSpace(s[0]) then
      var n := 1 + SpacesBefore(s[1..]);
      assert forall k :: 1 <= k < n ==> s[k] == s[1..][k - 1];
      n
    else 0
  }

  /** How many white-space code units `s` ends with. */
  function SpacesAfter(s: string): (n: nat)
    ensures n <= |s|
    ensures forall k :: |s| - n <= k < |s| ==> IsSpace(s[k])
    ensures n < |s| ==> !IsSpace(s[|s| - n - 1])
  {
    if |s| > 0 && IsSpace(s[|s| - 1]) then
      var n := 1 + SpacesAfter(s[..|s| - 1]);
      assert forall k :: |s| - n <= k < |s| - 1 ==> s[k] == s[..|s| - 1][k];
      n
    else 0
  }

  /** `s` without its leading white space. */
  function TrimStart(s: string): (r: string)
    ensures |r| <= |s| && r == s[|s| - |r|..]
    ensures Blank(s[..|s| - |r|])
    ensures |r| > 0 ==> !IsSpace(r[0])
  {
    s[SpacesBefore(s)..]
  }

  /** `s` without its trailing white space. */
  function TrimEnd(s: string): (r: string)
    ensures |r| <= |s| && r == s[..|r|]
    ensures Blank(s[|r|..])
    ensures |r| > 0 ==> !IsSpace(r[|r| - 1])
  {
    s[..|s| - SpacesAfter(s)]
  }

  /** `s.trim()`. */
  function Trim(s: string): (r: string)
    ensures |r| <= |s|
    ensures |r| > 0 ==> !IsSpace(r[0]) && !IsSpace(r[|r| - 1])
  {
    TrimEnd(TrimStart(s))
  }

  /** `!s.trim()`: the trimmed text is empty exactly when every code unit is
      white space, the empty string included. */
  lemma {:induction false} TrimEmptyIffBlank(s: string)
    ensures Trim(s) == [] <==> Blank(s)
  {
    var t := TrimStart(s);
    if !Blank(s) {
      var i :| 0 <= i < |s| && !IsSpace(s[i]);
      assert t[i - (|s| - |t|)] == s[i];
    }
  }

  /** `s.startsWith(prefix)`. */
  predicate StartsWith(s: string, prefix: string) {
    prefix <= s
  }

  /** `s.slice(0, n)`: the first `n` elements, or all of `s` when it is
      shorter. */
  function Take<T>(s: seq<T>, n: nat): (r: seq<T>)
    ensures |r| == if |s| < n then |s| else n
    ensures r <= s
  {
    if |s| < n then s else s[..n]
  }
}

=== FILE: user_admin.dfy ===
/** The account controls both user-management pages share
    (`pages/Users.tsx` and `choir-ii-ruvumera/pages/Users.tsx`): deleting an
    account, which an administrator may not do to their own, resetting a
    password through a prompt, and the create form. */
module UserAdmin {
  import opened Wrappers
  import opened Domain
  import opened Tables

  /** The delete control is rendered on every row but the signed-in
      account's own. */
  predicate ShowsDelete(me: Option<User>, row: User) {
    !(me.Some? && row.id == me.value.id)
  }

  datatype DeleteOutcome =
    | RefusedSelf   // alerted "You cannot delete yourself."
    | Declined
    | Deleted       // and the list is fetched again

  /** `handleDelete`: refuses the signed-in account's own id without asking;
      any other account is removed only when the confirmation is accepted. */
  function HandleDelete(db: Db, me: Option<User>, id: Id, confirmed: bool): (r: (Db, DeleteOutcome))
    ensures me.Some? && id == me.value.id ==> r == (db, RefusedSelf)
    ensures r.1 == Deleted <==> !(me.Some? && id == me.value.id) && confirmed
    ensures r.1 == Deleted ==> r.0 == DeleteUser(db, id)
    ensures r.1 != Deleted ==> r.0 == db
    ensures me.Some? && me.value.id in db.users ==> me.value.id in r.0.users
  {
    if me.Some? && id == me.value.id then (db, RefusedSelf)
    else if confirmed then (DeleteUser(db, id), Deleted)
    else (db, Declined)
  }

  /** The control and the handler agree: no path through the page removes the
      signed-in account. */
  lemma NoSelfDeletion(db: Db, me: User, row: User, confirmed: bool)
    requires me.id in db.users
    ensures !ShowsDelete(Some(me), row) <==> row.id == me.id
    ensures me.id in HandleDelete(db, Some(me), row.id, confirmed).0.users
  {
  }

  /** `handleResetPassword`, with `answer` what the prompt returned (`None`
      when cancelled): only a non-empty answer becomes the new credential,
      of that account alone. */
  function HandleResetPassword(db: Db, id: Id, answer: Option<string>): (r: Db)
    ensures !Truthy(answer) ==> r == db
    ensures r.users.Keys == db.users.Keys
    ensures forall k :: k in db.users && k != id ==> r.users[k] == db.users[k]
    ensures Truthy(answer) && id in db.users ==>
      r.users[id] == db.users[id].(passwordHash := answer.value)
    ensures r.songs == db.songs && r.members == db.members && r.messages == db.messages
  {
    if Truthy(answer) then ResetUserPassword(db, id, answer.value) else db
  }

  /** The create form: name, email, password and role. */
  datatype NewUserForm = NewUserForm(name: string, email: string, password: string, role: Role)

  /** The form as it opens, and as a successful create leaves it. */
  const BlankForm := NewUserForm("", "", "", USER)

  /** The create modal: whether it is open, and its form. */
  datatype CreateModal = CreateModal(open: bool, form: NewUserForm)
}

=== FILE: wrappers.dfy ===
/** Failure-carrying wrappers used throughout the model: `Option` for values the
    source may hold as `null`/`undefined`, and `Result` for calls that either
    return a value or throw. */
module Wrappers {

  datatype Option<+T> = None | Some(value: T) {

    /** The value, or `default` when there is none (the source's `x || default`
        for non-string values). */
    function GetOr(default: T): T {
      match this
      case Some(v) => v
      case None => default
    }
  }

  datatype Result<+R, +E> = Success(value: R) | Failure(error: E) {

    predicate IsFailure() {
      Failure?
    }

    function PropagateFailure<U>(): Result<U, E>
      requires Failure?
    {
      Failure(error)
    }

    function Extract(): R
      requires Success?
    {
      value
    }
  }
}
